=== FILE: README.md ===
# code_analyzer_v2: the output normalisers, in Dafny

code_analyzer_v2 runs some two dozen Python quality tools on a file or a project and gathers what they report.

This project models the part of it that carries logic:
- the functions that turn each tool's raw text or decoded JSON into lists of issue records;
- the argv construction and `reformat_needed` rule of the three formatter adapters;
- the per-file and per-project aggregator;
- the small fixture module the analyser is pointed at.

The processes, the file system and the JSON decoder are inputs. A finished process is its exit code and captured text. The decoder's result is a `Decoded` value (a `Json` tree, or the fact that the text was not JSON). `os.walk`, `os.path.join`, `os.path.relpath` and the tool runners are function parameters.

A Python exception that escapes a parser is the value `Raised(fault)` of an `Outcome`. Examples are `AttributeError` on a JSON value that is not a dict, and `ValueError` from `int()` or `float()`.

Each line-pattern parser hand-codes its regular expression as a matcher over one line. The matcher is proved in both directions:
- **sound**: every matched line is the rendering of a well-shaped raw line, and the record is that raw line's normalised fields;
- **complete**: every well-shaped raw line is matched, with exactly that record, unless its path holds a colon followed by digits and another colon (where the lazy path of the pattern stops early).

Each loop of the source is a `method` whose `ensures` ties its result to a specification function. The properties the source promises are lemmas about those functions.

Modules, one per source file, plus shared ones:
- `Runtime`: Option, Outcome, Fault.
- `Text`: the Python `str` operations used — strip, split, splitlines, prefix searches.
- `Numbers`: `int()` in base 10 and the text `float()` accepts, with signs, surrounding whitespace, `_` digit groups and `nan`/`inf`/`infinity`.
- `Repr`: `repr()` of a string, which the `int()`/`float()` errors and Radon's not-found error quote.
- `JsonValue`: the Json tree and dict `get`.
- `Lines`: filter-map over lines, the lazy `(.*?)` prefix search, and the leftmost-match search.
- `Banner`: `==+ … ==+` banners.

## Model

| member | source | states |
|---|---|---|
| Numbers.IntOf | CodeReview/TestingAndTestCoverage/coverage_runner.py:62-63 | a signed text converts exactly when what follows the sign is a digit part: digits, each `_` between two digits |
| Numbers.ParseInt | CodeReview/TestingAndTestCoverage/coverage_runner.py:62-63 | `int()` succeeds exactly when the stripped text is an optional sign and a digit part; otherwise it raises `invalid literal for int() with base 10: <repr>` |
| Numbers.DigitPartShape | CodeReview/TestingAndTestCoverage/coverage_runner.py:62-63 | a digit part starts and ends with a digit, holds only digits and `_`, and never two `_` in a row |
| Numbers.IntOfDigits | CodeReview/TestingAndTestCoverage/coverage_runner.py:62-63 | a run of ASCII digits converts to its decimal value |
| Numbers.IntOfSigned | CodeReview/TestingAndTestCoverage/coverage_runner.py:62-63 | a sign before digits gives the value, negated for `-` |
| Numbers.IntSpaced | CodeReview/TestingAndTestCoverage/coverage_runner.py:62-63 | whitespace around the text changes neither whether it converts nor its value |
| Numbers.IntGrouped | CodeReview/TestingAndTestCoverage/coverage_runner.py:62-63 | digits grouped by `_` convert to the value of the digits without the mark |
| Numbers.FloatTextUnsigned | CodeReview/ClarityAndMaintainability/radon_runner.py:60 | an unsigned text without surrounding whitespace is a float exactly when it is a decimal number or a special value |
| Numbers.SignedFloat | CodeReview/PerformanceAndEfficiency/cprofile_runner.py:47-50 | a sign followed by a decimal number or a special value is a float, and nothing else after a sign is |
| Numbers.SpecialFloat | CodeReview/ClarityAndMaintainability/radon_runner.py:60 | `nan`, `inf` and `infinity` in any case are floats |
| Numbers.SpecialCases | CodeReview/ClarityAndMaintainability/radon_runner.py:60 | `NaN`, `iNF` and `Infinity` are special values |
| Numbers.PointFloats | CodeReview/PerformanceAndEfficiency/cprofile_runner.py:47-50 | digits around a point form a float exactly when at least one side has a digit: `1.`, `.5`, `1.5`, but not `.` |
| Numbers.GroupedFloat | CodeReview/ClarityAndMaintainability/radon_runner.py:60 | digits grouped by `_`, with or without a fraction, form a float |
| Repr.QuoteOf | CodeReview/ClarityAndMaintainability/radon_runner.py:75 | `repr` picks `"` exactly when the string holds `'` and no `"` |
| Repr.ReprReadBack | CodeReview/ClarityAndMaintainability/radon_runner.py:75 | `repr(s)` is a quoted literal that reads back as `s` |
| Repr.PlainRepr | CodeReview/ClarityAndMaintainability/radon_runner.py:75 | printable ASCII without a backslash, and without both quotes, is written unchanged between the quotes |
| Repr.EscapeExample | CodeReview/ClarityAndMaintainability/radon_runner.py:75 | with both quotes present, `'` is chosen and escaped |
| Repr.ApostropheExample | CodeReview/ClarityAndMaintainability/radon_runner.py:75 | `it's` is written as `"it's"` |
| Runtime.Prepend | CodeReview/TestingAndTestCoverage/coverage_runner.py:45-66 | records put in front of a loop's rest raise exactly when the rest raises, with the same fault, and otherwise come before the rest's records |
| Flake8.MatchLine | CodeReview/CodeQuality/flake8_runner.py:18 | an accepted line's code is one upper-case letter and three digits |
| Flake8.MatchSound | CodeReview/CodeQuality/flake8_runner.py:18-31 | a matched line is `path:row:col:` + space + code + space + message, with digit row and column; the record is the stripped path, the integer row and column, the code and the stripped message |
| Flake8.MatchComplete | CodeReview/CodeQuality/flake8_runner.py:18-31 | every such line is matched, giving exactly that record, when no colon of the path is followed by digits and a colon |
| Flake8.PathColonMiss | CodeReview/CodeQuality/flake8_runner.py:18 | the lazy path cannot stop at a colon of the path that is not followed by digits and a colon |
| Flake8.RejectsFourDigitCode | CodeReview/CodeQuality/flake8_runner.py:18 | a line whose code has a fourth digit in place of the space is rejected |
| Flake8.ParseOutput | CodeReview/CodeQuality/flake8_runner.py:11-33 | the loop returns the records of the matching lines of the stripped output, in line order; other lines are dropped; every record's code is one upper-case letter and three digits |
| Lines.CollectLines | CodeReview/CodeQuality/flake8_runner.py:20-31 | the line loop every line parser runs returns the records of the matching lines, in line order |
| Flake8.OneLineReport | CodeReview/CodeQuality/flake8_runner.py:15-31 | a report made of one well-shaped line, such as the docstring's `E302` example, gives exactly its one record |
| Mypy.SplitCodeOf | CodeReview/CodeQuality/mypy_runner.py:19 | a message in which no two whitespace characters precede a `[`, followed by its optional `␣␣[code]`, splits back into that message and that code |
| Mypy.EarlyCodeOpen | CodeReview/CodeQuality/mypy_runner.py:19 | when the message does hold two whitespace characters and `[`, the lazy message stops there or earlier once a code follows |
| Mypy.MatchSound | CodeReview/CodeQuality/mypy_runner.py:18-35 | a matched line is `path:row: KIND: message` with KIND `error` or `note` with an optional code; the record holds the stripped path, integer row, kind, stripped message and the code only when present |
| Mypy.MatchComplete | CodeReview/CodeQuality/mypy_runner.py:18-35 | every such line is matched, giving exactly that record, when no colon of the path is followed by digits and a colon and no `[` of the message follows two whitespace characters |
| Mypy.RejectsOtherKind | CodeReview/CodeQuality/mypy_runner.py:19 | a line whose kind word is neither `error` nor `note` is dropped |
| Mypy.ParseOutput | CodeReview/CodeQuality/mypy_runner.py:11-37 | the loop returns the records of the matching lines of the stripped output, in line order; every record's file and message are already stripped |
| Mypy.MatchedStripped | CodeReview/CodeQuality/mypy_runner.py:27-32 | a record's file and message are left unchanged by `strip()` |
| Pep8Naming.MatchSound | CodeReview/NamingConvention/pep8_naming_runner.py:16-29 | a matched line is `path:row:col:` + space + `N`+digits + whitespace + message; the record holds the stripped fields, integers and a message that never starts with whitespace |
| Pep8Naming.MatchComplete | CodeReview/NamingConvention/pep8_naming_runner.py:16-29 | every such line is matched, giving exactly that record, when no colon of the path is followed by digits and a colon |
| Pep8Naming.AgreesWithFlake8 | CodeReview/NamingConvention/pep8_naming_runner.py:16-29 | on a flake8 line with an `N` code, both parsers give the same fields |
| Pep8Naming.FromFlake8 | CodeReview/NamingConvention/pep8_naming_runner.py:16-29 | such a flake8 line is a well-shaped pep8-naming line with the same rendering |
| Pep8Naming.RejectsOtherCode | CodeReview/NamingConvention/pep8_naming_runner.py:16 | a flake8 line whose code does not start with `N` is dropped |
| Pep8Naming.ParseOutput | CodeReview/NamingConvention/pep8_naming_runner.py:10-31 | the loop returns the records of the matching lines of the stripped output, in line order; every record's code is `N` followed by digits |
| Pep8Naming.MatchedCode | CodeReview/NamingConvention/pep8_naming_runner.py:16-27 | a record's code is `N` followed by at least one digit |
| Pylint.MatchLine | CodeReview/CodeQuality/pylint_runner.py:13-16 | an accepted line gives an issue whose message id is one upper-case letter and four digits |
| Pylint.SplitClosingOf | CodeReview/CodeQuality/pylint_runner.py:14 | the trailing whitespace + `(symbol)` is split at the last gap before the parenthesis |
| Pylint.MatchSound | CodeReview/CodeQuality/pylint_runner.py:13-29 | a matched line is `path:row:col:` + space + id + `:` + space + message + space + `(symbol)`; the record holds the stripped path and message, the integers and the symbol |
| Pylint.MatchComplete | CodeReview/CodeQuality/pylint_runner.py:13-29 | every such line with a symbol without `(` is matched, giving exactly that record, when no colon of the path is followed by digits and a colon |
| Pylint.RejectsFlake8Line | CodeReview/CodeQuality/pylint_runner.py:14 | a flake8 line (three-digit code, no colon after it) never gives a pylint record |
| Pylint.RatingValue | CodeReview/CodeQuality/pylint_runner.py:33-38 | the rating run converts exactly when `float()` accepts it, and then gives the summary entry |
| Pylint.RatingText | CodeReview/CodeQuality/pylint_runner.py:33-37 | a run of digits and dots is a float exactly when it holds a digit and at most one dot |
| Pylint.ReportShape | CodeReview/CodeQuality/pylint_runner.py:20-38 | with no rating text in the output the report is exactly the issue records in line order; when the first rating text is a float the report is those records followed by one summary of that rating; otherwise it raises |
| Pylint.RatingFound | CodeReview/CodeQuality/pylint_runner.py:32 | wherever `Your code has been rated at <digits and dots>/10` stands, the rating pattern matches there with that run, and the search finds a rating at that position or earlier |
| Pylint.ParseOutput | CodeReview/CodeQuality/pylint_runner.py:11-40 | returns the report specification |
| Radon.BlockRecord | CodeReview/ClarityAndMaintainability/radon_runner.py:27-35 | a block gives a record exactly when it is a dict, tagged with its file; any other block raises `AttributeError` on `get` |
| Radon.BlockFields | CodeReview/ClarityAndMaintainability/radon_runner.py:28-35 | `type`, `name`, `lineno`, `complexity` and `rank` are what `block.get` returns (None when absent) |
| Radon.RecordsOk | CodeReview/ClarityAndMaintainability/radon_runner.py:27-35 | a file's blocks all convert exactly when each block does |
| Radon.RecordsEach | CodeReview/ClarityAndMaintainability/radon_runner.py:27-35 | one record per block, in list order, each that block's record |
| Radon.FileRecordsOk | CodeReview/ClarityAndMaintainability/radon_runner.py:27-35 | a file's records exist exactly when all its blocks are dicts |
| Radon.FileRecordsEach | CodeReview/ClarityAndMaintainability/radon_runner.py:27-35 | each record is tagged with the file key and comes from the block at the same index |
| Radon.CcReport | CodeReview/ClarityAndMaintainability/radon_runner.py:20-26 | undecodable output gives the single `Invalid Radon CC JSON output` record; a non-dict top level raises on `items` |
| Radon.RecordsRaised | CodeReview/ClarityAndMaintainability/radon_runner.py:27-35 | a raise part-way through a block list is the result of the whole list |
| Radon.FilesRecordsRaised | CodeReview/ClarityAndMaintainability/radon_runner.py:26-35 | a raise part-way through the files is the result of the whole report |
| Radon.CcCount | CodeReview/ClarityAndMaintainability/radon_runner.py:25-37 | a well-formed report gives as many records as the block lists hold together |
| Radon.CcAppend | CodeReview/ClarityAndMaintainability/radon_runner.py:25-37 | the records of two key ranges are the first range's records followed by the second's: files in key order |
| Radon.CcOneFile | CodeReview/ClarityAndMaintainability/radon_runner.py:25-37 | a one-file report gives one record per block, each tagged with that file |
| Radon.FileBlocks | CodeReview/ClarityAndMaintainability/radon_runner.py:27-35 | the inner loop returns that file's record list |
| Radon.ParseCcOutput | CodeReview/ClarityAndMaintainability/radon_runner.py:16-37 | the nested loops return the CC report specification |
| Radon.ToFloat | CodeReview/ClarityAndMaintainability/radon_runner.py:60 | `float()` accepts booleans, JSON numbers other than an integer of magnitude 2^1024 - 2^970 or more (that one raises `OverflowError: int too large to convert to float`), and strings that are a signed decimal number (with `_` groups) or `nan`/`inf`/`infinity` between whitespace; it raises `could not convert string to float: <repr>` on any other string |
| Radon.ToFloatDigits | CodeReview/ClarityAndMaintainability/radon_runner.py:60 | a JSON integer of at most 308 digits converts, of either sign; one of 310 digits or more raises `OverflowError`, of either sign |
| Radon.MiOverflow | CodeReview/ClarityAndMaintainability/radon_runner.py:56-77 | when `float()` raises on the `mi` under the target's own key, the handler turns it into the `Could not parse Radon MI output: ` error carrying that exception's text |
| Radon.ConstantOutput | CodeReview/ClarityAndMaintainability/radon_runner.py:50-54 | output that decodes to `NaN` is a float, and `items` on it fails with `'float' object has no attribute 'items'` |
| JsonValue.NumberTypes | CodeReview/ClarityAndMaintainability/radon_runner.py:50 | `json.loads` gives a float for `NaN`, `Infinity` and `-Infinity` and for numbers with a fraction or an exponent, and an int for an integer literal; every fault that names a value's type uses these names |
| Numbers.DigitsToFloat | CodeReview/ClarityAndMaintainability/radon_runner.py:60 | the integer spelled by at most 308 digits, or its negation, lies strictly inside `float()`'s limit; one of 310 digits or more without a leading `0` lies outside it |
| Radon.GradeAt | CodeReview/ClarityAndMaintainability/radon_runner.py:64 | a match is a letter `A`–`F`, spaces, and a parenthesised run of digits and dots |
| Radon.MiEntry | CodeReview/ClarityAndMaintainability/radon_runner.py:57-73 | a dict gives `mi` (default 0) and `rank` (default `N/A`); a non-empty list whose first string holds a grade gives that grade; anything else goes on searching |
| Radon.MiScanNone | CodeReview/ClarityAndMaintainability/radon_runner.py:54-73 | when no key both matches and has a usable value, the scan finds nothing |
| Radon.MiScanFound | CodeReview/ClarityAndMaintainability/radon_runner.py:54-73 | a hit is the first key, in key order, whose normalised form equals the target's and whose value is usable |
| Radon.NormKeys | CodeReview/ClarityAndMaintainability/radon_runner.py:75 | the error text's key list is every key normalised, in key order |
| Radon.MiReport | CodeReview/ClarityAndMaintainability/radon_runner.py:48-77 | every result's `file` is the caller's path, never radon's key |
| Radon.MiFoundSound | CodeReview/ClarityAndMaintainability/radon_runner.py:52-71 | a found entry comes from a key whose normalised form equals the target's |
| Radon.MiSelf | CodeReview/ClarityAndMaintainability/radon_runner.py:52-62 | the target's own key matches itself: a dict under it gives its `mi` and `rank` |
| Radon.MiSkip | CodeReview/ClarityAndMaintainability/radon_runner.py:56-73 | a key that does not match, or whose value is unusable, is passed over |
| Radon.MiHit | CodeReview/ClarityAndMaintainability/radon_runner.py:56-71 | the first matching key with a usable value ends the search with that value |
| Radon.MiNotFound | CodeReview/ClarityAndMaintainability/radon_runner.py:75 | with no match, the error text contains the normalised target as it is and the `repr` of every normalised key |
| Radon.NotFoundQuotes | CodeReview/ClarityAndMaintainability/radon_runner.py:75 | the not-found text holds the target as it is and the `repr` of every key in the list's `repr` |
| Radon.ParseMiOutput | CodeReview/ClarityAndMaintainability/radon_runner.py:48-77 | the key loop with its early returns gives the MI report specification |
| Radon.Parent | CodeReview/ClarityAndMaintainability/radon_runner.py:85-88 | `dirname` is a fixed point only at the root; otherwise it drops the last component |
| Radon.NearestMarked | CodeReview/ClarityAndMaintainability/radon_runner.py:85-88 | the nearest ancestor, starting with the path itself and excluding the root, that holds a marker |
| Radon.ProjectRoot | CodeReview/ClarityAndMaintainability/radon_runner.py:83-90 | the root is an ancestor-or-self of the start; it is the start itself or a marked directory |
| Radon.RootNeverChecked | CodeReview/ClarityAndMaintainability/radon_runner.py:85-90 | with no marked directory below the root, the start path is returned |
| Radon.FindProjectRoot | CodeReview/ClarityAndMaintainability/radon_runner.py:79-90 | the upward `while` loop terminates and returns the project-root specification |
| Refactor.Step | CodeReview/ClarityAndMaintainability/refactor_runner.py:30-43 | a header line changes nothing; `@@` flushes a non-empty body under the current file and resets it; `refactor:` sets the file to the stripped rest; any other line is appended to the body |
| Refactor.RenderAll | CodeReview/ClarityAndMaintainability/refactor_runner.py:33-49 | one change per block, in order, each its file and its lines joined by newlines |
| Refactor.Plain | CodeReview/ClarityAndMaintainability/refactor_runner.py:42-43 | the lines that go into bodies are never markers or headers |
| Refactor.BlankOutput | CodeReview/ClarityAndMaintainability/refactor_runner.py:23-24 | whitespace-only input gives exactly the `No refactor suggestions found.` message |
| Refactor.Conservation | CodeReview/ClarityAndMaintainability/refactor_runner.py:30-43 | the flushed blocks and the open body, concatenated, are exactly the plain lines, in order |
| Refactor.BlocksPlain | CodeReview/ClarityAndMaintainability/refactor_runner.py:31-43 | every flushed block is non-empty and holds only plain lines; `---`/`+++` and marker lines never appear in a diff |
| Refactor.FinishConservation | CodeReview/ClarityAndMaintainability/refactor_runner.py:30-49 | after the final flush, the emitted lines are the plain lines, less a last segment dropped when no file was set |
| Refactor.OnlyMarkers | CodeReview/ClarityAndMaintainability/refactor_runner.py:26-51 | non-blank input made only of marker and header lines gives an empty list |
| Refactor.SplitLoop | CodeReview/ClarityAndMaintainability/refactor_runner.py:26-43 | the line loop leaves the flushed changes, the current file and the open body of the specification |
| Refactor.ParseOutput | CodeReview/ClarityAndMaintainability/refactor_runner.py:19-51 | returns the report specification, final flush included |
| Coverage.HeaderIndexFirst | CodeReview/TestingAndTestCoverage/coverage_runner.py:38-42 | the header index is the first line starting with `Name` that contains `Missing`, or 0 when there is none |
| Coverage.DataRow | CodeReview/TestingAndTestCoverage/coverage_runner.py:58-66 | a row with fewer than five fields is skipped; otherwise it gives file, int statements, int missed, coverage text and missing lines, or raises when a count is not an integer |
| Coverage.TotalOf | CodeReview/TestingAndTestCoverage/coverage_runner.py:47-56 | a TOTAL line with fewer than five fields gives nothing; otherwise it gives the one TOTAL record of its second and third fields as integers and its fourth as coverage, or raises when a count is not an integer |
| Coverage.Classify | CodeReview/TestingAndTestCoverage/coverage_runner.py:46-66 | a line stops the scan exactly when it is blank or starts with `TOTAL`; a blank line adds nothing; a kept row is a file row |
| Coverage.RowsStop | CodeReview/TestingAndTestCoverage/coverage_runner.py:46-57 | nothing after the stopping line is read |
| Coverage.TotalLast | CodeReview/TestingAndTestCoverage/coverage_runner.py:45-68 | every record but the last is a file row: the TOTAL record, if any, comes last |
| Coverage.ShortRowSkipped | CodeReview/TestingAndTestCoverage/coverage_runner.py:58-59 | a row with fewer than five fields is skipped and scanning goes on |
| Coverage.ShortTotalDropped | CodeReview/TestingAndTestCoverage/coverage_runner.py:46-57 | a TOTAL line with fewer than five fields ends the scan with no record |
| Coverage.FindHeader | CodeReview/TestingAndTestCoverage/coverage_runner.py:38-42 | the header loop returns the header index |
| Coverage.ScanRows | CodeReview/TestingAndTestCoverage/coverage_runner.py:45-66 | the row loop, starting two lines after the header, returns the scan specification |
| Coverage.ParseReport | CodeReview/TestingAndTestCoverage/coverage_runner.py:25-68 | returns the report specification |
| Pytest.Classify | CodeReview/TestingAndTestCoverage/pytest_runner.py:27-44 | FAILED, then PASSED, then ERROR; a FAILED line gives a record exactly when it splits into two pieces on ` - `, and the record is the two stripped pieces; PASSED and ERROR give the stripped line |
| Pytest.FailedRecord | CodeReview/TestingAndTestCoverage/pytest_runner.py:27-34 | `FAILED x::… - reason` with one separator gives the stripped test and reason |
| Pytest.ExtraSeparatorDropped | CodeReview/TestingAndTestCoverage/pytest_runner.py:28-29 | a FAILED line with a second separator is dropped |
| Pytest.SummaryOneLine | CodeReview/TestingAndTestCoverage/pytest_runner.py:47 | the summary text lies on one line |
| Pytest.SummaryFound | CodeReview/TestingAndTestCoverage/pytest_runner.py:47-51 | a banner at some position is found, at that position or an earlier one |
| Pytest.SummaryLast | CodeReview/TestingAndTestCoverage/pytest_runner.py:26-51 | the test records are one per classified line, in line order; at most one summary, and only at the end |
| Pytest.ParseOutput | CodeReview/TestingAndTestCoverage/pytest_runner.py:19-53 | returns the report specification |
| Hypothesis.FirstNumber | CodeReview/TestingAndTestCoverage/hypothesis_runner.py:43-49 | a part with no digit raises (the search result is None) |
| Hypothesis.FirstNumberOf | CodeReview/TestingAndTestCoverage/hypothesis_runner.py:43-49 | the count is the part's first digit run |
| Hypothesis.TallyLast | CodeReview/TestingAndTestCoverage/hypothesis_runner.py:39-49 | each count is 0 when no part is of its category, and otherwise the first number of the last such part: a later part overwrites an earlier one |
| Hypothesis.TallyRaises | CodeReview/TestingAndTestCoverage/hypothesis_runner.py:42-49 | the tally raises exactly when some keyword part has no digit |
| Hypothesis.NoBanner | CodeReview/TestingAndTestCoverage/hypothesis_runner.py:36-38 | without a session line every count stays 0 |
| Hypothesis.SessionFound | CodeReview/TestingAndTestCoverage/hypothesis_runner.py:37 | a session line at some position is found there or earlier: only the first is used |
| Hypothesis.ThreeCounts | CodeReview/TestingAndTestCoverage/hypothesis_runner.py:37-49 | `== a passed, b failed, c skipped in Ts ==` gives a, b, c and no errors |
| Hypothesis.TallyParts | CodeReview/TestingAndTestCoverage/hypothesis_runner.py:40-49 | the loop over the stripped parts returns the tally |
| Hypothesis.ParseSummary | CodeReview/TestingAndTestCoverage/hypothesis_runner.py:31-50 | returns the summary specification |
| Hypothesis.FalsifyAt | CodeReview/TestingAndTestCoverage/hypothesis_runner.py:60 | a block starts after `Falsifying example:` and a newline and runs to the next blank line or the end |
| Hypothesis.NoHead | CodeReview/TestingAndTestCoverage/hypothesis_runner.py:60-66 | with no `Falsifying example:` line the list is empty |
| Hypothesis.FirstBlock | CodeReview/TestingAndTestCoverage/hypothesis_runner.py:62-64 | the first occurrence gives the first entry and the search resumes after its block |
| Hypothesis.ParseFailures | CodeReview/TestingAndTestCoverage/hypothesis_runner.py:53-66 | the loop returns the failure list, one stripped entry per block, in order |
| HypothesisDoc.DocExample | CodeReview/TestingAndTestCoverage/hypothesis_runner.py:33-34 | the docstring line gives passed 3, failed 1, skipped 2, errors 0 |
| CProfile.Convert | CodeReview/PerformanceAndEfficiency/cprofile_runner.py:44-52 | the four time fields convert exactly when each is a float; `ncalls` and `location` stay text; otherwise the first bad field raises |
| CProfile.RowRecord | CodeReview/PerformanceAndEfficiency/cprofile_runner.py:42-52 | a line gives a record exactly when it has at least six tokens and all four times are floats; raises when one is not |
| CProfile.LocationIsRest | CodeReview/PerformanceAndEfficiency/cprofile_runner.py:42-44 | the first five fields are tokens and `location` is the rest of the stripped line, spaces kept |
| CProfile.ScanFirstHeader | CodeReview/PerformanceAndEfficiency/cprofile_runner.py:34-39 | every line up to and including the first `ncalls` header is ignored |
| CProfile.NoHeader | CodeReview/PerformanceAndEfficiency/cprofile_runner.py:34-39 | without a header the result is empty |
| CProfile.HeaderIgnoresPrefix | CodeReview/PerformanceAndEfficiency/cprofile_runner.py:34-41 | the result depends only on the lines after the first header |
| CProfile.RowsCollect | CodeReview/PerformanceAndEfficiency/cprofile_runner.py:35-54 | the rows raise exactly when one row raises; otherwise they are the records of the qualifying lines, in order |
| CProfile.ReadRow | CodeReview/PerformanceAndEfficiency/cprofile_runner.py:41-52 | the row step returns the row specification |
| CProfile.ParseLines | CodeReview/PerformanceAndEfficiency/cprofile_runner.py:31-54 | the flag-driven loop returns the table specification |
| CProfile.ParseOutput | CodeReview/PerformanceAndEfficiency/cprofile_runner.py:27-54 | returns the report specification |
| Bandit.IssueRecord | CodeReview/SecurityAndSafety/bandit_runner.py:27-35 | an element gives a record exactly when it is a dict; otherwise it raises `AttributeError` on `get` |
| Bandit.IssueFields | CodeReview/SecurityAndSafety/bandit_runner.py:28-34 | `filename` becomes `file` and `line_number` becomes `line`; the other five fields are copied; each is None when absent |
| Bandit.Results | CodeReview/SecurityAndSafety/bandit_runner.py:26 | a missing `results` key gives no elements; a non-dict report raises |
| Bandit.Report | CodeReview/SecurityAndSafety/bandit_runner.py:17-21 | output that is not JSON gives the single error record carrying the raw stdout |
| Bandit.IssuesEach | CodeReview/SecurityAndSafety/bandit_runner.py:26-35 | one record per element, in order, exactly when every element is a dict |
| Bandit.IssuesFault | CodeReview/SecurityAndSafety/bandit_runner.py:26-35 | a raise comes from the first element that is not a dict |
| Bandit.NoResults | CodeReview/SecurityAndSafety/bandit_runner.py:26 | a report without `results` has no issues |
| Bandit.ListedIssues | CodeReview/SecurityAndSafety/bandit_runner.py:23-37 | a list of dicts gives one record per listed issue, in order |
| Bandit.OtherKeysIgnored | CodeReview/SecurityAndSafety/bandit_runner.py:26 | reports that agree on `results` give the same records |
| Bandit.IssuesRaised | CodeReview/SecurityAndSafety/bandit_runner.py:26-35 | a raise part-way through stays the result |
| Bandit.RunBandit | CodeReview/SecurityAndSafety/bandit_runner.py:17-37 | the early return and the append loop give the report specification |
| Deptry.LastSomeSpec | CodeReview/DependencyManagement/deptry_runner.py:84-94 | the backward scan finds nothing exactly when no line qualifies; otherwise it gives a qualifying line's value, with no qualifying line after it |
| Deptry.After | CodeReview/DependencyManagement/deptry_runner.py:91 | `split(':', 1)`: the part before the first colon holds no colon and the line is before + `:` + after |
| Deptry.ParsedMessage | CodeReview/DependencyManagement/deptry_runner.py:76-79 | without the marker the message passes through unchanged |
| Deptry.MessageSource | CodeReview/DependencyManagement/deptry_runner.py:79-94 | with the marker, the message is the explanation of the last stripped non-blank line that holds `No file called` or starts with the exception name and has text after the colon; without one, the raw message is kept |
| Deptry.MessageOf | CodeReview/DependencyManagement/deptry_runner.py:76-100 | a string message is parsed and flagged by whether it holds the marker; other JSON values pass, or raise as `in` and `splitlines` do on them |
| Deptry.Entry | CodeReview/DependencyManagement/deptry_runner.py:70-101 | the record's `file` is its key |
| Deptry.EntryDefaults | CodeReview/DependencyManagement/deptry_runner.py:71-73 | a missing `deptry`, `error` or `message` defaults to `{}`, `Unknown` and `""` |
| Deptry.EntryMessage | CodeReview/DependencyManagement/deptry_runner.py:73-100 | the record's message and flag are those of the raw message |
| Deptry.Errors | CodeReview/DependencyManagement/deptry_runner.py:68-70 | a non-dict input raises on `items` |
| Deptry.EntriesEach | CodeReview/DependencyManagement/deptry_runner.py:70-101 | one record per key, in key order, each that key's entry |
| Deptry.EntriesOk | CodeReview/DependencyManagement/deptry_runner.py:70-101 | the records exist exactly when every key's entry does |
| Deptry.ErrorsEach | CodeReview/DependencyManagement/deptry_runner.py:68-103 | on a dict, one record per key, in key order, with `file` equal to the key |
| Deptry.EntriesRaised | CodeReview/DependencyManagement/deptry_runner.py:70-101 | a raise part-way through stays the result |
| Deptry.ExplainMessage | CodeReview/DependencyManagement/deptry_runner.py:81-94 | the backward loop with its breaks returns the message specification |
| Deptry.ReadMessage | CodeReview/DependencyManagement/deptry_runner.py:73-100 | returns the message step's specification |
| Deptry.ReadEntry | CodeReview/DependencyManagement/deptry_runner.py:71-101 | returns the entry specification |
| Deptry.ParseDeptryErrors | CodeReview/DependencyManagement/deptry_runner.py:68-103 | the key loop returns the records specification |
| Deptry.ClassName | CodeReview/DependencyManagement/deptry_runner.py:168 | the error type is the stripped last dotted segment before the first colon: it holds no dot and no colon |
| Deptry.ExceptionOf | CodeReview/DependencyManagement/deptry_runner.py:165-169 | a line gives an exception exactly when it starts with `deptry.exceptions.` and holds a colon |
| Deptry.InfoOf | CodeReview/DependencyManagement/deptry_runner.py:119-135 | no exception line gives `Unknown` and `Unknown error`; otherwise the line's type and stripped message |
| Deptry.KeptLast | CodeReview/DependencyManagement/deptry_runner.py:161-163 | dropping blank lines after stripping each line does not change which exception line is last |
| Deptry.ReadersAgree | CodeReview/DependencyManagement/deptry_runner.py:107-174 | `parse_traceback` and `parse_traceback_message` give the same error type and message on every input; only the `traceback` field differs (stripped or not) |
| Deptry.NoExceptionLine | CodeReview/DependencyManagement/deptry_runner.py:117-128 | with no exception line the result is `Unknown`, `Unknown error` and the unmodified input |
| Deptry.LastLineDecides | CodeReview/DependencyManagement/deptry_runner.py:126-135 | only the last exception line affects the result; later colons stay in the message |
| Deptry.ParseTracebackMessage | CodeReview/DependencyManagement/deptry_runner.py:107-137 | the backward loop returns the message reader's specification |
| Deptry.ParseTraceback | CodeReview/DependencyManagement/deptry_runner.py:142-174 | the backward loop returns the traceback reader's specification |
| Formatting.Echo | CodeReview/FormattingAndStyle/black_runner.py:27-38 | the result echoes the path, the verdict, both streams stripped and the exit code as returned |
| Formatting.ContainsStrip | CodeReview/FormattingAndStyle/black_runner.py:27-30 | a phrase with non-space ends occurs in stripped stdout exactly when it occurs in stdout |
| Formatting.BuildFlagCommand | CodeReview/FormattingAndStyle/black_runner.py:18-23 | the appends of black and isort build the argv specification |
| Formatting.FlagArgvShape | CodeReview/FormattingAndStyle/isort_runner.py:18-23 | the program first, its check flag iff check, then `--diff` iff diff, the path last |
| Black.ArgvDefaults | CodeReview/FormattingAndStyle/black_runner.py:6-23 | with the defaults argv is `black --check path` |
| Black.Verdict | CodeReview/FormattingAndStyle/black_runner.py:30 | reformatting is needed iff stdout contains `would reformat` or the exit code is 1 |
| Black.RunBlack | CodeReview/FormattingAndStyle/black_runner.py:6-38 | the result is the record of the process run on that argv |
| Isort.ArgvDefaults | CodeReview/FormattingAndStyle/isort_runner.py:6-23 | with the defaults argv is `isort --check-only path` |
| Isort.Verdict | CodeReview/FormattingAndStyle/isort_runner.py:30-31 | reformatting is needed iff the exit code is exactly 1; stdout does not matter |
| Isort.RunIsort | CodeReview/FormattingAndStyle/isort_runner.py:6-39 | the result is the record of the process run on that argv |
| Autopep8.BuildCommand | CodeReview/FormattingAndStyle/autopep8_runner.py:18-23 | the appends build the argv specification |
| Autopep8.ArgvShape | CodeReview/FormattingAndStyle/autopep8_runner.py:18-23 | `autopep8`, the path second, then `--diff` iff check, then `--exit-code` iff not diff |
| Autopep8.ArgvDefaults | CodeReview/FormattingAndStyle/autopep8_runner.py:6-23 | with the defaults argv is `autopep8 path --diff --exit-code` |
| Autopep8.Verdict | CodeReview/FormattingAndStyle/autopep8_runner.py:30-31 | reformatting is needed iff the exit code is exactly 1 |
| Autopep8.RunAutopep8 | CodeReview/FormattingAndStyle/autopep8_runner.py:6-39 | the result is the record of the process run on that argv |
| Analyzer.ToolsDistinct | code_analyzer/analyzer.py:31-77 | twenty-six report keys, no two alike |
| Analyzer.ResultsEach | code_analyzer/analyzer.py:29-78 | the dict is built exactly when no runner raises; it then holds each key, in order, with its runner's result on the same path |
| Analyzer.ResultsFault | code_analyzer/analyzer.py:29-78 | a raise is the exception of the first runner that raised; every earlier runner succeeded |
| Analyzer.AnalyzeFileShape | code_analyzer/analyzer.py:29-78 | `analyze_file` gives the 26 keys in declaration order, or the first runner's exception: there is no per-tool isolation |
| Analyzer.EntryOf | code_analyzer/analyzer.py:96-99 | a file whose analysis raised maps to `{'error': str(e)}` |
| Analyzer.Put | code_analyzer/analyzer.py:96-99 | dict assignment replaces a present key's value in place and appends a new key |
| Analyzer.PutSpec | code_analyzer/analyzer.py:96-99 | assignment keeps the keys distinct, adds the key and leaves every other entry alone |
| Analyzer.ListedSpec | code_analyzer/analyzer.py:91-92 | a file is visited exactly when some directory of the walk lists it |
| Analyzer.AddAllSpec | code_analyzer/analyzer.py:91-99 | the keys are distinct; a key is present exactly when some visited `.py` file has it as its relative path; each value is the entry of such a file; non-`.py` files never become keys |
| Analyzer.OnePerFile | code_analyzer/analyzer.py:91-99 | with distinct relative paths, the report is one entry per `.py` file, in visiting order, each under its relative path and holding that file's own entry |
| Analyzer.AnalyzeProject | code_analyzer/analyzer.py:80-100 | the nested walk loops, catching each file's exception and going on, return the project specification |
| Example.SumNumbers | TestProject/src/example.py:3-9 | the loop returns the sum of the list |
| Example.ZerosIgnored | TestProject/src/example.py:6-7 | skipping the zeros never changes the total |
| Example.SumAppend | TestProject/src/example.py:3-9 | the total of a concatenation is the sum of the totals |
| Example.SumExample | TestProject/src/tests/test_example.py:4 | `[1, 2, 3]` sums to 6 |
| Example.ComplexFunction | TestProject/src/example.py:14-25 | the result is never negative; for positive x it lies between x and 3x and is a multiple of x, and it differs from x only below 10 |
| Example.ComplexCases | TestProject/src/example.py:16-25 | 0 for x ≤ 0; 2x for even x and 3x for odd x between 1 and 9; x from 10 on |
| Example.ComplexExamples | TestProject/src/tests/test_example.py:7-9 | 2 gives 4, 3 gives 9, −1 gives 0 |
| Example.CalculateSum | TestProject/src/example.py:50-51 | ten more than the argument |
| Example.IsWorkingProper | TestProject/src/example.py:59-60 | always true |

## Left out

- Process invocation: every `subprocess.run` in the `run_*` functions, and the temporary-file handling, existence checks and clean-up of `run_deptry` (CodeReview/DependencyManagement/deptry_runner.py:10-65). A process is a plain `(returncode, stdout, stderr)` value; the formatter adapters take the process their argv yields as a function.
- `run_coverage`, `run_hypothesis`, `run_pytest` and the other runners only plumb process output into the parsers, which are modelled.
- `run_cprofile` executes the file under the profiler; only `parse_cprofile_output` is modelled.
- JSON decoding (`json.loads`) is an input: a `Decoded` value. JSON objects are member lists read with the first occurrence of a key; `json.loads` keeps the last of duplicate keys, so the model takes decoded objects to have distinct keys. The decoder's own `ValueError` on an integer literal of more than 4300 digits (Python's limit on integer string conversion) is not a `Decoded` outcome, so the model does not capture it.
- The MI not-found message (CodeReview/ClarityAndMaintainability/radon_runner.py:75) puts a backslash inside an f-string expression, which Python accepts only from 3.12 on; before that the module does not import. The model follows Python 3.12 or later.
- Floating point: `float()` is modelled by which texts it accepts (`Numbers.IsFloatText`: ASCII digits with `_` groups, a point, an exponent, `nan`/`inf`/`infinity` in any case, a sign, ASCII whitespace around); a converted value is kept as its text or JSON number, not as a float.
- `Radon.ToFloat`: Python's `float()` also accepts non-ASCII decimal digits (Arabic-Indic, full-width and the like) and strips Unicode whitespace beyond the six ASCII characters; the model rejects such strings.
- `CProfile.Convert`: the same narrowing of `float()` to ASCII digits and ASCII whitespace applies to the four time fields.
- `Coverage.DataRow`: `int()` also accepts non-ASCII decimal digits and Unicode whitespace, and `re.split(r'\s+')` splits on Unicode whitespace; the model uses ASCII digits and the six ASCII whitespace characters. `Coverage.TotalOf` shares this narrowing.
- `\d` in the source's regular expressions matches any Unicode decimal digit; the matchers take ASCII digits (`Text.IsDigit`) only.
- `Repr.ReprStr`: `repr` also writes `\x`, `\u` or `\U` escapes for non-printable characters above U+00A0; the model writes those characters as they are.
- `os.path.abspath`, `normcase`, `dirname`, `join`, `relpath`, `os.walk` and `os.path.exists` are parameters. `dirname` is modelled on paths as component lists, with the root as its fixed point.
- `str.splitlines` is modelled as splitting on `'\n'` only; Python also splits on `\r`, `\r\n`, `\v`, `\f`, `\x1c`–`\x1e`, `\x85`, U+2028 and U+2029. Whitespace is the six ASCII whitespace characters.
- `Pylint.ParseOutput`: `re.finditer` with `MULTILINE` runs over the whole output, where a `\s` of the pattern may match a newline and let one match span two lines; the model matches line by line.
- The exact text of `str(e)` for each exception is not modelled: a fault is its type and the name or detail involved (`Runtime.FaultText`).
- Radon's `print` of an unexpected MI value is output only and is left out; the search goes on, as in the source.
- In `parse_traceback`, the `except ValueError` branch (CodeReview/DependencyManagement/deptry_runner.py:171-172) cannot be reached: a line that holds a colon always splits into two parts. The model has no such branch.
- `Deptry.MessageOf`: the `in` test and `splitlines` on a JSON list or dict are modelled by their outcome (membership, or the `AttributeError`), not by Python's full semantics for other element types.
- The profiling runners that execute user code (line_profiler_runner.py, memory_profiler_runner.py, scalene_runner.py), pyspellchecker_runner.py (depends on an external dictionary and on set iteration order), and the thin wrappers pip_audit_runner.py, pipreqs_runner.py, pdoc_runner.py, sphinx_runner.py, docformatter_runner.py and darglint_runner.py are not part of this model. In `analyze_file` their results come from the abstract runners.
- `greet`, `recieve_data`, `unused_function`, `process_data`, `MY_CONSTANT_FUNCTION` and the classes of TestProject/src/example.py only print or do nothing, and are left out.
- `Flake8.OneLineReport`: the docstring example is proved for every well-shaped line of that form, not for the literal text.
- `Analyzer.AddAllSpec`: when two visited files share a relative path, the key holds the entry of one of them (the later one in the source); the lemma states only that it is one of them.

## Where the code and its description differ

A coverage `TOTAL` line with four fields (`TOTAL 100 10 90%`) is sometimes described as producing a TOTAL record. The code requires at least five whitespace-separated fields (CodeReview/TestingAndTestCoverage/coverage_runner.py:50). So such a line gives no record (`Coverage.ShortTotalDropped`). The model follows the code.

=== FILE: analyzer.dfy ===
/** The driver (code_analyzer/analyzer.py): every tool on one file, and
    every Python file of a project tree. The tool runners, the directory
    walk and the path functions are parameters. */
module Analyzer {
  import opened Runtime

  // ---------------------------------------------------------------------
  // analyze_file

  /** The report keys, in the order the report lists them and the runners
      run. */
  const Tools: seq<string> := [
    "pylint", "flake8", "mypy", "pyspellchecker", "pep8_naming",
    "radon-cc", "radon-mi", "refactor", "pytest", "coverage", "hypothesis",
    "bandit", "pipreqs", "pip-audit", "deptry",
    "cprofile", "line_profiler", "memory_profiler", "scalene",
    "black", "isort", "autopep8",
    "sphinx", "docformatter", "darglint", "pdoc"]

  /** Twenty-six keys, no two alike. */
  lemma ToolsDistinct()
    ensures |Tools| == 26
    ensures forall i, j :: 0 <= i < j < |Tools| ==> Tools[i] != Tools[j]
  {
  }

  /** A tool's runner on a path: its result, or the exception it raised. */
  type Runner<T> = (string, string) -> Outcome<T>

  /** The results of the tools `keys` on `path`, each under its key, in key
      order; the first runner that raises aborts the whole dict. */
  function Results<T>(keys: seq<string>, path: string, run: Runner<T>): Outcome<seq<(string, T)>>
  {
    if keys == [] then Ok([])
    else
      var n := |keys| - 1;
      match Results(keys[..n], path, run)
      case Raised(f) => Raised(f)
      case Ok(rs) =>
        match run(keys[n], path)
        case Raised(f) => Raised(f)
        case Ok(v) => Ok(rs + [(keys[n], v)])
  }

  /** `analyze_file` */
  function AnalyzeFile<T>(path: string, run: Runner<T>): Outcome<seq<(string, T)>>
  {
    Results(Tools, path, run)
  }

  /** The dict is built exactly when no runner raises; it then holds one
      entry per key, in key order, each the key's runner result on the same
      path. */
  lemma {:induction false} ResultsEach<T>(keys: seq<string>, path: string, run: Runner<T>)
    ensures Results(keys, path, run).Ok? <==> forall k :: 0 <= k < |keys| ==> run(keys[k], path).Ok?
    ensures Results(keys, path, run).Ok? ==>
              var rs := Results(keys, path, run).value;
              |rs| == |keys| && forall k :: 0 <= k < |keys| ==> rs[k] == (keys[k], run(keys[k], path).value)
  {
    if keys != [] {
      var n := |keys| - 1;
      var init := keys[..n];
      ResultsEach(init, path, run);
      assert forall k :: 0 <= k < n ==> init[k] == keys[k];
      if Results(keys, path, run).Ok? {
        var pre := Results(init, path, run).value;
        var rs := Results(keys, path, run).value;
        assert rs == pre + [(keys[n], run(keys[n], path).value)];
        forall k | 0 <= k < |keys|
          ensures rs[k] == (keys[k], run(keys[k], path).value)
        {
          if k < n {
            assert rs[k] == pre[k];
          }
        }
      }
    }
  }

  /** A raise is the exception of the first runner, in key order, that
      raised: every runner before it succeeded. */
  lemma {:induction false} ResultsFault<T>(keys: seq<string>, path: string, run: Runner<T>)
    requires Results(keys, path, run).Raised?
    ensures exists i :: 0 <= i < |keys| && run(keys[i], path) == Raised(Results(keys, path, run).fault)
                        && forall j :: 0 <= j < i ==> run(keys[j], path).Ok?
  {
    var n := |keys| - 1;
    var init := keys[..n];
    assert forall j :: 0 <= j < n ==> init[j] == keys[j];
    if Results(init, path, run).Raised? {
      ResultsFault(init, path, run);
      var i :| 0 <= i < |init| && run(init[i], path) == Raised(Results(init, path, run).fault)
               && forall j :: 0 <= j < i ==> run(init[j], path).Ok?;
      assert keys[i] == init[i];
    } else {
      ResultsEach(init, path, run);
    }
  }

  /** `analyze_file` gives the twenty-six keys in declaration order, each with
      its runner's result on the file, or the first exception raised. */
  lemma AnalyzeFileShape<T>(path: string, run: Runner<T>)
    ensures AnalyzeFile(path, run).Ok? ==>
              var rs := AnalyzeFile(path, run).value;
              |rs| == 26 && forall k :: 0 <= k < 26 ==> rs[k].0 == Tools[k] && Ok(rs[k].1) == run(Tools[k], path)
    ensures AnalyzeFile(path, run).Raised? ==>
              exists i :: 0 <= i < 26 && run(Tools[i], path) == Raised(AnalyzeFile(path, run).fault)
                          && forall j :: 0 <= j < i ==> run(Tools[j], path).Ok?
  {
    ToolsDistinct();
    ResultsEach(Tools, path, run);
    if AnalyzeFile(path, run).Raised? {
      ResultsFault(Tools, path, run);
    }
  }

  // ---------------------------------------------------------------------
  // analyze_project

  /** A report entry: the file's tool results, or `{'error': str(e)}`. */
  datatype Entry<T> = Analysis(results: seq<(string, T)>) | Failed(error: string)

  /** The entry `analyze_project` stores for one file. */
  function EntryOf<T>(fullPath: string, run: Runner<T>): (e: Entry<T>)
    ensures e.Failed? <==> AnalyzeFile(fullPath, run).Raised?
    ensures e.Failed? ==> e.error == FaultText(AnalyzeFile(fullPath, run).fault)
  {
    match AnalyzeFile(fullPath, run)
    case Ok(rs) => Analysis(rs)
    case Raised(f) => Failed(FaultText(f))
  }

  /** The keys of a dict kept as its items in insertion order. */
  function Keys<V>(m: seq<(string, V)>): (r: seq<string>)
    ensures |r| == |m| && forall i :: 0 <= i < |m| ==> r[i] == m[i].0
  {
    seq(|m|, i requires 0 <= i < |m| => m[i].0)
  }

  predicate DistinctKeys<V>(m: seq<(string, V)>) {
    forall i, j :: 0 <= i < j < |m| ==> m[i].0 != m[j].0
  }

  /** `m[k] = v`: a present key keeps its place and takes the new value; a
      new key goes last. */
  function Put<V>(m: seq<(string, V)>, k: string, v: V): (r: seq<(string, V)>)
    ensures k in Keys(m) ==> |r| == |m|
    ensures k !in Keys(m) ==> |r| == |m| + 1 && r[|m|] == (k, v)
    ensures forall i :: 0 <= i < |m| ==> r[i] == if m[i].0 == k then (k, v) else m[i]
  {
    if k in Keys(m) then seq(|m|, i requires 0 <= i < |m| => if m[i].0 == k then (k, v) else m[i])
    else m + [(k, v)]
  }

  /** The host services `analyze_project` uses: `os.path.join`,
      `os.path.relpath` and the tool runners. */
  datatype Host<T> = Host(join: (string, string) -> string, relpath: (string, string) -> string, run: Runner<T>)

  /** `file.endswith('.py')` */
  predicate IsPython(file: string) {
    |file| >= 3 && file[|file| - 3..] == ".py"
  }

  /** The key of a file found under `root`: its path relative to the
      project root `path`. */
  function RelPath<T>(path: string, root: string, file: string, h: Host<T>): string
  {
    h.relpath(h.join(root, file), path)
  }

  /** The files of the walk in visiting order, each with its directory. */
  function Listed(walk: seq<(string, seq<string>)>): seq<(string, string)>
  {
    if walk == [] then []
    else Listed(walk[..|walk| - 1]) + InDir(walk[|walk| - 1].0, walk[|walk| - 1].1)
  }

  /** A file is visited exactly when some directory of the walk lists it. */
  lemma {:induction false} ListedSpec(walk: seq<(string, seq<string>)>, root: string, file: string)
    ensures (root, file) in Listed(walk) <==> exists d :: 0 <= d < |walk| && walk[d].0 == root && file in walk[d].1
  {
    if walk != [] {
      var n := |walk| - 1;
      var init := walk[..n];
      ListedSpec(init, root, file);
      assert forall d :: 0 <= d < n ==> init[d] == walk[d];
      var dir := InDir(walk[n].0, walk[n].1);
      if (root, file) in dir {
        var j :| 0 <= j < |dir| && dir[j] == (root, file);
        assert walk[n].1[j] == file;
      }
      if walk[n].0 == root && file in walk[n].1 {
        var j :| 0 <= j < |walk[n].1| && walk[n].1[j] == file;
        assert dir[j] == (root, file);
      }
    }
  }

  /** The files of one directory, each with the directory. */
  function InDir(root: string, files: seq<string>): (r: seq<(string, string)>)
    ensures |r| == |files| && forall j :: 0 <= j < |files| ==> r[j] == (root, files[j])
  {
    seq(|files|, j requires 0 <= j < |files| => (root, files[j]))
  }

  /** One file visited: a Python file's entry is stored under its key. */
  function AddFile<T>(report: seq<(string, Entry<T>)>, path: string, f: (string, string), h: Host<T>)
    : seq<(string, Entry<T>)>
  {
    if IsPython(f.1) then Put(report, RelPath(path, f.0, f.1, h), EntryOf(h.join(f.0, f.1), h.run))
    else report
  }

  /** The report after visiting `files` in order. */
  function AddAll<T>(report: seq<(string, Entry<T>)>, path: string, files: seq<(string, string)>, h: Host<T>)
    : seq<(string, Entry<T>)>
  {
    if files == [] then report
    else AddFile(AddAll(report, path, files[..|files| - 1], h), path, files[|files| - 1], h)
  }

  /** `analyze_project` over the walk `walk` of the tree rooted at `path`:
      the `(root, files)` pairs `os.walk` yields. */
  function Project<T>(path: string, walk: seq<(string, seq<string>)>, h: Host<T>): seq<(string, Entry<T>)>
  {
    AddAll([], path, Listed(walk), h)
  }

  /** Every Python file yields exactly one key and nothing else does: the
      keys are distinct, and a key is present exactly when some visited
      Python file has it as its relative path. Each key holds the entry of
      a Python file with that key (the last one, should two share it). */
  lemma {:induction false} AddAllSpec<T>(path: string, files: seq<(string, string)>, h: Host<T>)
    ensures var r := AddAll([], path, files, h);
            DistinctKeys(r)
            && (forall k :: k in Keys(r) <==>
                  exists i :: 0 <= i < |files| && IsPython(files[i].1) && RelPath(path, files[i].0, files[i].1, h) == k)
            && forall p :: 0 <= p < |r| ==>
                 exists i :: 0 <= i < |files| && IsPython(files[i].1) && RelPath(path, files[i].0, files[i].1, h) == r[p].0
                             && r[p].1 == EntryOf(h.join(files[i].0, files[i].1), h.run)
  {
    if files != [] {
      var n := |files| - 1;
      var init := files[..n];
      AddAllSpec(path, init, h);
      assert forall i :: 0 <= i < n ==> init[i] == files[i];
      var pre := AddAll([], path, init, h);
      var f := files[n];
      if IsPython(f.1) {
        PutSpec(pre, RelPath(path, f.0, f.1, h), EntryOf(h.join(f.0, f.1), h.run));
      }
    }
  }

  /** What `Put` keeps: distinct keys stay distinct, the key set gains `k`,
      and every other entry is unchanged. */
  lemma PutSpec<V>(m: seq<(string, V)>, k: string, v: V)
    requires DistinctKeys(m)
    ensures var r := Put(m, k, v);
            DistinctKeys(r)
            && (forall x :: x in Keys(r) <==> x in Keys(m) || x == k)
            && forall p :: 0 <= p < |r| ==> (r[p].0 == k && r[p].1 == v) || (r[p] in m && r[p].0 != k)
  {
    var r := Put(m, k, v);
    forall x ensures x in Keys(r) <==> x in Keys(m) || x == k {
      if x in Keys(r) {
        var p :| 0 <= p < |r| && Keys(r)[p] == x;
      }
      if x in Keys(m) {
        var p :| 0 <= p < |m| && Keys(m)[p] == x;
        assert Keys(r)[p] == r[p].0;
      }
      if x == k && k in Keys(m) {
        var p :| 0 <= p < |m| && Keys(m)[p] == k;
        assert Keys(r)[p] == r[p].0;
      }
      if x == k && k !in Keys(m) {
        assert Keys(r)[|m|] == k;
      }
    }
  }

  /** The report a walk with distinct keys should give: one entry per
      Python file, in visiting order, each under the file's key and holding
      that file's own entry. */
  function PythonEntries<T>(path: string, files: seq<(string, string)>, h: Host<T>): seq<(string, Entry<T>)>
  {
    if files == [] then []
    else
      var f := files[|files| - 1];
      PythonEntries(path, files[..|files| - 1], h)
        + (if IsPython(f.1) then [(RelPath(path, f.0, f.1, h), EntryOf(h.join(f.0, f.1), h.run))] else [])
  }

  /** With distinct relative paths, the report is exactly that: one entry
      per Python file, in visiting order, each holding that file's own
      entry. */
  lemma {:induction false} OnePerFile<T>(path: string, files: seq<(string, string)>, h: Host<T>)
    requires forall i, j :: 0 <= i < j < |files| && IsPython(files[i].1) && IsPython(files[j].1) ==>
               RelPath(path, files[i].0, files[i].1, h) != RelPath(path, files[j].0, files[j].1, h)
    ensures AddAll([], path, files, h) == PythonEntries(path, files, h)
    ensures |AddAll([], path, files, h)| == PythonCount(files)
  {
    if files != [] {
      var n := |files| - 1;
      var init := files[..n];
      assert forall i :: 0 <= i < n ==> init[i] == files[i];
      OnePerFile(path, init, h);
      var f := files[n];
      if IsPython(f.1) {
        AddAllSpec(path, init, h);
        assert RelPath(path, f.0, f.1, h) !in Keys(AddAll([], path, init, h));
      }
    }
  }

  /** How many visited files are Python files. */
  function PythonCount(files: seq<(string, string)>): nat
  {
    if files == [] then 0
    else PythonCount(files[..|files| - 1]) + (if IsPython(files[|files| - 1].1) then 1 else 0)
  }

  /** `analyze_project`: the nested walk loops, storing each Python file's
      entry or its error under its relative path. */
  method AnalyzeProject<T>(path: string, walk: seq<(string, seq<string>)>, h: Host<T>)
    returns (report: seq<(string, Entry<T>)>)
    ensures report == Project(path, walk, h)
  {
    report := [];
    var i := 0;
    while i < |walk|
      invariant 0 <= i <= |walk|
      invariant report == AddAll([], path, Listed(walk[..i]), h)
    {
      var (root, files) := walk[i];
      var j := 0;
      ghost var done := Listed(walk[..i]);
      assert done + InDir(root, files[..0]) == done;
      while j < |files|
        invariant 0 <= j <= |files|
        invariant report == AddAll([], path, done + InDir(root, files[..j]), h)
      {
        var file := files[j];
        AddStep(path, done, root, files, j, h);
        if |file| >= 3 && file[|file| - 3..] == ".py" {
          var fullPath := h.join(root, file);
          var relPath := h.relpath(fullPath, path);
          var entry := AnalyzeFile(fullPath, h.run);
          match entry {
            case Ok(rs) =>
              report := Put(report, relPath, Analysis(rs));
            case Raised(e) =>
              report := Put(report, relPath, Failed(FaultText(e)));
          }
        }
        j := j + 1;
      }
      assert files[..j] == files;
      assert walk[..i + 1][..i] == walk[..i];
      i := i + 1;
    }
    assert walk[..i] == walk;
  }

  /** One more file of the current directory. */
  lemma AddStep<T>(path: string, done: seq<(string, string)>, root: string, files: seq<string>, j: nat, h: Host<T>)
    requires j < |files|
    ensures AddAll([], path, done + InDir(root, files[..j + 1]), h)
            == AddFile(AddAll([], path, done + InDir(root, files[..j]), h), path, (root, files[j]), h)
  {
    var all := done + InDir(root, files[..j + 1]);
    assert all[..|all| - 1] == done + InDir(root, files[..j]);
    assert all[|all| - 1] == (root, files[j]);
  }
}

=== FILE: autopep8.dfy ===
/** The autopep8 adapter (CodeReview/FormattingAndStyle/autopep8_runner.py):
    the argv it builds and the record it makes of the finished process. */
module Autopep8 {
  import opened Text
  import opened Formatting

  /** The argv of `run_autopep8`: `autopep8` and the path, then `--diff`
      when checking, then `--exit-code` unless diffing. */
  function Argv(filePath: string, check: bool := true, diff: bool := false): seq<string>
  {
    ["autopep8", filePath] + (if check then ["--diff"] else []) + (if !diff then ["--exit-code"] else [])
  }

  /** The conditional appends that build the argv. */
  method BuildCommand(filePath: string, check: bool := true, diff: bool := false) returns (cmd: seq<string>)
    ensures cmd == Argv(filePath, check, diff)
  {
    cmd := ["autopep8", filePath];
    if check {
      cmd := cmd + ["--diff"];
    }
    if !diff {
      cmd := cmd + ["--exit-code"];
    }
  }

  /** The path comes second, not last; after it `--diff` appears exactly
      when checking and `--exit-code` exactly when not diffing, in that
      order. */
  lemma ArgvShape(filePath: string, check: bool, diff: bool)
    ensures var a := Argv(filePath, check, diff);
            |a| == 2 + (if check then 1 else 0) + (if diff then 0 else 1)
            && a[0] == "autopep8" && a[1] == filePath
            && ("--diff" in a[2..] <==> check)
            && ("--exit-code" in a[2..] <==> !diff)
            && (check && !diff ==> a[2..] == ["--diff", "--exit-code"])
  {
    var flags := (if check then ["--diff"] else []) + (if !diff then ["--exit-code"] else []);
    var a := Argv(filePath, check, diff);
    assert a == ["autopep8", filePath] + flags;
    assert a[2..] == flags;
  }

  /** With the default arguments the argv is
      `autopep8 <path> --diff --exit-code`. */
  lemma ArgvDefaults(filePath: string)
    ensures Argv(filePath) == ["autopep8", filePath, "--diff", "--exit-code"]
  {
  }

  /** The record of `run_autopep8` for the finished process: reformatting
      is needed exactly when the exit code is 1. */
  function Result(filePath: string, p: Process): FormatResult
  {
    Echo(filePath, p.returncode == 1, p)
  }

  /** The verdict reads the exit code alone: the output never matters, and
      no exit code other than 1 counts. */
  lemma Verdict(filePath: string, p: Process, q: Process)
    requires p.returncode == q.returncode
    ensures Result(filePath, p).reformatNeeded == Result(filePath, q).reformatNeeded
    ensures Result(filePath, p).reformatNeeded <==> p.returncode == 1
  {
  }

  /** `run_autopep8`, with the process run given as `run`. */
  method RunAutopep8(filePath: string, run: seq<string> -> Process, check: bool := true, diff: bool := false)
    returns (r: FormatResult)
    ensures r == Result(filePath, run(Argv(filePath, check, diff)))
  {
    var cmd := BuildCommand(filePath, check, diff);
    var result := run(cmd);
    var output := Strip(result.stdout);
    var error := Strip(result.stderr);
    var reformatNeeded := result.returncode == 1;
    r := FormatResult(filePath, reformatNeeded, output, error, result.returncode);
  }
}

=== FILE: bandit.dfy ===
/** The bandit report normaliser
    (CodeReview/SecurityAndSafety/bandit_runner.py): the decoded JSON report
    becomes one record per element of its `results` list. */
module Bandit {
  import opened Runtime
  import opened JsonValue

  /** One record of the result: the notice for output that is not JSON, or
      one issue projected onto the seven fields the analyser keeps. */
  datatype Record =
    | ParseFailure(error: string, output: string)
    | Issue(file: Json, line: Json, severity: Json, confidence: Json,
            text: Json, testName: Json, testId: Json)

  const NotJson := "Failed to parse Bandit JSON output"

  /** The record of one element of `results`; an element that is not a dict
      has no `get` and raises. */
  function IssueRecord(issue: Json): (r: Outcome<Record>)
    ensures r.Ok? <==> issue.JObject?
    ensures r.Raised? ==> r.fault == AttributeError(TypeName(issue), "get")
    ensures r.Ok? ==> r.value.Issue?
  {
    match issue
    case JObject(ms) =>
      Ok(Issue(Field(ms, "filename"), Field(ms, "line_number"), Field(ms, "issue_severity"),
               Field(ms, "issue_confidence"), Field(ms, "issue_text"), Field(ms, "test_name"),
               Field(ms, "test_id")))
    case _ => Raised(AttributeError(TypeName(issue), "get"))
  }

  /** `filename` becomes `file` and `line_number` becomes `line`; the other
      five fields keep their meaning; each is what `issue.get` returns, `None`
      when the key is absent. */
  lemma IssueFields(issue: Json)
    requires issue.JObject?
    ensures var r := IssueRecord(issue).value;
            Ok(r.file) == GetOr(issue, "filename", JNull)
            && Ok(r.line) == GetOr(issue, "line_number", JNull)
            && Ok(r.severity) == GetOr(issue, "issue_severity", JNull)
            && Ok(r.confidence) == GetOr(issue, "issue_confidence", JNull)
            && Ok(r.text) == GetOr(issue, "issue_text", JNull)
            && Ok(r.testName) == GetOr(issue, "test_name", JNull)
            && Ok(r.testId) == GetOr(issue, "test_id", JNull)
  {
  }

  /** The records of the elements, in list order; the first element that is
      not a dict raises. */
  function Issues(items: seq<Json>): Outcome<seq<Record>>
  {
    if items == [] then Ok([])
    else
      var n := |items| - 1;
      match Issues(items[..n])
      case Raised(f) => Raised(f)
      case Ok(rs) =>
        match IssueRecord(items[n])
        case Raised(f) => Raised(f)
        case Ok(rec) => Ok(rs + [rec])
  }

  /** `bandit_json.get('results', [])`, iterated: a report that is not a dict
      raises, and so does a `results` value that is not iterable. */
  function Results(report: Json): (r: Outcome<seq<Json>>)
    ensures !report.JObject? ==> r == Raised(AttributeError(TypeName(report), "get"))
    ensures report.JObject? && Get(report.members, "results").None? ==> r == Ok([])
    ensures report.JObject? && Get(report.members, "results").Some? ==>
              r == Elements(Get(report.members, "results").value)
  {
    match GetOr(report, "results", JArray([]))
    case Raised(f) => Raised(f)
    case Ok(v) => Elements(v)
  }

  /** The issue records of `run_bandit` given the process's stdout and what
      `json.loads` made of it. */
  function Report(stdout: string, decoded: Decoded): (r: Outcome<seq<Record>>)
    ensures decoded.Undecodable? ==> r == Ok([ParseFailure(NotJson, stdout)])
  {
    match decoded
    case Undecodable(_) => Ok([ParseFailure(NotJson, stdout)])
    case Decoded(report) =>
      match Results(report)
      case Raised(f) => Raised(f)
      case Ok(items) => Issues(items)
  }

  /** The elements all succeed exactly when each is a dict; then there is
      one record per element, in list order, each that element's own
      record. */
  lemma {:induction false} IssuesEach(items: seq<Json>)
    ensures Issues(items).Ok? <==> forall k :: 0 <= k < |items| ==> items[k].JObject?
    ensures Issues(items).Ok? ==>
              var rs := Issues(items).value;
              |rs| == |items| && forall k :: 0 <= k < |items| ==> Ok(rs[k]) == IssueRecord(items[k])
  {
    if items != [] {
      var n := |items| - 1;
      var init := items[..n];
      IssuesEach(init);
      assert forall k :: 0 <= k < n ==> init[k] == items[k];
      if Issues(init).Ok? && items[n].JObject? {
        var pre := Issues(init).value;
        var rs := pre + [IssueRecord(items[n]).value];
        assert Issues(items) == Ok(rs);
        forall k | 0 <= k < |items|
          ensures Ok(rs[k]) == IssueRecord(items[k])
        {
          if k < n {
            assert rs[k] == pre[k];
          }
        }
      } else {
        assert Issues(items).Raised?;
      }
    }
  }

  /** A raise names the first element that is not a dict: every element
      before it is a dict. */
  lemma {:induction false} IssuesFault(items: seq<Json>)
    requires Issues(items).Raised?
    ensures exists k :: 0 <= k < |items| && !items[k].JObject?
              && (forall j :: 0 <= j < k ==> items[j].JObject?)
              && Issues(items).fault == AttributeError(TypeName(items[k]), "get")
  {
    var n := |items| - 1;
    var init := items[..n];
    assert forall j :: 0 <= j < n ==> init[j] == items[j];
    if Issues(init).Raised? {
      IssuesFault(init);
      var k :| 0 <= k < |init| && !init[k].JObject?
               && (forall j :: 0 <= j < k ==> init[j].JObject?)
               && Issues(init).fault == AttributeError(TypeName(init[k]), "get");
      assert items[k] == init[k];
    } else {
      IssuesEach(init);
      assert !items[n].JObject?;
    }
  }

  /** A report without a `results` key has no issues. */
  lemma NoResults(stdout: string, report: Json)
    requires report.JObject? && Get(report.members, "results").None?
    ensures Report(stdout, Decoded(report)) == Ok([])
  {
  }

  /** A well-formed report, a dict whose `results` is a list of dicts, gives
      one issue record per listed issue, in list order. */
  lemma ListedIssues(stdout: string, report: Json)
    requires report.JObject? && Get(report.members, "results").Some?
    requires var v := Get(report.members, "results").value;
             v.JArray? && forall k :: 0 <= k < |v.items| ==> v.items[k].JObject?
    ensures var items := Get(report.members, "results").value.items;
            var r := Report(stdout, Decoded(report));
            r.Ok? && |r.value| == |items|
            && forall k :: 0 <= k < |items| ==> Ok(r.value[k]) == IssueRecord(items[k])
  {
    IssuesEach(Get(report.members, "results").value.items);
  }

  /** Only `results` is read: two reports that agree on it give the same
      records, whatever the other keys and the raw text. */
  lemma OtherKeysIgnored(s1: string, s2: string, a: Json, b: Json)
    requires a.JObject? && b.JObject? && Get(a.members, "results") == Get(b.members, "results")
    ensures Report(s1, Decoded(a)) == Report(s2, Decoded(b))
  {
  }

  /** A raise part-way through stays raised however many elements follow. */
  lemma {:induction false} IssuesRaised(items: seq<Json>, m: nat, f: Fault)
    requires m <= |items| && Issues(items[..m]) == Raised(f)
    ensures Issues(items) == Raised(f)
    decreases |items| - m
  {
    if m < |items| {
      assert items[..m + 1][..m] == items[..m];
      IssuesRaised(items, m + 1, f);
    } else {
      assert items[..m] == items;
    }
  }

  /** `run_bandit` after the process has run: the early return for output
      that is not JSON, then one appended record per element of `results`. */
  method RunBandit(stdout: string, decoded: Decoded) returns (r: Outcome<seq<Record>>)
    ensures r == Report(stdout, decoded)
  {
    if decoded.Undecodable? {
      return Ok([ParseFailure(NotJson, stdout)]);
    }
    var results := Results(decoded.value);
    if results.Raised? {
      return Raised(results.fault);
    }
    var items := results.value;
    var issues: seq<Record> := [];
    var i := 0;
    while i < |items|
      invariant 0 <= i <= |items|
      invariant Issues(items[..i]) == Ok(issues)
    {
      var issue := items[i];
      assert items[..i + 1][..i] == items[..i];
      if !issue.JObject? {
        IssuesRaised(items, i + 1, AttributeError(TypeName(issue), "get"));
        return Raised(AttributeError(TypeName(issue), "get"));
      }
      var ms := issue.members;
      issues := issues + [Issue(Field(ms, "filename"), Field(ms, "line_number"), Field(ms, "issue_severity"),
                                Field(ms, "issue_confidence"), Field(ms, "issue_text"), Field(ms, "test_name"),
                                Field(ms, "test_id"))];
      i := i + 1;
    }
    assert items[..i] == items;
    r := Ok(issues);
  }
}

=== FILE: banner.dfy ===
/** The `==+ ... ==+` banners pytest prints, shared by the pytest and
    Hypothesis normalisers: the `==+ ` opening, the end of the line, and the
    backward search that a greedy `(.+)` group performs. */
module Banner {
  import opened Runtime

  /** End of the run of `=` starting at `i`. */
  function EqEnd(s: string, i: nat): (j: nat)
    requires i <= |s|
    ensures i <= j <= |s|
    ensures forall k :: i <= k < j ==> s[k] == '='
    ensures j < |s| ==> s[j] != '='
    decreases |s| - i
  {
    if i < |s| && s[i] == '=' then EqEnd(s, i + 1) else i
  }

  /** The run ends exactly at the first character that is not `=`. */
  lemma {:induction false} EqEndAt(s: string, i: nat, j: nat)
    requires i <= j <= |s|
    requires forall k :: i <= k < j ==> s[k] == '='
    requires j < |s| ==> s[j] != '='
    ensures EqEnd(s, i) == j
    decreases j - i
  {
    if i < j {
      EqEndAt(s, i + 1, j);
    }
  }

  /** `==+ ` at `i`: two or more `=` and then a space; the index of that
      space. Fewer `=` cannot be followed by the space, so the greedy run is
      the only candidate. */
  function Open(s: string, i: nat): (r: Option<nat>)
    ensures r.Some? ==> i + 2 <= r.value < |s| && s[r.value] == ' '
                        && forall k :: i <= k < r.value ==> s[k] == '='
  {
    if i + 2 <= |s| && s[i] == '=' && s[i + 1] == '=' then
      var e := EqEnd(s, i);
      if e < |s| && s[e] == ' ' then Some(e) else None
    else None
  }

  /** Two or more `=` followed by a space open a banner. */
  lemma OpenAt(s: string, i: nat, e: nat)
    requires i + 2 <= e < |s| && s[e] == ' '
    requires forall k :: i <= k < e ==> s[k] == '='
    ensures Open(s, i) == Some(e)
  {
    EqEndAt(s, i, e);
  }

  /** The first `\n` at or after `i`, or `|s|`: where `.` stops matching. */
  function LineEnd(s: string, i: nat): (j: nat)
    requires i <= |s|
    ensures i <= j <= |s|
    ensures forall k :: i <= k < j ==> s[k] != '\n'
    ensures j < |s| ==> s[j] == '\n'
    decreases |s| - i
  {
    if i < |s| && s[i] != '\n' then LineEnd(s, i + 1) else i
  }

  /** The position matcher `at` fails at `k`. */
  predicate Rejects(s: string, k: nat, at: (string, nat) -> bool) {
    !at(s, k)
  }

  /** The greatest position in `[lo, hi)` where `at` holds: where a greedy
      group stops backtracking. */
  function Last(s: string, lo: nat, hi: nat, at: (string, nat) -> bool): (r: Option<nat>)
    ensures r.Some? ==> lo <= r.value < hi && at(s, r.value)
    ensures r.Some? ==> forall k :: r.value < k < hi ==> Rejects(s, k, at)
    ensures r.None? ==> forall k :: lo <= k < hi ==> Rejects(s, k, at)
    decreases hi
  {
    if hi <= lo then None
    else if at(s, hi - 1) then Some(hi - 1)
    else Last(s, lo, hi - 1, at)
  }
}

=== FILE: black.dfy ===
/** The black adapter (CodeReview/FormattingAndStyle/black_runner.py): the
    argv it builds and the record it makes of the finished process. */
module Black {
  import opened Text
  import opened Formatting

  /** The argv of `run_black`: `black`, then `--check` when checking, then
      `--diff` when diffing, then the path. */
  function Argv(filePath: string, check: bool := true, diff: bool := false): seq<string>
  {
    FlagArgv("black", "--check", filePath, check, diff)
  }

  /** With the default arguments the argv is `black --check <path>`. */
  lemma ArgvDefaults(filePath: string)
    ensures Argv(filePath) == ["black", "--check", filePath]
  {
  }

  /** `'would reformat' in output or result.returncode == 1`, on the stripped
      output. */
  predicate ReformatNeeded(p: Process) {
    Contains(Strip(p.stdout), "would reformat") || p.returncode == 1
  }

  /** The record of `run_black` for the finished process. */
  function Result(filePath: string, p: Process): FormatResult
  {
    Echo(filePath, ReformatNeeded(p), p)
  }

  /** Reformatting is needed exactly when the raw output mentions `would
      reformat` anywhere or the exit code is 1: stripping the output before
      the test changes nothing. */
  lemma Verdict(filePath: string, p: Process)
    ensures Result(filePath, p).reformatNeeded <==> Contains(p.stdout, "would reformat") || p.returncode == 1
  {
    ContainsStrip(p.stdout, "would reformat");
  }

  /** `run_black`, with the process run given as `run`. */
  method RunBlack(filePath: string, run: seq<string> -> Process, check: bool := true, diff: bool := false)
    returns (r: FormatResult)
    ensures r == Result(filePath, run(Argv(filePath, check, diff)))
  {
    var cmd := BuildFlagCommand("black", "--check", filePath, check, diff);
    var result := run(cmd);
    var output := Strip(result.stdout);
    var error := Strip(result.stderr);
    var reformatNeeded := Contains(output, "would reformat") || result.returncode == 1;
    r := FormatResult(filePath, reformatNeeded, output, error, result.returncode);
  }
}

=== FILE: coverage.dfy ===
/** The `coverage report -m` table parser
    (CodeReview/TestingAndTestCoverage/coverage_runner.py). */
module Coverage {
  import opened Runtime
  import opened Text
  import opened Numbers

  /** One record: a file row, or the `TOTAL` trailer (which has no missing
      lines). Counts are the integers `int()` read; the percentage is kept as
      written. */
  datatype Row =
    | FileRow(file: string, statements: int, missed: int, coverage: string, missingLines: string)
    | TotalRow(statements: int, missed: int, coverage: string)

  /** The table header: starts with `Name` and mentions `Missing`. */
  predicate IsHeader(line: string) {
    StartsWith(line, "Name") && Contains(line, "Missing")
  }

  /** The index the header search settles on: the first header line, or 0
      when there is none. */
  function HeaderIndex(lines: seq<string>): nat
  {
    match FirstHeader(lines, 0)
    case Some(h) => h
    case None => 0
  }

  /** The header index is the first header line, or 0 when no line is a
      header. */
  lemma HeaderIndexFirst(lines: seq<string>)
    ensures HeaderIndex(lines) <= |lines|
    ensures forall k :: 0 <= k < HeaderIndex(lines) ==> !IsHeader(lines[k])
    ensures (HeaderIndex(lines) < |lines| && IsHeader(lines[HeaderIndex(lines)]))
            || (HeaderIndex(lines) == 0 && forall k :: 0 <= k < |lines| ==> !IsHeader(lines[k]))
  {
  }

  /** The first header index at or after `i`. */
  function FirstHeader(lines: seq<string>, i: nat): (r: Option<nat>)
    requires i <= |lines|
    ensures r.Some? ==> i <= r.value < |lines| && IsHeader(lines[r.value])
                        && forall k :: i <= k < r.value ==> !IsHeader(lines[k])
    ensures r.None? ==> forall k :: i <= k < |lines| ==> !IsHeader(lines[k])
    decreases |lines| - i
  {
    if i == |lines| then None
    else if IsHeader(lines[i]) then Some(i)
    else FirstHeader(lines, i + 1)
  }

  /** `int(parts[1])`, `int(parts[2])` and the other fields of a row of at
      least five whitespace-separated parts. */
  function Fields(parts: seq<string>): (r: Outcome<(int, int)>)
    requires |parts| >= 5
    ensures r.Ok? <==> ParseInt(parts[1]).Ok? && ParseInt(parts[2]).Ok?
    ensures r.Ok? ==> r.value == (ParseInt(parts[1]).value, ParseInt(parts[2]).value)
  {
    match ParseInt(parts[1])
    case Raised(f) => Raised(f)
    case Ok(statements) =>
      match ParseInt(parts[2])
      case Raised(f) => Raised(f)
      case Ok(missed) => Ok((statements, missed))
  }

  /** The record of a data row: none for fewer than five parts. */
  function DataRow(line: string): (r: Outcome<Option<Row>>)
    ensures var parts := ReSplitSpaces(line);
            if |parts| < 5 then r == Ok(None)
            else if ParseInt(parts[1]).Ok? && ParseInt(parts[2]).Ok? then
              r == Ok(Some(FileRow(parts[0], ParseInt(parts[1]).value, ParseInt(parts[2]).value, parts[3], parts[4])))
            else r.Raised?
    ensures r.Ok? && r.value.Some? ==> r.value.value.FileRow?
  {
    var parts := ReSplitSpaces(line);
    if |parts| < 5 then Ok(None)
    else
      match Fields(parts)
      case Raised(f) => Raised(f)
      case Ok((statements, missed)) => Ok(Some(FileRow(parts[0], statements, missed, parts[3], parts[4])))
  }

  /** The record of the `TOTAL` line: none for fewer than five parts; else
      the totals of statements and misses and the coverage column, or the
      error `int()` raises on either count. */
  function TotalOf(line: string): (r: Outcome<seq<Row>>)
    ensures var parts := ReSplitSpaces(line);
            if |parts| < 5 then r == Ok([])
            else if ParseInt(parts[1]).Ok? && ParseInt(parts[2]).Ok? then
              r == Ok([TotalRow(ParseInt(parts[1]).value, ParseInt(parts[2]).value, parts[3])])
            else r.Raised?
    ensures r.Ok? ==> |r.value| <= 1 && forall k :: 0 <= k < |r.value| ==> r.value[k].TotalRow?
  {
    var parts := ReSplitSpaces(line);
    if |parts| < 5 then Ok([])
    else
      match Fields(parts)
      case Raised(f) => Raised(f)
      case Ok((statements, missed)) => Ok([TotalRow(statements, missed, parts[3])])
  }

  /** A line that ends the scan: blank, or the `TOTAL` trailer. */
  predicate Stops(line: string) {
    Strip(line) == [] || StartsWith(line, "TOTAL")
  }

  /** What the row loop does with one line: stop (with the `TOTAL` record, if
      any), skip it, keep its record, or raise. */
  datatype Verdict = Stop(last: Outcome<seq<Row>>) | Skip | Keep(row: Row) | Fail(fault: Fault)

  /** The row loop's decision on one line. */
  function Classify(line: string): (v: Verdict)
    ensures v.Stop? <==> Stops(line)
    ensures v.Stop? && !StartsWith(line, "TOTAL") ==> v.last == Ok([])
    ensures v.Stop? && v.last.Ok? ==> |v.last.value| <= 1 && forall k :: 0 <= k < |v.last.value| ==> v.last.value[k].TotalRow?
    ensures v.Keep? ==> v.row.FileRow?
    ensures !Stops(line) && |ReSplitSpaces(line)| < 5 ==> v == Skip
  {
    if Stops(line) then
      if StartsWith(line, "TOTAL") then var total := TotalOf(line); Stop(total) else Stop(Ok([]))
    else
      var row := DataRow(line);
      if row.Raised? then Fail(row.fault)
      else if row.value.None? then Skip
      else Keep(row.value.value)
  }

  /** The row loop from index `i`, deciding each line with `step`: records in
      row order until a line stops the scan; the first raise ends it. */
  function Scan(lines: seq<string>, i: nat, step: string -> Verdict): Outcome<seq<Row>>
    decreases |lines| - i
  {
    if i >= |lines| then Ok([])
    else
      match step(lines[i])
      case Stop(last) => last
      case Fail(f) => Raised(f)
      case Skip => Scan(lines, i + 1, step)
      case Keep(row) => Prepend([row], Scan(lines, i + 1, step))
  }

  /** `parse_coverage_report` */
  function Report(output: string): Outcome<seq<Row>>
  {
    var lines := SplitLines(Strip(output));
    Scan(lines, HeaderIndex(lines) + 2, Classify)
  }

  /** Nothing after the line that stops the scan is read. */
  lemma RowsStop(lines: seq<string>, i: nat, j: nat, rest: seq<string>, step: string -> Verdict)
    requires i <= j < |lines| && step(lines[j]).Stop?
    ensures Scan(lines, i, step) == Scan(lines[..j + 1] + rest, i, step)
  {
    var longer := lines[..j + 1] + rest;
    forall k | i <= k <= j ensures lines[k] == longer[k] { }
    ScanAgree(lines, longer, i, j, step);
  }

  /** Two tables that agree up to a line that stops the scan give the same
      records. */
  lemma {:induction false} ScanAgree(a: seq<string>, b: seq<string>, i: nat, j: nat, step: string -> Verdict)
    requires i <= j < |a| && j < |b| && step(a[j]).Stop?
    requires forall k :: i <= k <= j ==> a[k] == b[k]
    ensures Scan(a, i, step) == Scan(b, i, step)
    decreases j - i
  {
    if i < j {
      ScanAgree(a, b, i + 1, j, step);
    }
  }

  /** A decision that keeps only file rows and stops with at most one
      record. */
  predicate FileRowsFirst(v: Verdict) {
    (v.Keep? ==> v.row.FileRow?) && (v.Stop? && v.last.Ok? ==> |v.last.value| <= 1)
  }

  /** A scan whose decisions all keep file rows and stop with at most one
      record puts file rows everywhere but last. */
  lemma {:induction false} ScanFileRowsFirst(lines: seq<string>, i: nat, step: string -> Verdict)
    requires forall line :: FileRowsFirst(step(line))
    requires Scan(lines, i, step).Ok?
    ensures var rs := Scan(lines, i, step).value;
            forall k :: 0 <= k < |rs| - 1 ==> rs[k].FileRow?
    decreases |lines| - i
  {
    if i < |lines| {
      var v := step(lines[i]);
      assert FileRowsFirst(v);
      if v.Skip? || v.Keep? {
        ScanFileRowsFirst(lines, i + 1, step);
      }
    }
  }

  /** Records follow row order with the `TOTAL` record, if any, last: every
      record but the last is a file row. */
  lemma TotalLast(lines: seq<string>, i: nat)
    requires Scan(lines, i, Classify).Ok?
    ensures var rs := Scan(lines, i, Classify).value;
            forall k :: 0 <= k < |rs| - 1 ==> rs[k].FileRow?
  {
    forall line ensures FileRowsFirst(Classify(line)) { }
    ScanFileRowsFirst(lines, i, Classify);
  }

  /** A row with fewer than five parts is skipped and the scan goes on. */
  lemma ShortRowSkipped(lines: seq<string>, i: nat)
    requires i < |lines| && !Stops(lines[i]) && |ReSplitSpaces(lines[i])| < 5
    ensures Scan(lines, i, Classify) == Scan(lines, i + 1, Classify)
  {
  }

  /** A `TOTAL` line of fewer than five parts ends the scan with no record. */
  lemma ShortTotalDropped(lines: seq<string>, i: nat)
    requires i < |lines| && StartsWith(lines[i], "TOTAL") && |ReSplitSpaces(lines[i])| < 5
    ensures Scan(lines, i, Classify) == Ok([])
  {
  }

  /** The header search loop, with its `break`. */
  method FindHeader(lines: seq<string>) returns (h: nat)
    ensures h == HeaderIndex(lines)
  {
    h := 0;
    var i := 0;
    while i < |lines|
      invariant 0 <= i <= |lines|
      invariant FirstHeader(lines, 0) == FirstHeader(lines, i)
    {
      if StartsWith(lines[i], "Name") && Contains(lines[i], "Missing") {
        h := i;
        return;
      }
      i := i + 1;
    }
  }

  /** One step of the scan. */
  lemma ScanAt(lines: seq<string>, i: nat, step: string -> Verdict)
    requires i < |lines|
    ensures Scan(lines, i, step) == match step(lines[i])
                                    case Stop(last) => last
                                    case Fail(f) => Raised(f)
                                    case Skip => Scan(lines, i + 1, step)
                                    case Keep(row) => Prepend([row], Scan(lines, i + 1, step))
  {
  }

  /** The row loop of `parse_coverage_report`, from line `start`. */
  method ScanRows(lines: seq<string>, start: nat) returns (r: Outcome<seq<Row>>)
    ensures r == Scan(lines, start, Classify)
  {
    var results: seq<Row> := [];
    var i := start;
    if Scan(lines, i, Classify).Ok? {
      assert [] + Scan(lines, i, Classify).value == Scan(lines, i, Classify).value;
    }
    while i < |lines|
      invariant start <= i
      invariant Scan(lines, start, Classify) == Prepend(results, Scan(lines, i, Classify))
      decreases |lines| - i
    {
      ScanAt(lines, i, Classify);
      match Classify(lines[i]) {
        case Stop(last) =>
          return Prepend(results, last);
        case Fail(f) =>
          return Raised(f);
        case Skip =>
        case Keep(row) =>
          PrependStep(results, row, Scan(lines, i + 1, Classify));
          results := results + [row];
      }
      i := i + 1;
    }
    assert results + [] == results;
    r := Ok(results);
  }

  /** `parse_coverage_report`: find the header, then read rows from two lines
      below it until a blank or `TOTAL` line. */
  method ParseReport(output: string) returns (r: Outcome<seq<Row>>)
    ensures r == Report(output)
  {
    var lines := SplitLines(Strip(output));
    var h := FindHeader(lines);
    r := ScanRows(lines, h + 2);
  }
}

=== FILE: cprofile.dfy ===
/** The cProfile statistics-table parser
    (CodeReview/PerformanceAndEfficiency/cprofile_runner.py): every line up to
    the `ncalls` header is ignored, and every later line of six or more
    fields becomes one record. */
module CProfile {
  import opened Runtime
  import opened Text
  import opened Numbers
  import opened Lines

  /** One row of the table: the call count as printed (`3/1` for a recursive
      function), the four times as the text `float()` accepted, and the
      `filename:lineno(function)` location. */
  datatype Entry = Entry(ncalls: string, totalTime: string, perCallTime: string,
                         cumulativeTime: string, cumulativePerCall: string, location: string)

  /** The column header of the table: its stripped form starts with `ncalls`. */
  predicate IsHeader(line: string) {
    StartsWith(Strip(line), "ncalls")
  }

  /** The first index at or after `i` of a line `isHeader` accepts. */
  function FirstHeader(lines: seq<string>, i: nat, isHeader: string -> bool): (r: Option<nat>)
    requires i <= |lines|
    ensures r.Some? ==> i <= r.value < |lines| && isHeader(lines[r.value])
                        && forall k :: i <= k < r.value ==> !isHeader(lines[k])
    ensures r.None? ==> forall k :: i <= k < |lines| ==> !isHeader(lines[k])
    decreases |lines| - i
  {
    if i == |lines| then None
    else if isHeader(lines[i]) then Some(i)
    else FirstHeader(lines, i + 1, isHeader)
  }

  /** `line.strip().split(None, 5)`: five tokens and the rest of the line. */
  function Fields(line: string): seq<string>
  {
    SplitFields(Strip(line), 5)
  }

  /** The first of the fields `k` to 4 that `accepts` rejects, or 5: the
      times are converted left to right. */
  function FirstRejected(p: seq<string>, k: nat, accepts: string -> bool): (b: nat)
    requires 1 <= k <= 5 && |p| == 6
    ensures k <= b <= 5
    ensures forall j :: k <= j < b ==> accepts(p[j])
    ensures b < 5 ==> !accepts(p[b])
    decreases 5 - k
  {
    if k == 5 || !accepts(p[k]) then k else FirstRejected(p, k + 1, accepts)
  }

  /** The record of six fields, with `accepts` deciding which text `float()`
      converts: the first time it rejects raises. */
  function Convert(p: seq<string>, accepts: string -> bool): (r: Outcome<Entry>)
    requires |p| == 6
    ensures r.Ok? <==> forall k :: 1 <= k <= 4 ==> accepts(p[k])
    ensures r.Ok? ==> r.value == Entry(p[0], p[1], p[2], p[3], p[4], p[5])
    ensures r.Raised? ==> exists k :: 1 <= k <= 4 && !accepts(p[k]) && r.fault == NotFloat(p[k])
  {
    var b := FirstRejected(p, 1, accepts);
    if b < 5 then Raised(NotFloat(p[b]))
    else Ok(Entry(p[0], p[1], p[2], p[3], p[4], p[5]))
  }

  /** The record of a line after the header: none for a blank line or one of
      fewer than six fields. */
  function Row(line: string): Outcome<Option<Entry>>
  {
    if Strip(line) == [] then Ok(None)
    else
      var p := Fields(line);
      if |p| == 6 then
        match Convert(p, IsFloatText)
        case Raised(f) => Raised(f)
        case Ok(e) => Ok(Some(e))
      else Ok(None)
  }

  /** A line after the header yields a record exactly when it has six or
      more tokens and `float()` accepts its four times; it raises exactly
      when it has six or more tokens and one of the times is rejected; every
      other line, blank ones included, is skipped. */
  lemma RowRecord(line: string)
    ensures |Fields(line)| == 6 <==> TokenCount(Strip(line)) >= 6
    ensures Row(line).Ok? && Row(line).value.Some? <==>
              |Fields(line)| == 6 && forall k :: 1 <= k <= 4 ==> IsFloatText(Fields(line)[k])
    ensures Row(line).Raised? <==>
              |Fields(line)| == 6 && exists k :: 1 <= k <= 4 && !IsFloatText(Fields(line)[k])
    ensures Row(line).Ok? && Row(line).value.Some? ==>
              var p := Fields(line);
              |p| == 6 && Row(line).value.value == Entry(p[0], p[1], p[2], p[3], p[4], p[5])
  {
    SplitFieldsCount(Strip(line), 0, 5);
  }

  /** The loop from line `i` on, reading each line with `row`: the records in
      line order; the first raise ends it. */
  function Rows(lines: seq<string>, i: nat, row: string -> Outcome<Option<Entry>>): Outcome<seq<Entry>>
    decreases |lines| - i
  {
    if i >= |lines| then Ok([])
    else
      match row(lines[i])
      case Raised(f) => Raised(f)
      case Ok(None) => Rows(lines, i + 1, row)
      case Ok(Some(e)) => Prepend([e], Rows(lines, i + 1, row))
  }

  /** The loop before the header is found, from line `i`: lines are skipped
      until one that `isHeader` accepts, which is skipped too; the lines
      after it are read with `row`. */
  function Scan(lines: seq<string>, i: nat, isHeader: string -> bool,
                row: string -> Outcome<Option<Entry>>): Outcome<seq<Entry>>
    decreases |lines| - i
  {
    if i >= |lines| then Ok([])
    else if isHeader(lines[i]) then Rows(lines, i + 1, row)
    else Scan(lines, i + 1, isHeader, row)
  }

  /** The records of a table of lines. */
  function Table(lines: seq<string>): Outcome<seq<Entry>>
  {
    Scan(lines, 0, IsHeader, Row)
  }

  /** `parse_cprofile_output` */
  function Report(output: string): Outcome<seq<Entry>>
  {
    Table(SplitLines(output))
  }

  /** The scan reads the lines after the first header, and returns no
      record when there is none. */
  lemma {:induction false} ScanFirstHeader(lines: seq<string>, i: nat, isHeader: string -> bool,
                                           row: string -> Outcome<Option<Entry>>)
    requires i <= |lines|
    ensures Scan(lines, i, isHeader, row) == match FirstHeader(lines, i, isHeader)
                                              case None => Ok([])
                                              case Some(h) => Rows(lines, h + 1, row)
    decreases |lines| - i
  {
    if i < |lines| && !isHeader(lines[i]) {
      ScanFirstHeader(lines, i + 1, isHeader, row);
    }
  }

  /** Without a header line there is no record. */
  lemma NoHeader(lines: seq<string>, isHeader: string -> bool, row: string -> Outcome<Option<Entry>>)
    requires forall k :: 0 <= k < |lines| ==> !isHeader(lines[k])
    ensures Scan(lines, 0, isHeader, row) == Ok([])
  {
    ScanFirstHeader(lines, 0, isHeader, row);
  }

  /** Everything up to and including the first header is ignored: the lines
      before it, even rows of six numeric fields, contribute nothing. */
  lemma HeaderIgnoresPrefix(before: seq<string>, header: string, after: seq<string>,
                            isHeader: string -> bool, row: string -> Outcome<Option<Entry>>)
    requires forall k :: 0 <= k < |before| ==> !isHeader(before[k])
    requires isHeader(header)
    ensures Scan(before + [header] + after, 0, isHeader, row) == Rows(after, 0, row)
  {
    var lines := before + [header] + after;
    assert forall k :: 0 <= k < |before| ==> lines[k] == before[k];
    assert lines[|before|] == header;
    ScanFirstHeader(lines, 0, isHeader, row);
    FirstHeaderFrom(lines, 0, |before|, isHeader);
    assert lines == (before + [header]) + after;
    RowsShift(before + [header], after, 0, row);
  }

  /** The header search from `i` reaches `h` when no line in between is a
      header. */
  lemma {:induction false} FirstHeaderFrom(lines: seq<string>, i: nat, h: nat, isHeader: string -> bool)
    requires i <= h <= |lines|
    requires forall k :: i <= k < h ==> !isHeader(lines[k])
    ensures FirstHeader(lines, i, isHeader) == FirstHeader(lines, h, isHeader)
    decreases h - i
  {
    if i < h {
      FirstHeaderFrom(lines, i + 1, h, isHeader);
    }
  }

  /** The loop over the lines after a prefix reads only those lines. */
  lemma {:induction false} RowsShift(pre: seq<string>, lines: seq<string>, i: nat, row: string -> Outcome<Option<Entry>>)
    ensures Rows(pre + lines, |pre| + i, row) == Rows(lines, i, row)
    decreases |lines| - i
  {
    if i < |lines| {
      assert (pre + lines)[|pre| + i] == lines[i];
      RowsShift(pre, lines, i + 1, row);
    }
  }

  /** The record of a line the loop keeps; none for a line it skips or
      that raises. */
  function Kept(row: string -> Outcome<Option<Entry>>): string -> Option<Entry>
  {
    line => if row(line).Ok? then row(line).value else None
  }

  /** The loop raises exactly when some line raises; otherwise it returns
      the records of the kept lines in line order, which is `Collect` of the
      remaining lines. */
  lemma {:induction false} RowsCollect(lines: seq<string>, i: nat, row: string -> Outcome<Option<Entry>>)
    requires i <= |lines|
    ensures Rows(lines, i, row).Raised? <==> exists k :: i <= k < |lines| && row(lines[k]).Raised?
    ensures Rows(lines, i, row).Ok? ==> Rows(lines, i, row).value == Collect(lines[i..], Kept(row))
    decreases |lines| - i
  {
    if i < |lines| {
      RowsCollect(lines, i + 1, row);
      assert lines[i..] == [lines[i]] + lines[i + 1..];
      CollectAppend([lines[i]], lines[i + 1..], Kept(row));
      CollectOne(lines[i], Kept(row));
    }
  }

  /** A row of six or more fields keeps its first five tokens and the rest
      of the stripped line as its location, whitespace inside it kept. */
  lemma LocationIsRest(line: string)
    requires Row(line).Ok? && Row(line).value.Some?
    ensures var e := Row(line).value.value;
            IsToken(e.ncalls) && IsToken(e.totalTime) && IsToken(e.perCallTime)
            && IsToken(e.cumulativeTime) && IsToken(e.cumulativePerCall)
    ensures var e := Row(line).value.value;
            var t := Strip(line);
            exists j :: 0 <= j < |t| && !IsSpace(t[j]) && e.location == t[j..]
  {
    SplitFieldsShape(Strip(line), 0, 5);
    var p := Fields(line);
    assert IsToken(p[0]) && IsToken(p[1]) && IsToken(p[2]) && IsToken(p[3]) && IsToken(p[4]);
  }

  /** One step of the loop. */
  lemma RowsAt(lines: seq<string>, i: nat, row: string -> Outcome<Option<Entry>>)
    requires i < |lines|
    ensures Rows(lines, i, row) == match row(lines[i])
                                   case Raised(f) => Raised(f)
                                   case Ok(None) => Rows(lines, i + 1, row)
                                   case Ok(Some(e)) => Prepend([e], Rows(lines, i + 1, row))
  {
  }

  /** The loop body before the header is found: `line.strip()` starting
      with `ncalls` sets the flag, and the line is skipped either way. */
  method SeekHeader(lines: seq<string>, i: nat) returns (found: bool)
    requires i < |lines|
    ensures found ==> Scan(lines, i, IsHeader, Row) == Prepend([], Rows(lines, i + 1, Row))
    ensures !found ==> Scan(lines, i, IsHeader, Row) == Scan(lines, i + 1, IsHeader, Row)
  {
    found := StartsWith(Strip(lines[i]), "ncalls");
    PrependNone(Rows(lines, i + 1, Row));
  }

  /** The body of the loop for a line after the header: strip, split into
      at most six fields, convert the four times. */
  method ReadRow(line: string) returns (r: Outcome<Option<Entry>>)
    ensures r == Row(line)
  {
    var stripped := Strip(line);
    if stripped == [] {
      return Ok(None);
    }
    var parts := SplitFields(stripped, 5);
    r := Ok(None);
    if |parts| == 6 {
      var ncalls, tottime, percall1, cumtime, percall2, location :=
        parts[0], parts[1], parts[2], parts[3], parts[4], parts[5];
      if !IsFloatText(tottime) {
        return Raised(NotFloat(tottime));
      }
      if !IsFloatText(percall1) {
        return Raised(NotFloat(percall1));
      }
      if !IsFloatText(cumtime) {
        return Raised(NotFloat(cumtime));
      }
      if !IsFloatText(percall2) {
        return Raised(NotFloat(percall2));
      }
      r := Ok(Some(Entry(ncalls, tottime, percall1, cumtime, percall2, location)));
    }
  }

  /** The records so far, with the record of line `i` (if any) added; or
      the fault of that line. */
  method ReadInto(lines: seq<string>, i: nat, results: seq<Entry>) returns (next: Outcome<seq<Entry>>)
    requires i < |lines|
    ensures next.Raised? ==> next == Prepend(results, Rows(lines, i, Row))
    ensures next.Ok? ==> Prepend(results, Rows(lines, i, Row)) == Prepend(next.value, Rows(lines, i + 1, Row))
  {
    RowsAt(lines, i, Row);
    var row := ReadRow(lines[i]);
    match row {
      case Raised(f) =>
        next := Raised(f);
      case Ok(None) =>
        next := Ok(results);
      case Ok(Some(e)) =>
        PrependStep(results, e, Rows(lines, i + 1, Row));
        next := Ok(results + [e]);
    }
  }

  /** `parse_cprofile_output`: split the output into lines, then read them. */
  method ParseOutput(output: string) returns (r: Outcome<seq<Entry>>)
    ensures r == Report(output)
  {
    r := ParseLines(SplitLines(output));
  }

  /** The loop of `parse_cprofile_output` over the lines, with its
      `header_found` flag. */
  method ParseLines(lines: seq<string>) returns (r: Outcome<seq<Entry>>)
    ensures r == Table(lines)
  {
    var results: seq<Entry> := [];
    var headerFound := false;
    var i := 0;
    while i < |lines|
      invariant 0 <= i <= |lines|
      invariant !headerFound ==> results == [] && Table(lines) == Scan(lines, i, IsHeader, Row)
      invariant headerFound ==> Table(lines) == Prepend(results, Rows(lines, i, Row))
    {
      var line := lines[i];
      if !headerFound {
        headerFound := SeekHeader(lines, i);
      } else {
        var next := ReadInto(lines, i, results);
        if next.Raised? {
          return next;
        }
        results := next.value;
      }
      i := i + 1;
    }
    assert results + [] == results;
    r := Ok(results);
  }
}

=== FILE: deptry.dfy ===
/** The deptry report normaliser and the two traceback readers
    (CodeReview/DependencyManagement/deptry_runner.py). */
module Deptry {
  import opened Runtime
  import opened Text
  import opened JsonValue
  import opened Lines

  // ---------------------------------------------------------------------
  // Shared line handling

  /** A line kept by `[line.strip() for line in ... if line.strip()]`. */
  function StrippedLine(line: string): (r: Option<string>)
  {
    if Strip(line) == [] then None else Some(Strip(line))
  }

  /** The stripped non-blank lines, in order. */
  function Kept(lines: seq<string>): seq<string>
  {
    Collect(lines, StrippedLine)
  }

  /** The value `f` gives the last line it accepts: what a backward index
      loop that breaks at its first hit finds. */
  function LastSome<T>(lines: seq<string>, f: string -> Option<T>): Option<T>
  {
    if lines == [] then None
    else if f(lines[|lines| - 1]).Some? then f(lines[|lines| - 1])
    else LastSome(lines[..|lines| - 1], f)
  }

  /** The search finds nothing exactly when no line is accepted, and
      otherwise the value of an accepted line with only rejected lines after
      it. */
  lemma {:induction false} LastSomeSpec<T>(lines: seq<string>, f: string -> Option<T>)
    ensures LastSome(lines, f).None? <==> forall k :: 0 <= k < |lines| ==> f(lines[k]).None?
    ensures LastSome(lines, f).Some? ==>
              exists i :: 0 <= i < |lines| && f(lines[i]) == LastSome(lines, f)
                          && forall k :: i < k < |lines| ==> f(lines[k]).None?
  {
    if lines != [] {
      var n := |lines| - 1;
      var init := lines[..n];
      if f(lines[n]).None? {
        LastSomeSpec(init, f);
        assert forall k :: 0 <= k < n ==> init[k] == lines[k];
        if LastSome(init, f).Some? {
          var i :| 0 <= i < n && f(init[i]) == LastSome(init, f)
                   && forall k :: i < k < n ==> f(init[k]).None?;
          assert f(lines[i]) == LastSome(lines, f);
        }
      }
    }
  }

  /** An accepted line with only rejected lines after it is the one the
      search finds. */
  lemma {:induction false} LastSomeIs<T>(lines: seq<string>, i: nat, f: string -> Option<T>)
    requires i < |lines| && f(lines[i]).Some?
    requires forall k :: i < k < |lines| ==> f(lines[k]).None?
    ensures LastSome(lines, f) == f(lines[i])
  {
    var n := |lines| - 1;
    if i < n {
      var init := lines[..n];
      assert init[i] == lines[i];
      assert forall k :: i < k < n ==> init[k] == lines[k];
      LastSomeIs(init, i, f);
    }
  }

  /** One step of the backward loop: the last line of the prefix decides,
      or the search goes on below it. */
  lemma LastSomeStep<T>(lines: seq<string>, i: nat, f: string -> Option<T>)
    requires 0 < i <= |lines|
    ensures LastSome(lines[..i], f) == if f(lines[i - 1]).Some? then f(lines[i - 1]) else LastSome(lines[..i - 1], f)
  {
    assert lines[..i][..i - 1] == lines[..i - 1];
  }

  /** The last accepted line decides, whatever comes before it and however
      many rejected lines follow it. */
  lemma LastAt<T>(before: seq<string>, line: string, after: seq<string>, f: string -> Option<T>)
    requires f(line).Some?
    requires forall k :: 0 <= k < |after| ==> f(after[k]).None?
    ensures LastSome(before + [line] + after, f) == f(line)
  {
    var all := before + [line] + after;
    Placed(before, line, after, f);
    LastSomeIs(all, |before|, f);
  }

  /** Where the parts of `before + [line] + after` stand. */
  lemma Placed<T>(before: seq<string>, line: string, after: seq<string>, f: string -> Option<T>)
    requires forall k :: 0 <= k < |after| ==> f(after[k]).None?
    ensures var all := before + [line] + after;
            |before| < |all| && all[|before|] == line
            && forall k :: |before| < k < |all| ==> f(all[k]).None?
  {
    var all := before + [line] + after;
    forall k | |before| < k < |all| ensures f(all[k]).None? {
      var j := k - |before| - 1;
      assert all[k] == after[j];
    }
  }

  /** `line.split(":", 1)[0]` for a line holding a colon. */
  function Before(line: string): string
    requires ':' in line
  {
    line[..IndexOf(line, ':')]
  }

  /** `line.split(":", 1)[1]`: everything after the first colon, later colons
      included. */
  function After(line: string): (r: string)
    requires ':' in line
    ensures line == Before(line) + ":" + r && ':' !in Before(line)
  {
    var i := IndexOf(line, ':');
    assert line == line[..i] + ":" + line[i + 1..];
    assert forall k :: 0 <= k < i ==> line[..i][k] == line[k];
    line[i + 1..]
  }

  // ---------------------------------------------------------------------
  // parse_deptry_errors

  const Marker := "DependencySpecificationNotFoundError"
  const MarkerLine := "deptry.exceptions.DependencySpecificationNotFoundError"
  const NoFile := "No file called"

  /** A line the backward search stops at: it mentions `No file called`, or
      it is the exception line with a non-blank text after its first
      colon. */
  predicate Explains(line: string) {
    Contains(line, NoFile)
    || (StartsWith(line, MarkerLine) && ':' in line && Strip(After(line)) != [])
  }

  /** The message a stopping line gives: the whole line when it mentions
      `No file called`, the stripped text after the colon otherwise. */
  function Explanation(line: string): string
    requires Explains(line)
  {
    if Contains(line, NoFile) then line else Strip(After(line))
  }

  /** The loop body's verdict on one line. */
  function ExplanationOf(line: string): (r: Option<string>)
  {
    if Explains(line) then Some(Explanation(line)) else None
  }

  /** The message of a text message: the text itself unless it carries the
      marker and some kept line explains it. */
  function ParsedMessage(raw: string): (r: string)
    ensures !Contains(raw, Marker) ==> r == raw
  {
    if !Contains(raw, Marker) then raw
    else
      match LastSome(Kept(SplitLines(raw)), ExplanationOf)
      case None => raw
      case Some(m) => m
  }

  /** With the marker, the message is the text itself when no kept line
      explains it, and otherwise the explanation of the last kept line that
      does. */
  lemma MessageSource(raw: string)
    requires Contains(raw, Marker)
    ensures var lines := Kept(SplitLines(raw));
            (ParsedMessage(raw) == raw && forall k :: 0 <= k < |lines| ==> !Explains(lines[k]))
            || exists i :: 0 <= i < |lines| && Explains(lines[i])
                           && (forall k :: i < k < |lines| ==> !Explains(lines[k]))
                           && ParsedMessage(raw) == Explanation(lines[i])
  {
    var lines := Kept(SplitLines(raw));
    LastSomeSpec(lines, ExplanationOf);
    assert forall k :: 0 <= k < |lines| ==> (ExplanationOf(lines[k]).None? <==> !Explains(lines[k]));
  }

  /** The record of one file: the error stored for it, its message and
      whether its message names a missing dependency file. */
  datatype Parsed = Parsed(file: string, error: Json, message: Json, missingDependencyFile: bool)

  /** `"DependencySpecificationNotFoundError" in raw_message`, then the
      message parse: a string is searched; a list or dict holding the marker
      has no `splitlines` and raises; one not holding it passes through; any
      other value cannot be searched and raises. */
  function MessageOf(raw: Json): (r: Outcome<(Json, bool)>)
    ensures raw.JString? ==> r == Ok((JString(ParsedMessage(raw.str)), Contains(raw.str, Marker)))
    ensures r.Ok? && r.value.1 ==> raw.JString? && Contains(raw.str, Marker)
    ensures r.Ok? && !r.value.1 ==> r.value.0 == raw
    ensures r.Raised? <==> !(raw.JString? || raw.JArray? || raw.JObject?)
                           || (raw.JArray? && JString(Marker) in raw.items)
                           || (raw.JObject? && Get(raw.members, Marker).Some?)
  {
    match raw
    case JString(s) => Ok((JString(ParsedMessage(s)), Contains(s, Marker)))
    case JArray(items) =>
      if JString(Marker) in items then Raised(AttributeError("list", "splitlines")) else Ok((raw, false))
    case JObject(ms) =>
      if Get(ms, Marker).Some? then Raised(AttributeError("dict", "splitlines")) else Ok((raw, false))
    case _ => Raised(TypeError("argument of type '" + TypeName(raw) + "' is not iterable"))
  }

  /** The record of one entry of the report. */
  function Entry(file: string, toolData: Json): (r: Outcome<Parsed>)
    ensures r.Ok? ==> r.value.file == file
  {
    match GetOr(toolData, "deptry", JObject([]))
    case Raised(f) => Raised(f)
    case Ok(deptryData) =>
      match GetOr(deptryData, "error", JString("Unknown"))
      case Raised(f) => Raised(f)
      case Ok(error) =>
        match GetOr(deptryData, "message", JString(""))
        case Raised(f) => Raised(f)
        case Ok(raw) =>
          match MessageOf(raw)
          case Raised(f) => Raised(f)
          case Ok((message, missing)) => Ok(Parsed(file, error, message, missing))
  }

  /** An entry with no `deptry` part, or a `deptry` part with neither an error
      nor a message, gets the defaults: error `Unknown`, an empty message,
      no missing file. */
  lemma EntryDefaults(file: string, toolData: Json)
    requires toolData.JObject?
    requires Get(toolData.members, "deptry").None?
             || (Get(toolData.members, "deptry").Some? && Get(toolData.members, "deptry").value.JObject?
                 && Get(Get(toolData.members, "deptry").value.members, "error").None?
                 && Get(Get(toolData.members, "deptry").value.members, "message").None?)
    ensures Entry(file, toolData) == Ok(Parsed(file, JString("Unknown"), JString(""), false))
  {
    assert !Contains("", Marker);
  }

  /** A text message without the marker passes through unchanged and the
      entry names no missing file; with the marker, the flag is set. */
  lemma EntryMessage(file: string, toolData: Json, error: Json, raw: string)
    requires toolData.JObject? && Get(toolData.members, "deptry").Some?
    requires var d := Get(toolData.members, "deptry").value;
             d.JObject? && Get(d.members, "error") == Some(error) && Get(d.members, "message") == Some(JString(raw))
    ensures Entry(file, toolData) == Ok(Parsed(file, error, JString(ParsedMessage(raw)), Contains(raw, Marker)))
    ensures !Contains(raw, Marker) ==> Entry(file, toolData).value.message == JString(raw)
  {
  }

  /** Makes the record of one entry of the report. */
  type Recorder = (string, Json) -> Outcome<Parsed>

  /** The records `rec` makes of the report's entries, in key order; the
      first entry that raises ends the parse. */
  function EntriesOf(members: seq<(string, Json)>, rec: Recorder): Outcome<seq<Parsed>>
  {
    if members == [] then Ok([])
    else
      var n := |members| - 1;
      match EntriesOf(members[..n], rec)
      case Raised(f) => Raised(f)
      case Ok(rs) =>
        match rec(members[n].0, members[n].1)
        case Raised(f) => Raised(f)
        case Ok(p) => Ok(rs + [p])
  }

  /** `parse_deptry_errors` on the decoded report; a report that is not a
      dict has no `items` and raises. */
  function Errors(data: Json): (r: Outcome<seq<Parsed>>)
    ensures !data.JObject? ==> r == Raised(AttributeError(TypeName(data), "items"))
  {
    if data.JObject? then EntriesOf(data.members, Entry)
    else Raised(AttributeError(TypeName(data), "items"))
  }

  /** One record per key, in key order, each the record `rec` makes of
      that entry. */
  lemma {:induction false} EntriesEach(members: seq<(string, Json)>, rec: Recorder)
    requires EntriesOf(members, rec).Ok?
    ensures var rs := EntriesOf(members, rec).value;
            |rs| == |members| && forall k :: 0 <= k < |members| ==> Ok(rs[k]) == rec(members[k].0, members[k].1)
  {
    if members != [] {
      var n := |members| - 1;
      var init := members[..n];
      EntriesEach(init, rec);
      var pre := EntriesOf(init, rec).value;
      var rs := EntriesOf(members, rec).value;
      assert rs == pre + [rec(members[n].0, members[n].1).value];
      forall k | 0 <= k < |members|
        ensures Ok(rs[k]) == rec(members[k].0, members[k].1)
      {
        if k < n {
          assert rs[k] == pre[k] && init[k] == members[k];
        }
      }
    }
  }

  /** The parse succeeds exactly when every entry's record does. */
  lemma {:induction false} EntriesOk(members: seq<(string, Json)>, rec: Recorder)
    ensures EntriesOf(members, rec).Ok? <==> forall k :: 0 <= k < |members| ==> rec(members[k].0, members[k].1).Ok?
  {
    if members != [] {
      var n := |members| - 1;
      var init := members[..n];
      EntriesOk(init, rec);
      assert forall k :: 0 <= k < n ==> init[k] == members[k];
    }
  }

  /** `parse_deptry_errors` succeeds on a dict exactly when every entry's
      record does, and then gives one record per key, in key order, with the
      key as its `file`. */
  lemma ErrorsEach(data: Json)
    requires data.JObject?
    ensures Errors(data).Ok? <==> forall k :: 0 <= k < |data.members| ==> Entry(data.members[k].0, data.members[k].1).Ok?
    ensures Errors(data).Ok? ==>
              var rs := Errors(data).value;
              |rs| == |data.members|
              && forall k :: 0 <= k < |rs| ==>
                   rs[k].file == data.members[k].0 && Ok(rs[k]) == Entry(data.members[k].0, data.members[k].1)
  {
    EntriesOk(data.members, Entry);
    if Errors(data).Ok? {
      EntriesEach(data.members, Entry);
    }
  }

  /** A raise part-way through stays raised however many entries follow. */
  lemma {:induction false} EntriesRaised(members: seq<(string, Json)>, m: nat, f: Fault, rec: Recorder)
    requires m <= |members| && EntriesOf(members[..m], rec) == Raised(f)
    ensures EntriesOf(members, rec) == Raised(f)
    decreases |members| - m
  {
    if m < |members| {
      assert members[..m + 1][..m] == members[..m];
      EntriesRaised(members, m + 1, f, rec);
    } else {
      assert members[..m] == members;
    }
  }

  /** The backward search of `parse_deptry_errors` over the kept lines of a
      message carrying the marker. */
  method ExplainMessage(raw: string) returns (message: string)
    ensures message == ParsedMessage(raw)
  {
    message := raw;
    if !Contains(raw, Marker) {
      return;
    }
    var lines := Kept(SplitLines(raw));
    var i := |lines|;
    assert lines[..i] == lines;
    while i > 0
      invariant 0 <= i <= |lines|
      invariant LastSome(lines, ExplanationOf) == LastSome(lines[..i], ExplanationOf)
    {
      var line := lines[i - 1];
      LastSomeStep(lines, i, ExplanationOf);
      if Contains(line, NoFile) {
        message := line;
        return;
      }
      if StartsWith(line, MarkerLine) && ':' in line {
        var rest := Strip(After(line));
        if rest != [] {
          message := rest;
          return;
        }
      }
      i := i - 1;
    }
    assert lines[..i] == [];
  }

  /** The message step on one decoded value. */
  method ReadMessage(raw: Json) returns (r: Outcome<(Json, bool)>)
    ensures r == MessageOf(raw)
  {
    match raw {
      case JString(s) =>
        var message := ExplainMessage(s);
        r := Ok((JString(message), Contains(s, Marker)));
      case JArray(items) =>
        if JString(Marker) in items {
          r := Raised(AttributeError("list", "splitlines"));
        } else {
          r := Ok((raw, false));
        }
      case JObject(ms) =>
        if Get(ms, Marker).Some? {
          r := Raised(AttributeError("dict", "splitlines"));
        } else {
          r := Ok((raw, false));
        }
      case _ =>
        r := Raised(TypeError("argument of type '" + TypeName(raw) + "' is not iterable"));
    }
  }

  /** The body of the key loop: the two-level `get` with its defaults, then
      the message step. */
  method ReadEntry(file: string, toolData: Json) returns (r: Outcome<Parsed>)
    ensures r == Entry(file, toolData)
  {
    var deptryData := GetOr(toolData, "deptry", JObject([]));
    if deptryData.Raised? {
      return Raised(deptryData.fault);
    }
    var error := GetOr(deptryData.value, "error", JString("Unknown"));
    if error.Raised? {
      return Raised(error.fault);
    }
    // `deptry_data` answered `get` once, so it is a dict and answers again
    var raw := GetOr(deptryData.value, "message", JString(""));
    var message := ReadMessage(raw.value);
    if message.Raised? {
      return Raised(message.fault);
    }
    r := Ok(Parsed(file, error.value, message.value.0, message.value.1));
  }

  /** `parse_deptry_errors`: one appended record per key of the report. */
  method ParseDeptryErrors(data: Json) returns (r: Outcome<seq<Parsed>>)
    ensures r == Errors(data)
  {
    if !data.JObject? {
      return Raised(AttributeError(TypeName(data), "items"));
    }
    var members := data.members;
    var parsed: seq<Parsed> := [];
    var i := 0;
    while i < |members|
      invariant 0 <= i <= |members|
      invariant EntriesOf(members[..i], Entry) == Ok(parsed)
    {
      assert members[..i + 1][..i] == members[..i];
      var entry := ReadEntry(members[i].0, members[i].1);
      if entry.Raised? {
        EntriesRaised(members, i + 1, entry.fault, Entry);
        return Raised(entry.fault);
      }
      parsed := parsed + [entry.value];
      i := i + 1;
    }
    assert members[..i] == members;
    r := Ok(parsed);
  }

  // ---------------------------------------------------------------------
  // parse_traceback_message and parse_traceback

  /** The traceback information: the exception's class name, its message
      and the traceback text. */
  datatype Info = Info(errorType: string, message: string, traceback: string)

  const ExceptionPrefix := "deptry.exceptions."

  /** A deptry exception line: the package prefix and a colon. */
  predicate IsException(line: string) {
    StartsWith(line, ExceptionPrefix) && ':' in line
  }

  /** `parts[0].split('.')[-1].strip()`: the class name, without its
      package. */
  function ClassName(line: string): (r: string)
    requires ':' in line
    ensures '.' !in r && ':' !in r
  {
    var b := Before(line);
    var a := AfterLast(b, '.');
    StripKeeps(a, '.');
    StripKeeps(a, ':');
    Strip(a)
  }

  /** Stripping adds no character. */
  lemma StripKeeps(s: string, c: char)
    requires c !in s
    ensures c !in Strip(s)
  {
  }

  /** The class name and the message an exception line gives; nothing for
      any other line. */
  function ExceptionOf(line: string): (r: Option<(string, string)>)
    ensures r.Some? <==> IsException(line)
  {
    if IsException(line) then Some((ClassName(line), Strip(After(line)))) else None
  }

  /** The same, testing the stripped line. */
  function StrippedExceptionOf(line: string): Option<(string, string)>
  {
    ExceptionOf(Strip(line))
  }

  /** The information of a search result: the defaults when nothing was
      found. */
  function InfoOf(found: Option<(string, string)>, traceback: string): (r: Info)
    ensures r.traceback == traceback
    ensures found.None? ==> r.errorType == "Unknown" && r.message == "Unknown error"
    ensures found.Some? ==> r.errorType == found.value.0 && r.message == found.value.1
  {
    match found
    case None => Info("Unknown", "Unknown error", traceback)
    case Some((ty, msg)) => Info(ty, msg, traceback)
  }

  /** `parse_traceback_message`: the last non-blank stripped line that is a
      deptry exception line decides the class name and the message; the
      traceback is the argument itself. */
  function MessageInfo(text: string): Info
  {
    InfoOf(LastSome(Kept(SplitLines(Strip(text))), ExceptionOf), text)
  }

  /** `parse_traceback`: the same search over every line, each stripped when
      tested; the traceback is the stripped argument. */
  function TracebackInfo(text: string): Info
  {
    InfoOf(LastSome(SplitLines(Strip(text)), StrippedExceptionOf), Strip(text))
  }

  /** Dropping the blank lines and stripping the rest does not change what
      the backward search finds. */
  lemma {:induction false} KeptLast(lines: seq<string>)
    ensures LastSome(Kept(lines), ExceptionOf) == LastSome(lines, StrippedExceptionOf)
  {
    if lines != [] {
      var n := |lines| - 1;
      var init := lines[..n];
      var x := lines[n];
      KeptLast(init);
      assert Kept(lines) == Kept(init) + (if StrippedLine(x).Some? then [Strip(x)] else []);
      if StrippedLine(x).None? {
        assert Kept(init) + [] == Kept(init);
      } else {
        LastSomeSnoc(Kept(init), Strip(x), ExceptionOf);
      }
    }
  }

  /** One more line at the end decides if it is accepted. */
  lemma LastSomeSnoc<T>(pre: seq<string>, y: string, f: string -> Option<T>)
    ensures LastSome(pre + [y], f) == if f(y).Some? then f(y) else LastSome(pre, f)
  {
    assert (pre + [y])[..|pre|] == pre;
  }

  /** The two readers agree on the class name and the message for every
      input; they differ only in the traceback text, given or stripped. */
  lemma ReadersAgree(text: string)
    ensures MessageInfo(text).errorType == TracebackInfo(text).errorType
    ensures MessageInfo(text).message == TracebackInfo(text).message
    ensures MessageInfo(text).traceback == text && TracebackInfo(text).traceback == Strip(text)
  {
    KeptLast(SplitLines(Strip(text)));
  }

  /** Without any exception line both readers give the defaults. */
  lemma NoExceptionLine(text: string)
    requires var lines := SplitLines(Strip(text));
             forall k :: 0 <= k < |lines| ==> !IsException(Strip(lines[k]))
    ensures MessageInfo(text) == Info("Unknown", "Unknown error", text)
    ensures TracebackInfo(text) == Info("Unknown", "Unknown error", Strip(text))
  {
    var lines := SplitLines(Strip(text));
    KeptLast(lines);
    LastSomeSpec(lines, StrippedExceptionOf);
  }

  /** Only the last exception line counts: the lines before it, and the
      lines after it that are not exception lines, leave the class name and
      message as that line alone decides, later colons included. */
  lemma LastLineDecides(before: seq<string>, line: string, after: seq<string>)
    requires IsException(line)
    requires forall k :: 0 <= k < |after| ==> !IsException(after[k])
    ensures LastSome(before + [line] + after, ExceptionOf) == Some((ClassName(line), Strip(After(line))))
    ensures line == Before(line) + ":" + After(line) && ':' !in Before(line)
  {
    LastAt(before, line, after, ExceptionOf);
  }

  /** `parse_traceback_message`: the backward loop over the kept lines, with
      its `break`. */
  method ParseTracebackMessage(text: string) returns (info: Info)
    ensures info == MessageInfo(text)
  {
    var lines := Kept(SplitLines(Strip(text)));
    info := Info("Unknown", "Unknown error", text);
    var i := |lines|;
    assert lines[..i] == lines;
    while i > 0
      invariant 0 <= i <= |lines|
      invariant LastSome(lines, ExceptionOf) == LastSome(lines[..i], ExceptionOf)
    {
      var line := lines[i - 1];
      LastSomeStep(lines, i, ExceptionOf);
      if StartsWith(line, ExceptionPrefix) && ':' in line {
        info := info.(errorType := ClassName(line), message := Strip(After(line)));
        return;
      }
      i := i - 1;
    }
    assert lines[..i] == [];
  }

  /** `parse_traceback`: the backward loop over all lines, stripping each.
      The split at the first colon always yields two parts here, so its
      `ValueError` branch never runs. */
  method ParseTraceback(text: string) returns (info: Info)
    ensures info == TracebackInfo(text)
  {
    info := Info("Unknown", "Unknown error", Strip(text));
    var lines := SplitLines(Strip(text));
    var i := |lines|;
    assert lines[..i] == lines;
    while i > 0
      invariant 0 <= i <= |lines|
      invariant LastSome(lines, StrippedExceptionOf) == LastSome(lines[..i], StrippedExceptionOf)
    {
      var line := Strip(lines[i - 1]);
      LastSomeStep(lines, i, StrippedExceptionOf);
      if StartsWith(line, ExceptionPrefix) && ':' in line {
        info := info.(errorType := ClassName(line), message := Strip(After(line)));
        return;
      }
      i := i - 1;
    }
    assert lines[..i] == [];
  }
}

=== FILE: example.dfy ===
/** The fixture module the analyser is pointed at (TestProject/src/example.py):
    a summing loop and three small integer functions. Python integers are
    unbounded, as Dafny's are. */
module Example {

  /** The total of a list. */
  function Sum(numbers: seq<int>): int
  {
    if numbers == [] then 0 else Sum(numbers[..|numbers| - 1]) + numbers[|numbers| - 1]
  }

  /** The list without its zeros, in order. */
  function NonZero(numbers: seq<int>): (r: seq<int>)
    ensures forall k :: 0 <= k < |r| ==> r[k] != 0
    ensures |r| <= |numbers|
  {
    if numbers == [] then []
    else
      var last := numbers[|numbers| - 1];
      NonZero(numbers[..|numbers| - 1]) + (if last == 0 then [] else [last])
  }

  /** `sum_numbers`: the loop that skips zeros and adds everything else. */
  method SumNumbers(numbers: seq<int>) returns (total: int)
    ensures total == Sum(numbers)
  {
    total := 0;
    var i := 0;
    while i < |numbers|
      invariant 0 <= i <= |numbers|
      invariant total == Sum(numbers[..i])
    {
      var n := numbers[i];
      assert numbers[..i + 1][..i] == numbers[..i];
      if n == 0 {
        i := i + 1;
        continue;
      }
      total := total + n;
      i := i + 1;
    }
    assert numbers[..i] == numbers;
  }

  /** Skipping the zeros never changes the total. */
  lemma {:induction false} ZerosIgnored(numbers: seq<int>)
    ensures Sum(NonZero(numbers)) == Sum(numbers)
  {
    if numbers != [] {
      var init := numbers[..|numbers| - 1];
      var last := numbers[|numbers| - 1];
      ZerosIgnored(init);
      if last != 0 {
        var kept := NonZero(init) + [last];
        assert kept[..|kept| - 1] == NonZero(init);
      } else {
        assert NonZero(init) + [] == NonZero(init);
      }
    }
  }

  /** The total of a concatenation is the sum of the totals. */
  lemma {:induction false} SumAppend(a: seq<int>, b: seq<int>)
    ensures Sum(a + b) == Sum(a) + Sum(b)
    decreases |b|
  {
    if b != [] {
      var init := b[..|b| - 1];
      assert (a + b)[..|a + b| - 1] == a + init;
      SumAppend(a, init);
    } else {
      assert a + b == a;
    }
  }

  /** The case the test checks: `sum_numbers([1, 2, 3]) == 6`. */
  lemma SumExample()
    ensures Sum([1, 2, 3]) == 6
  {
    assert [1, 2, 3][..2] == [1, 2];
    assert [1, 2][..1] == [1];
    assert [1][..0] == [];
  }

  /** `complex_function`: nothing for non-positive input, a doubled or tripled
      value below ten, the value itself from ten on. */
  function ComplexFunction(x: int): (r: int)
    ensures r >= 0
    ensures x > 0 ==> x <= r <= 3 * x && r % x == 0
    ensures x > 0 && r != x ==> x < 10
  {
    if x > 0 then
      if x < 10 then
        if x % 2 == 0 then x * 2 else x * 3
      else x
    else 0
  }

  /** The three ranges of `complex_function`, and the even/odd split of the
      middle one. */
  lemma ComplexCases(x: int)
    ensures x <= 0 ==> ComplexFunction(x) == 0
    ensures 0 < x < 10 && x % 2 == 0 ==> ComplexFunction(x) == 2 * x
    ensures 0 < x < 10 && x % 2 == 1 ==> ComplexFunction(x) == 3 * x
    ensures x >= 10 ==> ComplexFunction(x) == x
  {
  }

  /** The cases the test checks: 2 gives 4, 3 gives 9, -1 gives 0. */
  lemma ComplexExamples()
    ensures ComplexFunction(2) == 4 && ComplexFunction(3) == 9 && ComplexFunction(-1) == 0
  {
  }

  /** `calculateSum`: ten more than its argument. */
  function CalculateSum(totalValue: int): (r: int)
    ensures r - totalValue == 10
  {
    totalValue + 10
  }

  /** `isWorkingProper`: always true. */
  function IsWorkingProper(): (r: bool)
    ensures r
  {
    true
  }
}

=== FILE: flake8.dfy ===
/** flake8 report lines `path:line:col: CODE message`
    (CodeReview/CodeQuality/flake8_runner.py). */
module Flake8 {
  import opened Runtime
  import opened Text
  import opened Lines

  /** One normalised flake8 finding. */
  datatype Issue = Issue(file: string, line: nat, column: nat, code: string, message: string)

  /** The pieces of a report line, as the pattern
      `^(.*?):(\d+):(\d+):\s([A-Z]\d{3})\s(.*)$` cuts it. */
  datatype RawLine = RawLine(path: string, row: string, col: string, gap1: char, code: string, gap2: char, message: string)

  /** A capital letter followed by exactly three digits. */
  predicate IsCode(c: string) {
    |c| == 4 && IsUpper(c[0]) && IsDigit(c[1]) && IsDigit(c[2]) && IsDigit(c[3])
  }

  /** What the pattern demands of the pieces after the path. */
  predicate Shaped(r: RawLine) {
    r.row != [] && AllDigits(r.row) && r.col != [] && AllDigits(r.col)
    && IsSpace(r.gap1) && IsCode(r.code) && IsSpace(r.gap2)
  }

  /** The text after the column's colon. */
  function Middle(r: RawLine): string {
    [r.gap1] + r.code + [r.gap2] + r.message
  }

  /** Everything after the colon that ends the path. */
  function RenderTail(r: RawLine): string {
    r.row + ":" + (r.col + ":" + Middle(r))
  }

  /** The report line the pieces spell. */
  function Render(r: RawLine): string {
    r.path + ":" + RenderTail(r)
  }

  /** The colon after the path, and the text after it. */
  lemma AfterPath(r: RawLine)
    ensures |r.path| < |Render(r)| && Render(r)[|r.path|] == ':'
    ensures Render(r)[|r.path| + 1..] == RenderTail(r)
  {
    TailAfter(r.path, ':', RenderTail(r));
  }

  /** The colon after the row, and the text after it. */
  lemma AfterRow(r: RawLine)
    ensures var k := |r.path| + 1 + |r.row|;
            k < |Render(r)| && Render(r)[k] == ':' && Render(r)[k + 1..] == r.col + ":" + Middle(r)
  {
    var line := Render(r);
    var k := |r.path| + 1 + |r.row|;
    AfterPath(r);
    TailAfter(r.row, ':', r.col + ":" + Middle(r));
    assert line[k + 1..] == line[|r.path| + 1..][|r.row| + 1..];
    assert line[k] == line[|r.path| + 1..][|r.row|];
  }

  /** The colon after the column, and the text after it. */
  lemma AfterColumn(r: RawLine)
    ensures var k := |r.path| + 2 + |r.row| + |r.col|;
            k < |Render(r)| && Render(r)[k] == ':' && Render(r)[k + 1..] == Middle(r)
  {
    var line := Render(r);
    var j := |r.path| + 1 + |r.row|;
    var k := j + 1 + |r.col|;
    AfterRow(r);
    TailAfter(r.col, ':', Middle(r));
    assert line[k + 1..] == line[j + 1..][|r.col| + 1..];
    assert line[k] == line[j + 1..][|r.col|];
  }

  /** The record built from the pieces: stripped path and message, integer
      line and column, the code as matched. */
  function Normalise(r: RawLine): Issue
    requires Shaped(r)
  {
    Issue(Strip(r.path), NatOf(r.row), NatOf(r.col), r.code, Strip(r.message))
  }

  /** `\s([A-Z]\d{3})\s(.*)$`: the text after the column's colon. */
  function MiddleOf(t: string): (r: Option<RawLine>)
    ensures r.Some? ==> r.value.path == [] && r.value.row == [] && r.value.col == []
                        && IsSpace(r.value.gap1) && IsCode(r.value.code) && IsSpace(r.value.gap2)
                        && Middle(r.value) == t
  {
    if |t| < 6 || !IsSpace(t[0]) || !IsCode(t[1..5]) || !IsSpace(t[5]) then None
    else
      assert t == [t[0]] + t[1..5] + [t[5]] + t[6..];
      Some(RawLine([], [], [], t[0], t[1..5], t[5], t[6..]))
  }

  /** `(\d+):(\d+):\s([A-Z]\d{3})\s(.*)$` against the text after a colon. */
  function Tail(t: string): (r: Option<RawLine>)
    ensures r.Some? ==> Shaped(r.value) && r.value.path == [] && RenderTail(r.value) == t
  {
    match DigitsThen(t, ':')
    case None => None
    case Some((row, t1)) =>
      match DigitsThen(t1, ':')
      case None => None
      case Some((col, t2)) =>
        match MiddleOf(t2)
        case None => None
        case Some(m) => Some(m.(row := row, col := col))
  }

  /** Every well-shaped tail is recognised, pieces intact. */
  lemma TailOfRender(r: RawLine)
    requires Shaped(r)
    ensures Tail(RenderTail(r)) == Some(r.(path := []))
  {
    var t := Middle(r);
    assert t[1..5] == r.code;
    assert t[6..] == r.message;
    assert MiddleOf(t) == Some(r.(path := [], row := [], col := []));
    DigitsThenOf(r.col, ':', t);
    DigitsThenOf(r.row, ':', r.col + ":" + t);
  }

  /** One line matched against the whole pattern (`re.match`). */
  function MatchLine(line: string): (r: Option<Issue>)
    ensures r.Some? ==> IsCode(r.value.code)
  {
    match LazyColon(line, 0, Tail)
    case None => None
    case Some((i, raw)) => Some(Normalise(raw.(path := line[..i])))
  }

  /** The pieces found after colon `i` spell the line once the text before
      the colon is taken as the path. */
  lemma RenderAt(line: string, i: nat, tailRaw: RawLine)
    requires i < |line| && line[i] == ':' && Tail(line[i + 1..]) == Some(tailRaw)
    ensures Shaped(tailRaw.(path := line[..i])) && Render(tailRaw.(path := line[..i])) == line
  {
    WithPath(tailRaw, line[..i]);
    SplitAround(line, i);
  }

  /** The path plays no part in the shape or the tail. */
  lemma WithPath(r: RawLine, p: string)
    ensures Shaped(r.(path := p)) == Shaped(r)
    ensures Render(r.(path := p)) == p + ":" + RenderTail(r)
  {
  }

  /** Soundness: a record comes from a line that is a well-shaped rendering
      of its pieces. */
  lemma MatchSound(line: string) returns (raw: RawLine)
    requires MatchLine(line).Some?
    ensures Shaped(raw) && Render(raw) == line && MatchLine(line) == Some(Normalise(raw))
  {
    var (i, tailRaw) := LazyColon(line, 0, Tail).value;
    raw := tailRaw.(path := line[..i]);
    assert MatchLine(line) == Some(Normalise(raw));
    RenderAt(line, i, tailRaw);
  }

  /** Completeness: a well-shaped line yields exactly the record of its
      pieces, unless a colon inside its path is followed there by digits and
      another colon (then the lazy path ends early). */
  lemma MatchComplete(raw: RawLine)
    requires Shaped(raw) && NoRowColon(raw.path)
    ensures MatchLine(Render(raw)) == Some(Normalise(raw))
  {
    var line := Render(raw);
    var p := |raw.path|;
    assert line[p + 1..] == RenderTail(raw);
    assert line[..p] == raw.path;
    TailOfRender(raw);
    forall k | 0 <= k < p ensures NoMatchAt(line, k, Tail) {
      PathColonMiss(raw, k);
    }
    LazyColonFirst(line, 0, p, Tail);
  }

  /** A colon inside the path that is not followed by `digits:` there is
      passed over: what follows it is no tail. */
  lemma PathColonMiss(raw: RawLine, k: nat)
    requires Shaped(raw) && k < |raw.path| && !RowColonAt(raw.path, k)
    ensures NoMatchAt(Render(raw), k, Tail)
  {
    var line := Render(raw);
    assert line[k] == raw.path[k];
    if raw.path[k] == ':' {
      var p := raw.path[k + 1..];
      var t := RenderTail(raw);
      assert line[k + 1..] == p + ":" + t;
      DigitsThenPast(p, t);
      NoTailBefore(raw, p + ":" + t);
    }
  }

  /** A text whose `(\d+):` is missing, or is followed by a whole tail, is
      no tail itself: the column would have to start with a space. */
  lemma NoTailBefore(raw: RawLine, t: string)
    requires Shaped(raw)
    requires DigitsThen(t, ':').None? || DigitsThen(t, ':').value.1 == RenderTail(raw)
    ensures Tail(t) == None
  {
    var m := Middle(raw);
    DigitsThenOf(raw.row, ':', raw.col + ":" + m);
    assert (raw.col + ":" + m)[0] == raw.col[0];
  }

  /** A code with a fourth digit never matches: when the character after a
      three-digit code is a digit rather than whitespace, and neither path nor
      message holds a colon, the line yields no record. */
  lemma RejectsFourDigitCode(r: RawLine)
    requires FourDigitShaped(r)
    ensures MatchLine(Render(r)) == None
  {
    forall k | 0 <= k < |Render(r)| ensures NoMatchAt(Render(r), k, Tail) {
      FourDigitColon(r, k);
    }
    LazyColonNone(Render(r), 0, Tail);
  }

  /** The shape of a line whose code has a fourth digit. */
  predicate FourDigitShaped(r: RawLine) {
    r.row != [] && AllDigits(r.row) && r.col != [] && AllDigits(r.col)
    && IsSpace(r.gap1) && IsCode(r.code) && IsDigit(r.gap2)
    && ':' !in r.path && ':' !in r.message
  }

  /** No colon of such a line is followed by a tail the pattern accepts. */
  lemma FourDigitColon(r: RawLine, k: nat)
    requires FourDigitShaped(r)
    requires k < |Render(r)|
    ensures NoMatchAt(Render(r), k, Tail)
  {
    var p2 := |r.path| + 1 + |r.row|;
    var p3 := p2 + 1 + |r.col|;
    if k == |r.path| {
      FourDigitAfterPath(r, k);
    } else if k == p2 {
      FourDigitAfterRow(r, k);
    } else if k == p3 {
      FourDigitAfterColumn(r, k);
    } else {
      assert ':' !in r.code;
      OnlyFieldColons(r, k);
    }
  }

  lemma FourDigitAfterPath(r: RawLine, k: nat)
    requires FourDigitShaped(r) && k == |r.path|
    ensures k < |Render(r)| && NoMatchAt(Render(r), k, Tail)
  {
    AfterPath(r);
    FourDigitTail(r);
  }

  /** The text after the path is not a tail: the code runs on into a digit. */
  lemma FourDigitTail(r: RawLine)
    requires FourDigitShaped(r)
    ensures Tail(RenderTail(r)) == None
  {
    var m := Middle(r);
    DigitsThenOf(r.row, ':', r.col + ":" + m);
    DigitsThenOf(r.col, ':', m);
    assert m[5] == r.gap2;
    assert MiddleOf(m) == None;
  }

  lemma FourDigitAfterRow(r: RawLine, k: nat)
    requires FourDigitShaped(r) && k == |r.path| + 1 + |r.row|
    ensures k < |Render(r)| && NoMatchAt(Render(r), k, Tail)
  {
    var line := Render(r);
    AfterRow(r);
    assert line[k + 1..] == r.col + ":" + Middle(r);
    AfterRowTail(r);
  }

  /** The text after the row is not a tail: a single number precedes the
      middle. */
  lemma AfterRowTail(r: RawLine)
    requires r.col != [] && AllDigits(r.col) && IsSpace(r.gap1)
    ensures Tail(r.col + ":" + Middle(r)) == None
  {
    DigitsThenOf(r.col, ':', Middle(r));
    NoDigitsThen(Middle(r), ':');
  }

  lemma FourDigitAfterColumn(r: RawLine, k: nat)
    requires FourDigitShaped(r) && k == |r.path| + 2 + |r.row| + |r.col|
    ensures k < |Render(r)| && NoMatchAt(Render(r), k, Tail)
  {
    AfterColumn(r);
    NoDigitsThen(Middle(r), ':');
  }

  /** Apart from the three after the path, row and column, a line whose
      pieces hold no colon holds none. */
  lemma OnlyFieldColons(r: RawLine, k: nat)
    requires AllDigits(r.row) && AllDigits(r.col) && r.gap1 != ':' && ':' !in r.code && r.gap2 != ':'
    requires ':' !in r.path && ':' !in r.message
    requires k < |Render(r)|
    requires k != |r.path| && k != |r.path| + 1 + |r.row| && k != |r.path| + 2 + |r.row| + |r.col|
    ensures Render(r)[k] != ':'
  {
    var m := Middle(r);
    var u := r.col + ":" + m;
    CharAt(r.path, ':', RenderTail(r), k);
    if k > |r.path| {
      var j := k - |r.path| - 1;
      CharAt(r.row, ':', u, j);
      if j > |r.row| {
        var i := j - |r.row| - 1;
        CharAt(r.col, ':', m, i);
        if i > |r.col| {
          var h := i - |r.col| - 1;
          assert m == [r.gap1] + r.code + [r.gap2] + r.message;
          if 0 < h <= |r.code| {
            assert m[h] == r.code[h - 1];
          } else if h > |r.code| + 1 {
            assert m[h] == r.message[h - |r.code| - 2];
          }
        }
      }
    }
  }

  /** `parse_flake8_output`: the output is stripped and split into lines;
      each line the pattern accepts appends its record. */
  method ParseOutput(output: string) returns (issues: seq<Issue>)
    ensures issues == Collect(SplitLines(Strip(output)), MatchLine)
    ensures forall k :: 0 <= k < |issues| ==> IsCode(issues[k].code)
  {
    var lines := SplitLines(Strip(output));
    issues := CollectLines(lines, MatchLine);
    CollectAccepted(lines, MatchLine);
  }

  /** A rendering is one line when its path, message and gaps hold no line
      break. */
  lemma RenderNoBreak(raw: RawLine)
    requires Shaped(raw) && raw.gap1 != '\n' && raw.gap2 != '\n'
    requires '\n' !in raw.path && '\n' !in raw.message
    ensures '\n' !in Render(raw)
  {
    assert '\n' !in raw.row && '\n' !in raw.col;
    assert raw.code == [raw.code[0], raw.code[1], raw.code[2], raw.code[3]];
    assert '\n' !in Middle(raw);
  }


  /** A report of one well-formed line, without surrounding whitespace,
      yields exactly that line's record. */
  lemma OneLineReport(raw: RawLine)
    requires Shaped(raw) && NoRowColon(raw.path)
    requires raw.gap1 != '\n' && raw.gap2 != '\n' && '\n' !in raw.path && '\n' !in raw.message
    requires raw.path != [] && !IsSpace(raw.path[0])
    requires raw.message != [] && !IsSpace(raw.message[|raw.message| - 1])
    ensures Collect(SplitLines(Strip(Render(raw))), MatchLine) == [Normalise(raw)]
  {
    var line := Render(raw);
    assert line[0] == raw.path[0];
    assert line[|line| - 1] == raw.message[|raw.message| - 1];
    StripTrimmed(line);
    RenderNoBreak(raw);
    SplitLinesOne(line);
    MatchComplete(raw);
    CollectOne(line, MatchLine);
  }
}

=== FILE: formatting.dfy ===
/** What the three formatter adapters share
    (CodeReview/FormattingAndStyle/black_runner.py, isort_runner.py and
    autopep8_runner.py): the finished process they read, the record they
    return, and the argv shape black and isort have in common. */
module Formatting {
  import opened Text

  /** The finished `subprocess.run`: exit code and captured text. Running the
      tool is not modelled; an adapter takes the process its argv yields as a
      function `run`. */
  datatype Process = Process(returncode: int, stdout: string, stderr: string)

  /** The adapter's result record. */
  datatype FormatResult = FormatResult(file: string, reformatNeeded: bool, stdout: string,
                                       stderr: string, returncode: int)

  /** The record every adapter returns: the path it was given, its verdict,
      both streams stripped and the exit code as returned. */
  function Echo(file: string, reformatNeeded: bool, p: Process): (r: FormatResult)
    ensures r.file == file && r.reformatNeeded == reformatNeeded && r.returncode == p.returncode
    ensures r.stdout == Strip(p.stdout) && r.stderr == Strip(p.stderr)
    ensures Strip(r.stdout) == r.stdout && Strip(r.stderr) == r.stderr
  {
    StripIdempotent(p.stdout);
    StripIdempotent(p.stderr);
    FormatResult(file, reformatNeeded, Strip(p.stdout), Strip(p.stderr), p.returncode)
  }

  /** The argv black and isort build: the program, then its check flag when
      checking, then `--diff` when diffing, then the path. */
  function FlagArgv(program: string, checkFlag: string, filePath: string, check: bool, diff: bool): seq<string>
  {
    [program] + (if check then [checkFlag] else []) + (if diff then ["--diff"] else []) + [filePath]
  }

  /** The conditional appends that build that argv. */
  method BuildFlagCommand(program: string, checkFlag: string, filePath: string, check: bool, diff: bool)
    returns (cmd: seq<string>)
    ensures cmd == FlagArgv(program, checkFlag, filePath, check, diff)
  {
    cmd := [program];
    if check {
      cmd := cmd + [checkFlag];
    }
    if diff {
      cmd := cmd + ["--diff"];
    }
    cmd := cmd + [filePath];
  }

  /** The program comes first and the path last; between them the check
      flag appears exactly when checking and `--diff` exactly when diffing,
      in that order. */
  lemma FlagArgvShape(program: string, checkFlag: string, filePath: string, check: bool, diff: bool)
    requires checkFlag != "--diff"
    ensures var a := FlagArgv(program, checkFlag, filePath, check, diff);
            |a| == 2 + (if check then 1 else 0) + (if diff then 1 else 0)
            && a[0] == program && a[|a| - 1] == filePath
            && (checkFlag in a[1..|a| - 1] <==> check)
            && ("--diff" in a[1..|a| - 1] <==> diff)
            && (check && diff ==> a[1..|a| - 1] == [checkFlag, "--diff"])
  {
    var flags := (if check then [checkFlag] else []) + (if diff then ["--diff"] else []);
    var a := FlagArgv(program, checkFlag, filePath, check, diff);
    assert a == [program] + flags + [filePath];
    assert a[1..|a| - 1] == flags;
  }

  /** A text that begins and ends with non-space characters occurs in the
      stripped text exactly when it occurs in the text: stripping cannot
      make or break an occurrence. */
  lemma ContainsStrip(s: string, sub: string)
    requires sub != [] && !IsSpace(sub[0]) && !IsSpace(sub[|sub| - 1])
    ensures Contains(Strip(s), sub) <==> Contains(s, sub)
  {
    var r := Strip(s);
    var w1, w2 := StripParts(s);
    if Contains(r, sub) {
      ContainsSuffix(w1, r, sub);
      ContainsPrefix(w1 + r, w2, sub);
    }
    if Contains(s, sub) {
      var i := ContainsWitness(s, sub);
      Inside(s, w1, r, w2, sub, i);
    }
  }

  /** A text is its stripped text between two runs of whitespace. */
  lemma StripParts(s: string) returns (w1: string, w2: string)
    ensures AllSpace(w1) && AllSpace(w2) && s == w1 + Strip(s) + w2
  {
    var l := LStrip(s);
    var r := Strip(s);
    w1 := s[..|s| - |l|];
    w2 := l[|r|..];
    assert r == RStrip(l);
    Recompose(s, l, r);
  }

  /** A text is what comes before its tail `l`, then `l` cut after its
      prefix `r`. */
  lemma Recompose(s: string, l: string, r: string)
    requires |l| <= |s| && l == s[|s| - |l|..] && |r| <= |l| && r == l[..|r|]
    ensures s == s[..|s| - |l|] + r + l[|r|..]
  {
    assert l == r + l[|r|..];
  }

  /** An occurrence whose ends are not spaces lies inside the trimmed
      middle. */
  lemma Inside(s: string, w1: string, r: string, w2: string, sub: string, i: nat)
    requires AllSpace(w1) && AllSpace(w2) && s == w1 + r + w2
    requires sub != [] && !IsSpace(sub[0]) && !IsSpace(sub[|sub| - 1])
    requires i <= |s| && StartsWith(s[i..], sub)
    ensures Contains(r, sub)
  {
    assert s[i] == sub[0];
    assert s[i + |sub| - 1] == sub[|sub| - 1];
    var j := i - |w1|;
    assert r[j..j + |sub|] == s[i..i + |sub|];
    ContainsAt(r, sub, j);
  }
}

=== FILE: hypothesis.dfy ===
/** The Hypothesis run normaliser
    (CodeReview/TestingAndTestCoverage/hypothesis_runner.py): the counts of
    pytest's session banner, and the `Falsifying example:` blocks. */
module Hypothesis {
  import opened Runtime
  import opened Text
  import opened Lines
  import opened Banner

  /** The four counts of the summary dictionary. */
  datatype Counts = Counts(passed: nat, failed: nat, skipped: nat, errors: nat)

  const Zero := Counts(0, 0, 0, 0)

  /** Which count a comma-separated part of the banner sets. */
  datatype Category = PassedPart | FailedPart | SkippedPart | ErrorPart | OtherPart

  /** ` in [\d\.]+s ==` at `m`: the duration and the closing `==+` after
      the group. */
  predicate DurationAt(s: string, m: nat) {
    m + 4 <= |s| && s[m] == ' ' && s[m + 1] == 'i' && s[m + 2] == 'n' && s[m + 3] == ' '
    && var d := DigitDotEnd(s, m + 4);
       d > m + 4 && d + 4 <= |s| && s[d] == 's' && s[d + 1] == ' ' && s[d + 2] == '=' && s[d + 3] == '='
  }

  /** `==+ (.+) in [\d\.]+s ==+` at `i`: the index `e` of the space after
      the opening run and the index `m` where the duration starts, so that
      the group is `s[e + 1..m]`. The greedy group ends at the last duration
      on the line. */
  function SessionAt(s: string, i: nat): (r: Option<(nat, nat)>)
    ensures r.Some? ==> Open(s, i) == Some(r.value.0)
    ensures r.Some? ==> var (e, m) := r.value;
                        e + 2 <= m && DurationAt(s, m) && m <= LineEnd(s, e + 1)
                        && forall k :: m < k <= LineEnd(s, e + 1) ==> Rejects(s, k, DurationAt)
  {
    match Open(s, i)
    case None => None
    case Some(e) =>
      var l := LineEnd(s, e + 1);
      match Last(s, e + 2, l + 1, DurationAt)
      case None => None
      case Some(m) => Some((e, m))
  }

  /** `match.group(1)` of the first session banner, if any. */
  function Group(output: string): Option<string>
  {
    match Search(output, 0, SessionAt)
    case None => None
    case Some((_, (e, m))) => Some(output[e + 1..m])
  }

  /** The first keyword a part mentions, checked in the order passed,
      failed, skipped, error (`'errors'` contains `'error'`). */
  function CategoryOf(p: string): Category
  {
    if Contains(p, "passed") then PassedPart
    else if Contains(p, "failed") then FailedPart
    else if Contains(p, "skipped") then SkippedPart
    else if Contains(p, "error") then ErrorPart
    else OtherPart
  }

  /** First index at or after `i` holding a digit, or `|p|`. */
  function DigitStart(p: string, i: nat): (j: nat)
    requires i <= |p|
    ensures i <= j <= |p|
    ensures forall k :: i <= k < j ==> !IsDigit(p[k])
    ensures j < |p| ==> IsDigit(p[j])
    decreases |p| - i
  {
    if i < |p| && !IsDigit(p[i]) then DigitStart(p, i + 1) else i
  }

  /** The search for a digit stops at the first one. */
  lemma {:induction false} DigitStartAt(p: string, i: nat, j: nat)
    requires i <= j <= |p|
    requires forall k :: i <= k < j ==> !IsDigit(p[k])
    requires j < |p| ==> IsDigit(p[j])
    ensures DigitStart(p, i) == j
    decreases j - i
  {
    if i < j {
      DigitStartAt(p, i + 1, j);
    }
  }

  /** `int(re.search(r'(\d+)', p).group(1))`: the value of the first digit
      run; with no digit, `None.group` raises. */
  function FirstNumber(p: string): (r: Outcome<nat>)
    ensures r.Raised? <==> forall k :: 0 <= k < |p| ==> !IsDigit(p[k])
  {
    var a := DigitStart(p, 0);
    if a == |p| then Raised(AttributeError("NoneType", "group"))
    else
      var b := DigitEnd(p, a);
      assert AllDigits(p[a..b]);
      Ok(NatOf(p[a..b]))
  }

  /** The count is read from the first digit run, whatever follows it. */
  lemma FirstNumberOf(pre: string, d: string, rest: string)
    requires forall k :: 0 <= k < |pre| ==> !IsDigit(pre[k])
    requires d != [] && AllDigits(d) && (rest == [] || !IsDigit(rest[0]))
    ensures FirstNumber(pre + d + rest) == Ok(NatOf(d))
  {
    var p := pre + d + rest;
    DigitStartAt(p, 0, |pre|);
    DigitEndAt(p, |pre|, |pre| + |d|);
    assert p[|pre|..|pre| + |d|] == d;
  }

  /** The counts with the one of `cat` set to `n`. */
  function Set(c: Counts, cat: Category, n: nat): Counts
  {
    match cat
    case PassedPart => c.(passed := n)
    case FailedPart => c.(failed := n)
    case SkippedPart => c.(skipped := n)
    case ErrorPart => c.(errors := n)
    case OtherPart => c
  }

  /** The count of category `cat`. */
  function Get(c: Counts, cat: Category): nat
    requires cat != OtherPart
  {
    match cat
    case PassedPart => c.passed
    case FailedPart => c.failed
    case SkippedPart => c.skipped
    case ErrorPart => c.errors
  }

  /** One iteration of the loop over the parts, after `part.strip()`:
      classify, and overwrite the count of the category, if any. */
  function Apply(c: Counts, p: string): Outcome<Counts>
  {
    var cat := CategoryOf(p);
    if cat == OtherPart then Ok(c)
    else
      match FirstNumber(p)
      case Raised(f) => Raised(f)
      case Ok(n) => Ok(Set(c, cat, n))
  }

  /** `f` applied to each part. */
  function Each(parts: seq<string>, f: string -> string): (r: seq<string>)
    ensures |r| == |parts| && forall k :: 0 <= k < |parts| ==> r[k] == f(parts[k])
  {
    seq(|parts|, k requires 0 <= k < |parts| => f(parts[k]))
  }

  /** The loop over the stripped parts, starting from zero counts. */
  function Tally(parts: seq<string>): Outcome<Counts>
  {
    if parts == [] then Ok(Zero)
    else
      match Tally(parts[..|parts| - 1])
      case Raised(f) => Raised(f)
      case Ok(c) => Apply(c, parts[|parts| - 1])
  }

  /** `parse_pytest_summary` */
  function Summary(output: string): Outcome<Counts>
  {
    match Group(output)
    case None => Ok(Zero)
    case Some(g) => Tally(Each(SplitOn(g, ","), Strip))
  }

  /** The index of the last part that `kind` puts in category `cat`, if
      any: an independent statement of which part a count comes from. */
  function LastIn(parts: seq<string>, cat: Category, kind: string -> Category): (r: Option<nat>)
    ensures r.Some? ==> r.value < |parts| && kind(parts[r.value]) == cat
    ensures r.Some? ==> forall k :: r.value < k < |parts| ==> kind(parts[k]) != cat
    ensures r.None? ==> forall k :: 0 <= k < |parts| ==> kind(parts[k]) != cat
  {
    if parts == [] then None
    else if kind(parts[|parts| - 1]) == cat then Some(|parts| - 1)
    else
      var before := parts[..|parts| - 1];
      assert forall k :: 0 <= k < |before| ==> before[k] == parts[k];
      LastIn(before, cat, kind)
  }

  /** Each count is 0 when no part has its keyword, and otherwise the number
      of the LAST part of that category: later parts overwrite earlier ones,
      and parts without a keyword are ignored. */
  lemma {:induction false} TallyLast(parts: seq<string>, cat: Category)
    requires cat != OtherPart && Tally(parts).Ok?
    ensures LastIn(parts, cat, CategoryOf).None? ==> Get(Tally(parts).value, cat) == 0
    ensures LastIn(parts, cat, CategoryOf).Some? ==>
              FirstNumber(parts[LastIn(parts, cat, CategoryOf).value]) == Ok(Get(Tally(parts).value, cat))
  {
    if parts != [] {
      var n := |parts| - 1;
      var before := parts[..n];
      TallyLast(before, cat);
      if CategoryOf(parts[n]) != cat {
        assert forall k :: 0 <= k < |before| ==> before[k] == parts[k];
      }
    }
  }

  /** A stripped part with a keyword but no digit. */
  predicate Unreadable(p: string) {
    CategoryOf(p) != OtherPart && FirstNumber(p).Raised?
  }

  /** The loop raises exactly when some part has a keyword but no digit. */
  lemma {:induction false} TallyRaises(parts: seq<string>)
    ensures Tally(parts).Raised? <==> exists k :: 0 <= k < |parts| && Unreadable(parts[k])
  {
    if parts != [] {
      var n := |parts| - 1;
      var before := parts[..n];
      TallyRaises(before);
      assert forall k :: 0 <= k < n ==> before[k] == parts[k];
      if Tally(before).Raised? {
        var k :| 0 <= k < |before| && Unreadable(before[k]);
        assert Unreadable(parts[k]);
      }
    }
  }

  /** Once the loop has raised, the rest of the parts are never read. */
  lemma {:induction false} TallyRaisedStays(parts: seq<string>, i: nat)
    requires i <= |parts| && Tally(parts[..i]).Raised?
    ensures Tally(parts) == Tally(parts[..i])
    decreases |parts| - i
  {
    if i < |parts| {
      var n := |parts| - 1;
      assert parts[..n][..i] == parts[..i];
      TallyRaisedStays(parts[..n], i);
    } else {
      assert parts[..i] == parts;
    }
  }

  /** Any session banner is found, at its position or earlier; a banner
      found at its position keeps every duration on its line inside the
      group except the last. */
  lemma SessionFound(s: string, i: nat, e: nat, m: nat)
    requires i + 2 <= e < |s| && s[e] == ' ' && forall k :: i <= k < e ==> s[k] == '='
    requires e + 2 <= m && DurationAt(s, m) && forall k :: e < k < m ==> s[k] != '\n'
    ensures SessionAt(s, i).Some? && SessionAt(s, i).value.0 == e && SessionAt(s, i).value.1 >= m
    ensures Search(s, 0, SessionAt).Some? && Search(s, 0, SessionAt).value.0 <= i
  {
    OpenAt(s, i, e);
    var l := LineEnd(s, e + 1);
    assert m <= l;
    assert !Rejects(s, m, DurationAt);
    var r := Search(s, 0, SessionAt);
    if r.None? || r.value.0 > i {
      assert MissAt(s, i, SessionAt);
    }
  }

  /** Output without a session banner gives four zero counts. */
  lemma NoBanner(output: string)
    requires forall i :: 0 <= i <= |output| ==> MissAt(output, i, SessionAt)
    ensures Summary(output) == Ok(Zero)
  {
    SearchNone(output, 0, SessionAt);
  }

  /** One more part read by the loop. */
  lemma TallyStep(ps: seq<string>, i: nat)
    requires i < |ps|
    ensures Tally(ps[..i + 1]) == match Tally(ps[..i])
                                  case Raised(f) => Raised(f)
                                  case Ok(c) => Apply(c, ps[i])
  {
    assert ps[..i + 1][..i] == ps[..i];
  }

  /** The body of the loop of `parse_pytest_summary` for one stripped part:
      the first keyword it mentions picks the count that its first number
      overwrites. */
  method ReadPart(c: Counts, part: string) returns (r: Outcome<Counts>)
    ensures r == Apply(c, part)
  {
    r := Ok(c);
    if Contains(part, "passed") {
      var n := FirstNumber(part);
      if n.Raised? {
        return Raised(n.fault);
      }
      r := Ok(c.(passed := n.value));
    } else if Contains(part, "failed") {
      var n := FirstNumber(part);
      if n.Raised? {
        return Raised(n.fault);
      }
      r := Ok(c.(failed := n.value));
    } else if Contains(part, "skipped") {
      var n := FirstNumber(part);
      if n.Raised? {
        return Raised(n.fault);
      }
      r := Ok(c.(skipped := n.value));
    } else if Contains(part, "error") {
      var n := FirstNumber(part);
      if n.Raised? {
        return Raised(n.fault);
      }
      r := Ok(c.(errors := n.value));
    }
  }

  /** The loop of `parse_pytest_summary` over the comma-separated parts,
      each part overwriting one count. */
  method TallyParts(parts: seq<string>) returns (r: Outcome<Counts>)
    ensures r == Tally(Each(parts, Strip))
  {
    var passed, failed, skipped, errors := 0, 0, 0, 0;
    ghost var stripped := Each(parts, Strip);
    var i := 0;
    while i < |parts|
      invariant 0 <= i <= |parts|
      invariant Tally(stripped[..i]) == Ok(Counts(passed, failed, skipped, errors))
    {
      TallyStep(stripped, i);
      var part := Strip(parts[i]);
      var next := ReadPart(Counts(passed, failed, skipped, errors), part);
      if next.Raised? {
        TallyRaisedStays(stripped, i + 1);
        return next;
      }
      passed, failed, skipped, errors := next.value.passed, next.value.failed, next.value.skipped, next.value.errors;
      i := i + 1;
    }
    assert stripped[..i] == stripped;
    r := Ok(Counts(passed, failed, skipped, errors));
  }

  /** `parse_pytest_summary`: zero counts unless the output holds a session
      banner. */
  method ParseSummary(output: string) returns (r: Outcome<Counts>)
    ensures r == Summary(output)
  {
    match Group(output) {
      case None =>
        r := Ok(Zero);
      case Some(g) =>
        r := TallyParts(SplitOn(g, ","));
    }
  }

  /** A banner `== g in ts ==` on a line of its own gives the group `g`. */
  lemma SessionGroup(g: string, t: string)
    requires g != [] && '\n' !in g
    requires t != [] && forall k :: 0 <= k < |t| ==> IsDigit(t[k]) || t[k] == '.'
    ensures Group("== " + g + " in " + t + "s ==") == Some(g)
  {
    var s := "== " + g + " in " + t + "s ==";
    var m := 3 + |g|;
    BannerDuration(g, t);
    forall k | 2 < k < m ensures s[k] != '\n' {
      assert s[k] == g[k - 3];
    }
    SessionFound(s, 0, 2, m);
    OnlyDuration(g, t);
    assert Search(s, 0, SessionAt).value == (0, (2, m));
    assert s[3..m] == g;
  }

  /** The duration of such a banner starts right after the group. */
  lemma BannerDuration(g: string, t: string)
    requires t != [] && forall k :: 0 <= k < |t| ==> IsDigit(t[k]) || t[k] == '.'
    ensures DurationAt("== " + g + " in " + t + "s ==", 3 + |g|)
  {
    var s := "== " + g + " in " + t + "s ==";
    var m := 3 + |g|;
    var d := m + 4 + |t|;
    assert s == ("== " + g) + " in " + t + "s ==";
    assert s[m] == ' ' && s[m + 1] == 'i' && s[m + 2] == 'n' && s[m + 3] == ' ';
    assert s[d] == 's' && s[d + 1] == ' ' && s[d + 2] == '=' && s[d + 3] == '=';
    forall k | m + 4 <= k < d ensures IsDigit(s[k]) || s[k] == '.' {
      assert s[k] == t[k - m - 4];
    }
    DigitDotEndAt(s, m + 4, d);
  }

  /** No duration starts after the group of such a banner. */
  lemma OnlyDuration(g: string, t: string)
    requires t != [] && forall i :: 0 <= i < |t| ==> IsDigit(t[i]) || t[i] == '.'
    ensures forall k: nat :: 3 + |g| < k ==> !DurationAt("== " + g + " in " + t + "s ==", k)
  {
    var s := "== " + g + " in " + t + "s ==";
    var m := 3 + |g|;
    var d := m + 4 + |t|;
    forall k: nat | m < k
      ensures !DurationAt(s, k)
    {
      if m + 4 <= k < d {
        assert s[k] == t[k - m - 4];
      }
    }
  }

  /** The group of a banner of the docstring's shape. */
  function Three(d1: string, d2: string, d3: string): string
  {
    d1 + " passed" + "," + " " + d2 + " failed" + "," + " " + d3 + " skipped"
  }

  /** A banner of the docstring's shape gives the three counts it names. */
  lemma ThreeCounts(d1: string, d2: string, d3: string, t: string)
    requires d1 != [] && AllDigits(d1) && d2 != [] && AllDigits(d2) && d3 != [] && AllDigits(d3)
    requires t != [] && forall k :: 0 <= k < |t| ==> IsDigit(t[k]) || t[k] == '.'
    ensures Summary("== " + Three(d1, d2, d3) + " in " + t + "s ==")
            == Ok(Counts(NatOf(d1), NatOf(d2), NatOf(d3), 0))
  {
    NoBreak(d1, d2, d3);
    SessionGroup(Three(d1, d2, d3), t);
    var parts := SplitThree(d1, d2, d3);
    var ps := StripThree(parts, d1, d2, d3);
    TallyThree(ps, d1, d2, d3);
  }

  /** The docstring-shaped group holds no line break. */
  lemma NoBreak(d1: string, d2: string, d3: string)
    requires AllDigits(d1) && AllDigits(d2) && AllDigits(d3)
    ensures Three(d1, d2, d3) != [] && '\n' !in Three(d1, d2, d3)
  {
    DigitsLack(d1, " passed", '\n');
    DigitsLack(d2, " failed", '\n');
    DigitsLack(d3, " skipped", '\n');
    assert Three(d1, d2, d3) == (d1 + " passed") + "," + (" " + d2 + " failed") + "," + (" " + d3 + " skipped");
  }

  /** Digits followed by a word lack any character the word lacks. */
  lemma DigitsLack(d: string, w: string, c: char)
    requires AllDigits(d) && !IsDigit(c) && c != ' ' && c !in w
    ensures c !in d + w && c !in " " + d + w
  {
    assert forall k :: 0 <= k < |d| ==> d[k] != c;
  }

  /** The three parts cut at the two commas. */
  lemma SplitThree(d1: string, d2: string, d3: string) returns (parts: seq<string>)
    requires AllDigits(d1) && AllDigits(d2) && AllDigits(d3)
    ensures parts == [d1 + " passed", " " + d2 + " failed", " " + d3 + " skipped"]
    ensures SplitOn(Three(d1, d2, d3), ",") == parts
  {
    var a, b, c := d1 + " passed", " " + d2 + " failed", " " + d3 + " skipped";
    DigitsLack(d1, " passed", ',');
    DigitsLack(d2, " failed", ',');
    DigitsLack(d3, " skipped", ',');
    assert Three(d1, d2, d3) == a + "," + (b + "," + c);
    SplitComma(a, b + "," + c);
    SplitComma(b, c);
    SplitLast(c);
    parts := [a, b, c];
  }

  /** A comma-free piece before a comma is the first part. */
  lemma SplitComma(x: string, y: string)
    requires ',' !in x
    ensures SplitOn(x + "," + y, ",") == [x] + SplitOn(y, ",")
  {
    assert ","[..0] == [];
    assert x + [] == x;
    NotContainsChar(x, ',');
    SplitOnFirst(x, y, ",");
  }

  /** A comma-free piece is the last part. */
  lemma SplitLast(x: string)
    requires ',' !in x
    ensures SplitOn(x, ",") == [x]
  {
    NotContainsChar(x, ',');
    SplitOnNone(x, ",");
  }

  /** The three parts, stripped. */
  lemma StripThree(parts: seq<string>, d1: string, d2: string, d3: string) returns (ps: seq<string>)
    requires d1 != [] && AllDigits(d1) && d2 != [] && AllDigits(d2) && d3 != [] && AllDigits(d3)
    requires parts == [d1 + " passed", " " + d2 + " failed", " " + d3 + " skipped"]
    ensures ps == [d1 + " passed", d2 + " failed", d3 + " skipped"] && Each(parts, Strip) == ps
  {
    EachThree(parts[0], parts[1], parts[2], Strip);
    StripWord(parts[0], d1, " passed");
    StripSpacedWord(parts[1], d2, " failed");
    StripSpacedWord(parts[2], d3, " skipped");
    ps := [d1 + " passed", d2 + " failed", d3 + " skipped"];
  }

  lemma EachThree(x: string, y: string, z: string, f: string -> string)
    ensures Each([x, y, z], f) == [f(x), f(y), f(z)]
  {
  }

  /** Digits and a word strip to themselves. */
  lemma StripWord(part: string, d: string, w: string)
    requires d != [] && AllDigits(d) && w != [] && !IsSpace(w[|w| - 1])
    requires part == d + w
    ensures Strip(part) == d + w
  {
    assert part[0] == d[0] && part[|part| - 1] == w[|w| - 1];
    StripTrimmed(part);
  }

  /** One space, digits and a word strip to the digits and the word. */
  lemma StripSpacedWord(part: string, d: string, w: string)
    requires d != [] && AllDigits(d) && w != [] && !IsSpace(w[|w| - 1])
    requires part == " " + d + w
    ensures Strip(part) == d + w
  {
    var p := d + w;
    assert p[0] == d[0] && p[|p| - 1] == w[|w| - 1];
    assert part == " " + p;
    StripLeadingSpace(part, p);
  }

  /** The three stripped parts, counted. */
  lemma TallyThree(ps: seq<string>, d1: string, d2: string, d3: string)
    requires d1 != [] && AllDigits(d1) && d2 != [] && AllDigits(d2) && d3 != [] && AllDigits(d3)
    requires ps == [d1 + " passed", d2 + " failed", d3 + " skipped"]
    ensures Tally(ps) == Ok(Counts(NatOf(d1), NatOf(d2), NatOf(d3), 0))
  {
    PassedKind(d1);
    var c1 := CountPart(Zero, ps[0], d1, " passed", PassedPart);
    FailedKind(d2);
    var c2 := CountPart(c1, ps[1], d2, " failed", FailedPart);
    SkippedKind(d3);
    var c3 := CountPart(c2, ps[2], d3, " skipped", SkippedPart);
    TallyOfThree(ps, c1, c2, c3);
  }

  /** Three parts, each read in turn from zero counts. */
  lemma TallyOfThree(ps: seq<string>, c1: Counts, c2: Counts, c3: Counts)
    requires |ps| == 3
    requires Apply(Zero, ps[0]) == Ok(c1) && Apply(c1, ps[1]) == Ok(c2) && Apply(c2, ps[2]) == Ok(c3)
    ensures Tally(ps) == Ok(c3)
  {
    TallyStep(ps, 0);
    assert ps[..0] == [];
    TallyStep(ps, 1);
    TallyStep(ps, 2);
    assert ps[..3] == ps;
  }

  lemma PassedKind(d: string)
    ensures CategoryOf(d + " passed") == PassedPart
  {
    ContainsSuffix(d + " ", "passed", "passed");
    assert d + " " + "passed" == d + " passed";
  }

  lemma FailedKind(d: string)
    requires AllDigits(d)
    ensures CategoryOf(d + " failed") == FailedPart
  {
    DigitsLack(d, " failed", 'p');
    NotContainsVia(d + " failed", "passed", 'p');
    ContainsSuffix(d + " ", "failed", "failed");
    assert d + " " + "failed" == d + " failed";
  }

  lemma SkippedKind(d: string)
    requires AllDigits(d)
    ensures CategoryOf(d + " skipped") == SkippedPart
  {
    DigitsLack(d, " skipped", 'a');
    NotContainsVia(d + " skipped", "passed", 'a');
    DigitsLack(d, " skipped", 'f');
    NotContainsVia(d + " skipped", "failed", 'f');
    ContainsSuffix(d + " ", "skipped", "skipped");
    assert d + " " + "skipped" == d + " skipped";
  }

  /** A part of a digit and a keyword sets that keyword's count. */
  lemma CountPart(c: Counts, p: string, d: string, word: string, cat: Category) returns (c': Counts)
    requires d != [] && AllDigits(d) && word != [] && !IsDigit(word[0])
    requires p == d + word && CategoryOf(p) == cat && cat != OtherPart
    ensures Apply(c, p) == Ok(Set(c, cat, NatOf(d))) && c' == Set(c, cat, NatOf(d))
  {
    FirstNumberOf([], d, word);
    assert [] + d + word == p;
    c' := Set(c, cat, NatOf(d));
  }

  /** `Falsifying example:` and its line break. */
  const Head: string := "Falsifying example:\n"

  /** A blank line (`\n\n`) starts at `k`. */
  predicate BlankAt(s: string, k: nat) {
    k + 2 <= |s| && s[k] == '\n' && s[k + 1] == '\n'
  }

  /** The first position at or after `j` where `(?:\n\n|\Z)` matches: a
      blank line or the end of the output. */
  function BlockEnd(s: string, j: nat): (r: nat)
    requires j <= |s|
    ensures j <= r <= |s| && (r == |s| || BlankAt(s, r))
    ensures forall k :: j <= k < r ==> !BlankAt(s, k)
    decreases |s| - j
  {
    if j == |s| || BlankAt(s, j) then j else BlockEnd(s, j + 1)
  }

  /** The search for the end stops at the first blank line. */
  lemma {:induction false} BlockEndAt(s: string, j: nat, r: nat)
    requires j <= r <= |s| && (r == |s| || BlankAt(s, r))
    requires forall k :: j <= k < r ==> !BlankAt(s, k)
    ensures BlockEnd(s, j) == r
    decreases r - j
  {
    if j < r {
      BlockEndAt(s, j + 1, r);
    }
  }

  /** `Falsifying example:\n(.+?)(?:\n\n|\Z)` (with `.` matching line
      breaks) at `i`: the end `j` of the lazy group, which starts after the
      head and holds at least one character, and where the match ends. */
  function FalsifyAt(s: string, i: nat): (r: Option<(nat, nat)>)
    ensures r.Some? ==> i + |Head| < r.value.0 <= r.value.1 <= |s| && s[i..i + |Head|] == Head
    ensures r.Some? ==> r.value.0 == BlockEnd(s, i + |Head| + 1)
    ensures r.Some? ==> r.value.1 == if r.value.0 == |s| then |s| else r.value.0 + 2
    ensures r.None? ==> i + |Head| >= |s| || s[i..i + |Head|] != Head
  {
    if i + |Head| < |s| && s[i..i + |Head|] == Head then
      var j := BlockEnd(s, i + |Head| + 1);
      Some((j, if j == |s| then j else j + 2))
    else None
  }

  /** `finditer` from position `i`: the group of each match, in order,
      each search resuming where the previous match ended. */
  function Blocks(s: string, i: nat): seq<string>
    requires i <= |s|
    decreases |s| - i
  {
    match Search(s, i, FalsifyAt)
    case None => []
    case Some((p, (j, next))) => [s[p + |Head|..j]] + Blocks(s, next)
  }

  /** `parse_hypothesis_failures`: each group, stripped. */
  function Failures(s: string): seq<string>
  {
    Each(Blocks(s, 0), Strip)
  }

  /** Without `Falsifying example:` and a line break, there is no entry. */
  lemma NoHead(s: string)
    requires !Contains(s, Head)
    ensures Failures(s) == []
  {
    var r := Search(s, 0, FalsifyAt);
    if r.Some? {
      var p := r.value.0;
      assert s[p..][..|Head|] == s[p..p + |Head|];
      ContainsAt(s, Head, p);
    }
  }

  /** The first head at or after `i` starts an entry running to the first
      blank line after at least one character (or to the end); the search
      then resumes after that blank line. */
  lemma FirstBlock(s: string, i: nat, p: nat, j: nat)
    requires i <= p && p + |Head| < j <= |s| && s[p..p + |Head|] == Head
    requires forall k :: i <= k < p ==> MissAt(s, k, FalsifyAt)
    requires j == |s| || BlankAt(s, j)
    requires forall k :: p + |Head| + 1 <= k < j ==> !BlankAt(s, k)
    ensures Blocks(s, i) == [s[p + |Head|..j]] + Blocks(s, if j == |s| then j else j + 2)
  {
    var next := if j == |s| then j else j + 2;
    FalsifyFound(s, p, j);
    SearchFirst(s, i, p, FalsifyAt);
    BlocksAt(s, i, p, j, next);
  }

  /** A head followed by at least one character matches, with its group
      ending at the first blank line after that character. */
  lemma FalsifyFound(s: string, p: nat, j: nat)
    requires p + |Head| < j <= |s| && s[p..p + |Head|] == Head
    requires j == |s| || BlankAt(s, j)
    requires forall k :: p + |Head| + 1 <= k < j ==> !BlankAt(s, k)
    ensures FalsifyAt(s, p) == Some((j, if j == |s| then j else j + 2))
  {
    BlockEndAt(s, p + |Head| + 1, j);
  }

  /** Mapping over one more element. */
  lemma EachAppend(parts: seq<string>, x: string, f: string -> string)
    ensures Each(parts + [x], f) == Each(parts, f) + [f(x)]
  {
  }

  /** One match taken off the front of the blocks from `i`. */
  lemma BlocksAt(s: string, i: nat, p: nat, j: nat, next: nat)
    requires i <= |s| && Search(s, i, FalsifyAt) == Some((p, (j, next)))
    ensures p + |Head| <= j <= next <= |s|
    ensures Blocks(s, i) == [s[p + |Head|..j]] + Blocks(s, next)
  {
  }

  /** `parse_hypothesis_failures`: the loop over the matches. */
  method ParseFailures(output: string) returns (failures: seq<string>)
    ensures failures == Failures(output)
  {
    failures := [];
    ghost var seen: seq<string> := [];
    var pos := 0;
    while true
      invariant pos <= |output|
      invariant Blocks(output, 0) == seen + Blocks(output, pos)
      invariant failures == Each(seen, Strip)
      decreases |output| - pos
    {
      var found := Search(output, pos, FalsifyAt);
      if found.None? {
        assert seen + [] == seen;
        return;
      }
      var (p, (j, next)) := found.value;
      BlocksAt(output, pos, p, j, next);
      var block := output[p + |Head|..j];
      assert seen + ([block] + Blocks(output, next)) == (seen + [block]) + Blocks(output, next);
      EachAppend(seen, block, Strip);
      failures := failures + [Strip(block)];
      seen := seen + [block];
      pos := next;
    }
  }
}

=== FILE: hypothesis_doc.dfy ===
/** The worked example in the docstring of `parse_pytest_summary`
    (CodeReview/TestingAndTestCoverage/hypothesis_runner.py), obtained from
    `Hypothesis.ThreeCounts` once the literal banner is cut into the pieces
    that lemma reads. */
module HypothesisDoc {
  import opened Runtime
  import opened Text
  import opened Hypothesis

  /** `== 3 passed, 1 failed, 2 skipped in 0.12s ==` counts 3 passed,
      1 failed, 2 skipped and no error. */
  lemma DocExample(s: string)
    requires s == "== 3 passed, 1 failed, 2 skipped in 0.12s =="
    ensures Summary(s) == Ok(Counts(3, 1, 2, 0))
  {
    DocShape(s);
    ThreeCounts("3", "1", "2", "0.12");
    SmallNumbers();
  }

  lemma SmallNumbers()
    ensures NatOf("3") == 3 && NatOf("1") == 1 && NatOf("2") == 2
  {
    assert "3"[..0] == [] && "1"[..0] == [] && "2"[..0] == [];
  }

  /** The banner in the shape `ThreeCounts` reads. */
  lemma DocShape(s: string)
    requires s == "== 3 passed, 1 failed, 2 skipped in 0.12s =="
    ensures s == "== " + Three("3", "1", "2") + " in " + "0.12" + "s =="
  {
    var h, g := "== 3 passed, 1 failed, 2 skipped", "3 passed, 1 failed, 2 skipped";
    var u := " in 0.12s ==";
    assert u == " in " + "0.12" + "s ==";
    assert h == "== " + g;
    assert s == h + u;
    GroupShape(g);
  }

  /** The group of the banner in the shape `Three` builds. */
  lemma GroupShape(g: string)
    requires g == "3 passed, 1 failed, 2 skipped"
    ensures g == Three("3", "1", "2")
  {
    var a, b, c := "3 passed,", " 1 failed,", " 2 skipped";
    assert a == "3" + " passed" + ",";
    assert b == " " + "1" + " failed" + ",";
    assert c == " " + "2" + " skipped";
    assert g == a + b + c;
  }
}

=== FILE: isort.dfy ===
/** The isort adapter (CodeReview/FormattingAndStyle/isort_runner.py): the
    argv it builds and the record it makes of the finished process. */
module Isort {
  import opened Text
  import opened Formatting

  /** The argv of `run_isort`: `isort`, then `--check-only` when checking, then
      `--diff` when diffing, then the path. */
  function Argv(filePath: string, check: bool := true, diff: bool := false): seq<string>
  {
    FlagArgv("isort", "--check-only", filePath, check, diff)
  }

  /** With the default arguments the argv is `isort --check-only <path>`. */
  lemma ArgvDefaults(filePath: string)
    ensures Argv(filePath) == ["isort", "--check-only", filePath]
  {
  }

  /** The record of `run_isort` for the finished process: reformatting is
      needed exactly when the exit code is 1. */
  function Result(filePath: string, p: Process): FormatResult
  {
    Echo(filePath, p.returncode == 1, p)
  }

  /** The verdict reads the exit code alone: the output never matters, and
      no exit code other than 1 (2 for an error, say) counts. */
  lemma Verdict(filePath: string, p: Process, q: Process)
    requires p.returncode == q.returncode
    ensures Result(filePath, p).reformatNeeded == Result(filePath, q).reformatNeeded
    ensures Result(filePath, p).reformatNeeded <==> p.returncode == 1
  {
  }

  /** `run_isort`, with the process run given as `run`. */
  method RunIsort(filePath: string, run: seq<string> -> Process, check: bool := true, diff: bool := false)
    returns (r: FormatResult)
    ensures r == Result(filePath, run(Argv(filePath, check, diff)))
  {
    var cmd := BuildFlagCommand("isort", "--check-only", filePath, check, diff);
    var result := run(cmd);
    var output := Strip(result.stdout);
    var error := Strip(result.stderr);
    var reformatNeeded := result.returncode == 1;
    r := FormatResult(filePath, reformatNeeded, output, error, result.returncode);
  }
}

=== FILE: json.dfy ===
/** Decoded JSON as the normalisers see it (the values `json.loads` returns),
    and the Python operations they apply to those values. */
module JsonValue {
  import opened Runtime

  /** A JSON value; an object keeps its members in document order. */
  datatype Json =
    | JNull
    | JBool(b: bool)
    | JNumber(text: string)
    | JString(str: string)
    | JArray(items: seq<Json>)
    | JObject(members: seq<(string, Json)>)

  /** The result of `json.loads(text)`: a value, or the text of the
      `JSONDecodeError` it raised. Decoding itself is not modelled. */
  datatype Decoded = Decoded(value: Json) | Undecodable(reason: string)

  /** Whether `json.loads` decodes a number to a `float`: it has a fraction
      or an exponent, or it is one of the constants `NaN`, `Infinity` and
      `-Infinity` the decoder also accepts. Any other number is an `int`. */
  predicate IsFloatNumber(t: string) {
    t == "NaN" || t == "Infinity" || t == "-Infinity" || '.' in t || 'e' in t || 'E' in t
  }

  /** Python's name for the type a decoded value has. */
  function TypeName(j: Json): string
  {
    match j
    case JNull => "NoneType"
    case JBool(_) => "bool"
    case JNumber(t) => if IsFloatNumber(t) then "float" else "int"
    case JString(_) => "str"
    case JArray(_) => "list"
    case JObject(_) => "dict"
  }

  /** The constants `NaN`, `Infinity` and `-Infinity` decode to floats, as
      do numbers with a fraction or an exponent; an integer literal decodes
      to an `int`. */
  lemma NumberTypes()
    ensures TypeName(JNumber("NaN")) == "float" && TypeName(JNumber("Infinity")) == "float"
    ensures TypeName(JNumber("-Infinity")) == "float"
    ensures TypeName(JNumber("1.5")) == "float" && TypeName(JNumber("1e3")) == "float"
    ensures TypeName(JNumber("-42")) == "int"
  {
    assert '.' !in "-42" && 'e' !in "-42" && 'E' !in "-42";
  }

  /** The value stored under `key`, if any: the first member with that key. */
  function Get(members: seq<(string, Json)>, key: string): (r: Option<Json>)
    ensures r.None? <==> forall i :: 0 <= i < |members| ==> members[i].0 != key
    ensures r.Some? ==> exists i :: 0 <= i < |members| && members[i] == (key, r.value)
  {
    if members == [] then None
    else if members[0].0 == key then Some(members[0].1)
    else
      var r := Get(members[1..], key);
      assert forall i :: 0 < i < |members| ==> members[1..][i - 1] == members[i];
      r
  }

  /** `d.get(key)` on a dict: the stored value, `None` when absent. */
  function Field(members: seq<(string, Json)>, key: string): Json
  {
    match Get(members, key)
    case Some(v) => v
    case None => JNull
  }

  /** `value.get(key, default)`: a dict answers with the stored value or the
      default; any other value has no `get` and raises. */
  function GetOr(value: Json, key: string, default: Json): (r: Outcome<Json>)
    ensures r.Ok? <==> value.JObject?
    ensures value.JObject? && Get(value.members, key).None? ==> r == Ok(default)
    ensures value.JObject? && Get(value.members, key).Some? ==> r == Ok(Get(value.members, key).value)
  {
    if !value.JObject? then Raised(AttributeError(TypeName(value), "get"))
    else match Get(value.members, key)
      case Some(v) => Ok(v)
      case None => Ok(default)
  }

  /** `for x in value`: a list yields its items, a string its characters, a
      dict its keys; other values are not iterable. */
  function Elements(value: Json): (r: Outcome<seq<Json>>)
    ensures r.Ok? <==> (value.JArray? || value.JString? || value.JObject?)
    ensures value.JArray? ==> r == Ok(value.items)
    ensures r.Ok? && !value.JArray? ==> forall k :: 0 <= k < |r.value| ==> r.value[k].JString?
  {
    match value
    case JArray(items) => Ok(items)
    case JString(s) => Ok(seq(|s|, k requires 0 <= k < |s| => JString([s[k]])))
    case JObject(ms) => Ok(seq(|ms|, k requires 0 <= k < |ms| => JString(ms[k].0)))
    case _ => Raised(TypeError("'" + TypeName(value) + "' object is not iterable"))
  }
}

=== FILE: lines.dfy ===
/** What every line-by-line normaliser shares: keep the records of the lines
    a matcher accepts, in line order, and drop every other line. */
module Lines {
  import opened Runtime

  /** The records of the accepted lines, in line order. */
  function Collect<T>(lines: seq<string>, matcher: string -> Option<T>): seq<T>
  {
    if lines == [] then []
    else
      var last := matcher(lines[|lines| - 1]);
      Collect(lines[..|lines| - 1], matcher) + (if last.Some? then [last.value] else [])
  }

  /** The indices of the accepted lines, increasing. */
  function Accepted<T>(lines: seq<string>, matcher: string -> Option<T>): (r: seq<nat>)
    ensures forall j :: 0 <= j < |r| ==> r[j] < |lines| && matcher(lines[r[j]]).Some?
    ensures forall k :: 0 <= k < |lines| && matcher(lines[k]).Some? ==> k in r
    ensures forall j, j' :: 0 <= j < j' < |r| ==> r[j] < r[j']
  {
    if lines == [] then []
    else
      var n := |lines| - 1;
      var before := Accepted(lines[..n], matcher);
      assert forall j :: 0 <= j < |before| ==> lines[..n][before[j]] == lines[before[j]];
      assert forall k :: 0 <= k < n ==> lines[..n][k] == lines[k];
      before + (if matcher(lines[n]).Some? then [n] else [])
  }

  /** Line accounting: one record per accepted line, the j-th record coming
      from the j-th accepted line. */
  lemma {:induction false} CollectAccepted<T>(lines: seq<string>, matcher: string -> Option<T>)
    ensures |Collect(lines, matcher)| == |Accepted(lines, matcher)|
    ensures forall j :: 0 <= j < |Collect(lines, matcher)| ==>
      Collect(lines, matcher)[j] == matcher(lines[Accepted(lines, matcher)[j]]).value
  {
    if lines != [] {
      var n := |lines| - 1;
      CollectAccepted(lines[..n], matcher);
      var before := Accepted(lines[..n], matcher);
      assert forall j :: 0 <= j < |before| ==> lines[..n][before[j]] == lines[before[j]];
    }
  }

  /** Collecting one more line appends that line's record, if any. */
  lemma CollectStep<T>(lines: seq<string>, i: nat, matcher: string -> Option<T>)
    requires i < |lines|
    ensures Collect(lines[..i + 1], matcher)
         == Collect(lines[..i], matcher) + (if matcher(lines[i]).Some? then [matcher(lines[i]).value] else [])
  {
    assert lines[..i + 1][..i] == lines[..i];
  }

  /** The loop every line parser runs: match each line in turn and keep the
      records of the lines that match, in line order. */
  method CollectLines<T>(lines: seq<string>, matcher: string -> Option<T>) returns (records: seq<T>)
    ensures records == Collect(lines, matcher)
  {
    records := [];
    var i := 0;
    while i < |lines|
      invariant 0 <= i <= |lines|
      invariant records == Collect(lines[..i], matcher)
    {
      CollectStep(lines, i, matcher);
      var m := matcher(lines[i]);
      if m.Some? {
        records := records + [m.value];
      }
      i := i + 1;
    }
    assert lines[..|lines|] == lines;
  }

  /** A single line yields its record, or nothing. */
  lemma CollectOne<T>(line: string, matcher: string -> Option<T>)
    ensures Collect([line], matcher) == if matcher(line).Some? then [matcher(line).value] else []
  {
    assert [line][..0] == [];
  }

  /** A dropped line never disturbs the lines after it: collecting is
      compositional over concatenation. */
  lemma {:induction false} CollectAppend<T>(a: seq<string>, b: seq<string>, matcher: string -> Option<T>)
    ensures Collect(a + b, matcher) == Collect(a, matcher) + Collect(b, matcher)
    decreases |b|
  {
    if b == [] {
      assert a + b == a;
    } else {
      var n := |b| - 1;
      assert (a + b)[..|a + b| - 1] == a + b[..n];
      CollectAppend(a, b[..n], matcher);
    }
  }

  /** A line the matcher rejects contributes nothing. */
  lemma CollectDrops<T>(a: seq<string>, line: string, b: seq<string>, matcher: string -> Option<T>)
    requires matcher(line).None?
    ensures Collect(a + [line] + b, matcher) == Collect(a, matcher) + Collect(b, matcher)
  {
    CollectAppend(a + [line], b, matcher);
    assert (a + [line])[..|a|] == a;
  }

  /** The tail matcher rejects what follows position `k`, if `k` holds a colon. */
  predicate NoMatchAt<T>(line: string, k: nat, tail: string -> Option<T>)
    requires k < |line|
  {
    line[k] == ':' ==> tail(line[k + 1..]).None?
  }

  /** The first-colon search behind a lazy `^(.*?):TAIL` pattern: the least
      colon index at or after `i` whose remainder the tail matcher accepts. */
  function LazyColon<T>(line: string, i: nat, tail: string -> Option<T>): (r: Option<(nat, T)>)
    requires i <= |line|
    ensures r.Some? ==> i <= r.value.0 < |line| && line[r.value.0] == ':'
                        && tail(line[r.value.0 + 1..]) == Some(r.value.1)
    ensures r.Some? ==> forall k :: i <= k < r.value.0 ==> NoMatchAt(line, k, tail)
    ensures r.None? ==> forall k :: i <= k < |line| ==> NoMatchAt(line, k, tail)
    decreases |line| - i
  {
    if i == |line| then None
    else if line[i] == ':' && tail(line[i + 1..]).Some? then Some((i, tail(line[i + 1..]).value))
    else LazyColon(line, i + 1, tail)
  }

  /** The search finds nothing when every colon is followed by a rejected tail. */
  lemma {:induction false} LazyColonNone<T>(line: string, i: nat, tail: string -> Option<T>)
    requires i <= |line|
    requires forall k :: i <= k < |line| ==> NoMatchAt(line, k, tail)
    ensures LazyColon(line, i, tail) == None
    decreases |line| - i
  {
    if i < |line| {
      assert NoMatchAt(line, i, tail);
      LazyColonNone(line, i + 1, tail);
    }
  }

  /** The search settles on colon `c` when the tail matches after it and
      every earlier colon is followed by a rejected tail. */
  lemma {:induction false} LazyColonFirst<T>(line: string, i: nat, c: nat, tail: string -> Option<T>)
    requires i <= c < |line| && line[c] == ':' && tail(line[c + 1..]).Some?
    requires forall k :: i <= k < c ==> NoMatchAt(line, k, tail)
    ensures LazyColon(line, i, tail) == Some((c, tail(line[c + 1..]).value))
    decreases c - i
  {
    if i < c {
      assert NoMatchAt(line, i, tail);
      LazyColonFirst(line, i + 1, c, tail);
    }
  }

  /** The position matcher fails at `k`. */
  predicate MissAt<T>(s: string, k: nat, at: (string, nat) -> Option<T>) {
    at(s, k).None?
  }

  /** `re.search`: the leftmost position at or after `i` where the position
      matcher `at` succeeds, with what it found there. */
  function Search<T>(s: string, i: nat, at: (string, nat) -> Option<T>): (r: Option<(nat, T)>)
    requires i <= |s|
    ensures r.Some? ==> i <= r.value.0 <= |s| && at(s, r.value.0) == Some(r.value.1)
    ensures r.Some? ==> forall k :: i <= k < r.value.0 ==> MissAt(s, k, at)
    ensures r.None? ==> forall k :: i <= k <= |s| ==> MissAt(s, k, at)
    decreases |s| - i
  {
    if at(s, i).Some? then Some((i, at(s, i).value))
    else if i == |s| then None
    else Search(s, i + 1, at)
  }

  /** The search settles on the first position where the matcher succeeds. */
  lemma {:induction false} SearchFirst<T>(s: string, i: nat, c: nat, at: (string, nat) -> Option<T>)
    requires i <= c <= |s| && at(s, c).Some?
    requires forall k :: i <= k < c ==> MissAt(s, k, at)
    ensures Search(s, i, at) == Some((c, at(s, c).value))
    decreases c - i
  {
    if i < c {
      assert MissAt(s, i, at);
      SearchFirst(s, i + 1, c, at);
    }
  }

  /** The search fails when the matcher fails everywhere. */
  lemma {:induction false} SearchNone<T>(s: string, i: nat, at: (string, nat) -> Option<T>)
    requires i <= |s|
    requires forall k :: i <= k <= |s| ==> MissAt(s, k, at)
    ensures Search(s, i, at) == None
    decreases |s| - i
  {
    assert MissAt(s, i, at);
    if i < |s| {
      SearchNone(s, i + 1, at);
    }
  }
}

=== FILE: mypy.dfy ===
/** mypy report lines `path:line: error: message  [code]`
    (CodeReview/CodeQuality/mypy_runner.py). */
module Mypy {
  import opened Runtime
  import opened Text
  import opened Lines

  /** The two message kinds the pattern accepts. */
  datatype Kind = Error | Note

  /** One normalised mypy finding; `code` is absent when the line carries no
      bracketed code or an empty one. */
  datatype Issue = Issue(file: string, line: nat, kind: Kind, message: string, code: Option<string>)

  /** The optional trailing `\s\s\[(.*?)\]`: two whitespace characters and
      the bracketed code. */
  datatype CodeTail = CodeTail(gap1: char, gap2: char, code: string)

  /** The pieces of a report line, as the pattern
      `^(.*?):(\d+): (error|note): (.*?)(?:\s\s\[(.*?)\])?$` cuts it. */
  datatype RawLine = RawLine(path: string, row: string, kind: Kind, message: string, code: Option<CodeTail>)

  function KindText(k: Kind): string {
    match k
    case Error => "error"
    case Note => "note"
  }

  /** What the pattern demands of the pieces after the path. */
  predicate Shaped(r: RawLine) {
    r.row != [] && AllDigits(r.row)
    && (r.code.Some? ==> IsSpace(r.code.value.gap1) && IsSpace(r.code.value.gap2))
  }

  function CodeText(c: Option<CodeTail>): string {
    match c
    case None => []
    case Some(t) => [t.gap1, t.gap2] + "[" + t.code + "]"
  }

  /** The message and the optional code. */
  function Body(r: RawLine): string {
    r.message + CodeText(r.code)
  }

  /** The text after the line number's colon. */
  function Rest(r: RawLine): string {
    " " + KindText(r.kind) + ": " + Body(r)
  }

  /** Everything after the colon that ends the path. */
  function RenderTail(r: RawLine): string {
    r.row + ":" + Rest(r)
  }

  /** The report line the pieces spell. */
  function Render(r: RawLine): string {
    r.path + ":" + RenderTail(r)
  }

  /** The record built from the pieces: stripped path and message, integer
      line, and the stripped code only when the bracket held something. */
  function Normalise(r: RawLine): Issue
    requires Shaped(r)
  {
    var code := match r.code
      case None => None
      case Some(t) => if t.code != [] then Some(Strip(t.code)) else None;
    Issue(Strip(r.path), NatOf(r.row), r.kind, Strip(r.message), code)
  }

  /** `\s\s\[(.*?)\]$` anchored at position `m`. */
  function CodeAt(s: string, m: nat): (r: Option<string>)
    ensures r.Some? ==> m + 4 <= |s| && s[m..] == [s[m], s[m + 1]] + "[" + r.value + "]"
                        && IsSpace(s[m]) && IsSpace(s[m + 1])
  {
    if m + 4 <= |s| && IsSpace(s[m]) && IsSpace(s[m + 1]) && s[m + 2] == '[' && s[|s| - 1] == ']' then
      assert s[m..] == [s[m], s[m + 1]] + "[" + s[m + 3..|s| - 1] + "]";
      Some(s[m + 3..|s| - 1])
    else None
  }

  /** `(.*?)(?:\s\s\[(.*?)\])?$` on the text after the kind: the lazy message
      stops at the first position where the bracketed code closes the line;
      without one, the whole text is the message. */
  function SplitCode(s: string): (r: (string, Option<CodeTail>))
    ensures r.0 + CodeText(r.1) == s
    ensures r.1.Some? ==> IsSpace(r.1.value.gap1) && IsSpace(r.1.value.gap2)
  {
    match Search(s, 0, CodeAt)
    case None => (s, None)
    case Some((m, code)) =>
      assert s == s[..m] + s[m..];
      (s[..m], Some(CodeTail(s[m], s[m + 1], code)))
  }

  /** Two whitespace characters and `[` at position `m` of a message: where
      the lazy message could stop for a bracketed code. */
  predicate CodeOpensAt(message: string, m: nat)
    requires m + 2 < |message|
  {
    IsSpace(message[m]) && IsSpace(message[m + 1]) && message[m + 2] == '['
  }

  /** No position of the message opens a code. */
  predicate NoCodeOpen(message: string) {
    forall m :: 0 <= m && m + 2 < |message| ==> !CodeOpensAt(message, m)
  }

  /** A message that opens no code, followed by the code it carries, splits
      back into the two. */
  lemma SplitCodeOf(message: string, code: Option<CodeTail>)
    requires NoCodeOpen(message)
    requires code.Some? ==> IsSpace(code.value.gap1) && IsSpace(code.value.gap2)
    ensures SplitCode(message + CodeText(code)) == (message, code)
  {
    var s := message + CodeText(code);
    var n := |message|;
    forall m | 0 <= m < n ensures MissAt(s, m, CodeAt) {
      if m + 2 < n {
        assert !CodeOpensAt(message, m);
        assert s[m] == message[m] && s[m + 1] == message[m + 1] && s[m + 2] == message[m + 2];
      } else if code.Some? {
        assert s[m + 2] == [code.value.gap1, code.value.gap2][m + 2 - n];
      }
    }
    if code.Some? {
      var c := code.value;
      assert s == message + ([c.gap1, c.gap2] + "[" + c.code + "]");
      assert s[n] == c.gap1 && s[n + 1] == c.gap2 && s[n + 2] == '[' && s[|s| - 1] == ']';
      assert s[n + 3..|s| - 1] == c.code;
      assert CodeAt(s, n) == Some(c.code);
      SearchFirst(s, 0, n, CodeAt);
      assert s[..n] == message;
    } else {
      assert s == message;
      SearchNone(s, 0, CodeAt);
    }
  }

  /** The other direction: when a code follows a message that opens one, the
      lazy message stops early and the split differs. */
  lemma EarlyCodeOpen(message: string, code: CodeTail, m: nat)
    requires m + 2 < |message| && CodeOpensAt(message, m)
    ensures |SplitCode(message + CodeText(Some(code))).0| <= m
  {
    var s := message + CodeText(Some(code));
    assert s == message + ([code.gap1, code.gap2] + "[" + code.code + "]");
    assert s[m] == message[m] && s[m + 1] == message[m + 1] && s[m + 2] == message[m + 2];
    assert s[|s| - 1] == ']';
    assert CodeAt(s, m).Some?;
    assert !MissAt(s, m, CodeAt);
  }

  /** ` (error|note): ` at the start of the text after the line number. */
  function KindOf(t: string): (r: Option<(Kind, string)>)
    ensures r.Some? ==> " " + KindText(r.value.0) + ": " + r.value.1 == t
  {
    if " error: " <= t then
      assert t == " error: " + t[8..];
      Some((Error, t[8..]))
    else if " note: " <= t then
      assert t == " note: " + t[7..];
      Some((Note, t[7..]))
    else None
  }

  /** `(\d+): (error|note): (.*?)(?:\s\s\[(.*?)\])?$` against the text after
      a colon. */
  function Tail(t: string): (r: Option<RawLine>)
    ensures r.Some? ==> Shaped(r.value) && r.value.path == [] && RenderTail(r.value) == t
  {
    match DigitsThen(t, ':')
    case None => None
    case Some((row, t1)) =>
      match KindOf(t1)
      case None => None
      case Some((kind, rest)) =>
        var (message, code) := SplitCode(rest);
        Some(RawLine([], row, kind, message, code))
  }

  /** The kind word is read back as written. */
  lemma KindOfRender(kind: Kind, body: string)
    ensures KindOf(" " + KindText(kind) + ": " + body) == Some((kind, body))
  {
    var t := " " + KindText(kind) + ": " + body;
    match kind
    case Error =>
      assert t == " error: " + body;
      assert t[..8] == " error: ";
      assert t[8..] == body;
    case Note =>
      assert t == " note: " + body;
      assert t[..7] == " note: ";
      assert t[7..] == body;
      assert t[2] != " error: "[2];
  }

  /** Every well-shaped tail whose message opens no code is recognised,
      pieces intact. */
  lemma TailOfRender(r: RawLine)
    requires Shaped(r) && NoCodeOpen(r.message)
    ensures Tail(RenderTail(r)) == Some(r.(path := []))
  {
    SplitCodeOf(r.message, r.code);
    KindOfRender(r.kind, Body(r));
    DigitsThenOf(r.row, ':', Rest(r));
  }

  /** One line matched against the whole pattern (`re.match`). */
  function MatchLine(line: string): Option<Issue>
  {
    match LazyColon(line, 0, Tail)
    case None => None
    case Some((i, raw)) => Some(Normalise(raw.(path := line[..i])))
  }

  /** The file and message of a record are stripped: `strip()` leaves them
      as they are. */
  lemma MatchedStripped(line: string)
    requires MatchLine(line).Some?
    ensures var m := MatchLine(line).value; Strip(m.file) == m.file && Strip(m.message) == m.message
  {
    var (i, raw) := LazyColon(line, 0, Tail).value;
    StripIdempotent(line[..i]);
    StripIdempotent(raw.message);
  }

  /** The pieces found after colon `i` spell the line once the text before
      the colon is taken as the path. */
  lemma RenderAt(line: string, i: nat, tailRaw: RawLine)
    requires i < |line| && line[i] == ':' && Tail(line[i + 1..]) == Some(tailRaw)
    ensures Shaped(tailRaw.(path := line[..i])) && Render(tailRaw.(path := line[..i])) == line
  {
    WithPath(tailRaw, line[..i]);
    SplitAround(line, i);
  }

  /** The path plays no part in the shape or the tail. */
  lemma WithPath(r: RawLine, p: string)
    ensures Shaped(r.(path := p)) == Shaped(r)
    ensures Render(r.(path := p)) == p + ":" + RenderTail(r)
  {
  }

  /** Soundness: a record comes from a line that is a well-shaped rendering
      of its pieces. */
  lemma MatchSound(line: string) returns (raw: RawLine)
    requires MatchLine(line).Some?
    ensures Shaped(raw) && Render(raw) == line && MatchLine(line) == Some(Normalise(raw))
  {
    var (i, tailRaw) := LazyColon(line, 0, Tail).value;
    raw := tailRaw.(path := line[..i]);
    assert MatchLine(line) == Some(Normalise(raw));
    RenderAt(line, i, tailRaw);
  }

  /** Completeness: a well-shaped line whose message opens no code yields
      exactly its record, unless a colon inside its path is followed there
      by digits and another colon (then the lazy path ends early); in
      particular the record has a code exactly when the line ends in a
      non-empty bracketed code. */
  lemma MatchComplete(raw: RawLine)
    requires Shaped(raw) && NoRowColon(raw.path) && NoCodeOpen(raw.message)
    ensures MatchLine(Render(raw)) == Some(Normalise(raw))
  {
    var line := Render(raw);
    var p := |raw.path|;
    PathColon(raw);
    TailOfRender(raw);
    forall k | 0 <= k < p ensures NoMatchAt(line, k, Tail) {
      PathColonMiss(raw, k);
    }
    LazyColonFirst(line, 0, p, Tail);
    CompleteAt(line, p, raw);
  }

  /** The colon after the path, and the text on either side of it. */
  lemma PathColon(raw: RawLine)
    ensures |raw.path| < |Render(raw)| && Render(raw)[|raw.path|] == ':'
    ensures Render(raw)[..|raw.path|] == raw.path && Render(raw)[|raw.path| + 1..] == RenderTail(raw)
  {
    var line := Render(raw);
    TailAfter(raw.path, ':', RenderTail(raw));
    CharAt(raw.path, ':', RenderTail(raw), |raw.path|);
    assert line[..|raw.path|] == raw.path;
  }

  /** A colon inside the path that is not followed by `digits:` there is
      passed over: what follows it is no tail. */
  lemma PathColonMiss(raw: RawLine, k: nat)
    requires Shaped(raw) && k < |raw.path| && !RowColonAt(raw.path, k)
    ensures NoMatchAt(Render(raw), k, Tail)
  {
    var line := Render(raw);
    assert line[k] == raw.path[k];
    if raw.path[k] == ':' {
      var p := raw.path[k + 1..];
      var t := RenderTail(raw);
      assert line[k + 1..] == p + ":" + t;
      DigitsThenPast(p, t);
      NoTailBefore(raw, p + ":" + t);
    }
  }

  /** A text whose `(\d+):` is missing, or is followed by a whole tail, is
      no tail itself: the kind would have to start with a space. */
  lemma NoTailBefore(raw: RawLine, t: string)
    requires Shaped(raw)
    requires DigitsThen(t, ':').None? || DigitsThen(t, ':').value.1 == RenderTail(raw)
    ensures Tail(t) == None
  {
    var u := RenderTail(raw);
    assert u[0] == raw.row[0];
    assert !(" error: " <= u) && !(" note: " <= u);
  }

  /** The record of a line whose first accepted colon ends the path. */
  lemma CompleteAt(line: string, p: nat, raw: RawLine)
    requires Shaped(raw) && p <= |line| && line[..p] == raw.path
    requires LazyColon(line, 0, Tail) == Some((p, raw.(path := [])))
    ensures MatchLine(line) == Some(Normalise(raw))
  {
  }

  /** The line `path:row: word: body`. */
  function WordLine(path: string, row: string, word: string, body: string): string {
    path + ":" + (row + ":" + (" " + word + ":" + (" " + body)))
  }

  /** What a line of another kind is made of: no colon outside the two after
      the path and the line number and the one after the kind word. */
  predicate OtherKind(path: string, row: string, word: string, body: string) {
    row != [] && AllDigits(row) && word != "error" && word != "note"
    && ':' !in path && ':' !in word && ':' !in body
  }

  /** Only `error` and `note` lines are reported: a line whose kind word is
      anything else (`warning`, say) yields no record when its path, word and
      message hold no colon. */
  lemma RejectsOtherKind(path: string, row: string, word: string, body: string)
    requires OtherKind(path, row, word, body)
    ensures MatchLine(WordLine(path, row, word, body)) == None
  {
    var line := WordLine(path, row, word, body);
    forall k | 0 <= k < |line| ensures NoMatchAt(line, k, Tail) {
      OtherKindColon(path, row, word, body, k);
    }
    LazyColonNone(line, 0, Tail);
  }

  lemma OtherKindColon(path: string, row: string, word: string, body: string, k: nat)
    requires OtherKind(path, row, word, body)
    requires k < |WordLine(path, row, word, body)|
    ensures NoMatchAt(WordLine(path, row, word, body), k, Tail)
  {
    if k == |path| {
      OtherKindAfterPath(path, row, word, body, k);
    } else if k == |path| + 1 + |row| {
      OtherKindAfterRow(path, row, word, body, k);
    } else if k == |path| + 3 + |row| + |word| {
      OtherKindAfterWord(path, row, word, body, k);
    } else {
      OtherKindNoColon(path, row, word, body, k);
    }
  }

  /** A kind word read where `w` stands is `w` itself, when neither holds a
      colon. */
  lemma WordPrefix(w: string, word: string, body: string)
    requires ':' !in w && ':' !in word
    requires " " + w + ": " <= " " + word + ":" + (" " + body)
    ensures w == word
  {
    var x := " " + word + ":" + (" " + body);
    var y := " " + w + ": ";
    if |w| < |word| {
      PrefixAt(y, x, 1 + |w|);
    } else if |w| > |word| {
      PrefixAt(y, x, 1 + |word|);
    } else {
      assert x[1..1 + |word|] == word && y[1..1 + |w|] == w;
    }
  }

  lemma OtherKindAfterPath(path: string, row: string, word: string, body: string, k: nat)
    requires OtherKind(path, row, word, body) && k == |path|
    ensures k < |WordLine(path, row, word, body)| && NoMatchAt(WordLine(path, row, word, body), k, Tail)
  {
    var line := WordLine(path, row, word, body);
    var x := " " + word + ":" + (" " + body);
    TailAfter(path, ':', row + ":" + x);
    assert line[k + 1..] == row + ":" + x;
    OtherKindTail(path, row, word, body);
  }

  /** The text after the path is not a tail: the kind word is neither
      `error` nor `note`. */
  lemma OtherKindTail(path: string, row: string, word: string, body: string)
    requires OtherKind(path, row, word, body)
    ensures Tail(row + ":" + (" " + word + ":" + (" " + body))) == None
  {
    var x := " " + word + ":" + (" " + body);
    DigitsThenOf(row, ':', x);
    if " error: " <= x {
      WordPrefix("error", word, body);
    }
    if " note: " <= x {
      WordPrefix("note", word, body);
    }
  }

  lemma OtherKindAfterRow(path: string, row: string, word: string, body: string, k: nat)
    requires OtherKind(path, row, word, body) && k == |path| + 1 + |row|
    ensures k < |WordLine(path, row, word, body)| && NoMatchAt(WordLine(path, row, word, body), k, Tail)
  {
    var line := WordLine(path, row, word, body);
    var x := " " + word + ":" + (" " + body);
    TailAfter(path, ':', row + ":" + x);
    TailAfter(row, ':', x);
    assert line[k + 1..] == (row + ":" + x)[|row| + 1..];
    NoDigitsThen(x, ':');
  }

  lemma OtherKindAfterWord(path: string, row: string, word: string, body: string, k: nat)
    requires OtherKind(path, row, word, body) && k == |path| + 3 + |row| + |word|
    ensures k < |WordLine(path, row, word, body)| && NoMatchAt(WordLine(path, row, word, body), k, Tail)
  {
    var line := WordLine(path, row, word, body);
    var x := " " + word + ":" + (" " + body);
    TailAfter(path, ':', row + ":" + x);
    TailAfter(row, ':', x);
    TailAfter(" " + word, ':', " " + body);
    assert line[k + 1..] == (row + ":" + x)[|row| + 1..][|word| + 2..];
    NoDigitsThen(" " + body, ':');
  }

  lemma OtherKindNoColon(path: string, row: string, word: string, body: string, k: nat)
    requires OtherKind(path, row, word, body)
    requires k < |WordLine(path, row, word, body)|
    requires k != |path| && k != |path| + 1 + |row| && k != |path| + 3 + |row| + |word|
    ensures WordLine(path, row, word, body)[k] != ':'
  {
    var x := " " + word + ":" + (" " + body);
    CharAt(path, ':', row + ":" + x, k);
    if k > |path| {
      var j := k - |path| - 1;
      CharAt(row, ':', x, j);
      if j > |row| {
        var i := j - |row| - 1;
        CharAt(" " + word, ':', " " + body, i);
        if 0 < i < 1 + |word| {
          assert (" " + word)[i] == word[i - 1];
        } else if i > |word| + 2 {
          assert (" " + body)[i - |word| - 2] == body[i - |word| - 3];
        }
      }
    }
  }

  /** `parse_mypy_output`: the output is stripped and split into lines; each
      line the pattern accepts appends its record. */
  method ParseOutput(output: string) returns (issues: seq<Issue>)
    ensures issues == Collect(SplitLines(Strip(output)), MatchLine)
    ensures forall k :: 0 <= k < |issues| ==> Strip(issues[k].file) == issues[k].file && Strip(issues[k].message) == issues[k].message
  {
    var lines := SplitLines(Strip(output));
    issues := CollectLines(lines, MatchLine);
    CollectAccepted(lines, MatchLine);
    forall k | 0 <= k < |issues| {
      MatchedStripped(lines[Accepted(lines, MatchLine)[k]]);
    }
  }
}

=== FILE: numbers.dfy ===
/** Python's `int()` and `float()` on text: which texts convert, and the
    integer `int()` reads. Digits are the ASCII digits; whitespace is the
    ASCII whitespace `Strip` removes. */
module Numbers {
  import opened Runtime
  import opened Text
  import opened Repr

  /** The text after an optional leading `+` or `-`. */
  function Unsigned(t: string): string
  {
    if t != [] && (t[0] == '+' || t[0] == '-') then t[1..] else t
  }

  /** Where a digit part that has reached position `i` ends: it takes further
      digits, and each `_` that stands between two digits. */
  function GroupEnd(s: string, i: nat): (e: nat)
    requires 0 < i <= |s|
    ensures i <= e <= |s|
    decreases |s| - i
  {
    if i < |s| && IsDigit(s[i]) then GroupEnd(s, i + 1)
    else if i + 1 < |s| && s[i] == '_' && IsDigit(s[i + 1]) then GroupEnd(s, i + 2)
    else i
  }

  /** Length of the longest `digitpart` of Python's number grammar (a digit,
      then digits with single `_` marks between them) at the start of `s`;
      0 when `s` does not start with a digit. */
  function PartRun(s: string): (n: nat)
    ensures n <= |s|
  {
    if s != [] && IsDigit(s[0]) then GroupEnd(s, 1) else 0
  }

  /** Between `i` and `j`, `s` holds only digits and marks. */
  predicate DigitsAndMarks(s: string, i: nat, j: nat)
    requires i <= j <= |s|
  {
    forall k :: i <= k < j ==> IsDigit(s[k]) || s[k] == '_'
  }

  /** Between `i` and `j`, every mark of `s` is followed by a digit. */
  predicate MarksBetween(s: string, i: nat, j: nat)
    requires i <= j <= |s|
  {
    forall k :: i <= k < j && s[k] == '_' ==> k + 1 < j && IsDigit(s[k + 1])
  }

  /** What a digit part takes from `i` on: digits, and marks each followed
      by a digit. */
  lemma {:induction false} GroupShape(s: string, i: nat)
    requires 0 < i <= |s|
    ensures DigitsAndMarks(s, i, GroupEnd(s, i)) && MarksBetween(s, i, GroupEnd(s, i))
    decreases |s| - i
  {
    if i < |s| && IsDigit(s[i]) {
      GroupShape(s, i + 1);
    } else if i + 1 < |s| && s[i] == '_' && IsDigit(s[i + 1]) {
      GroupShape(s, i + 2);
    }
  }

  /** Text of that shape up to its end is taken whole. */
  lemma {:induction false} GroupAll(s: string, i: nat)
    requires 0 < i <= |s| && IsDigit(s[i - 1])
    requires DigitsAndMarks(s, i, |s|) && MarksBetween(s, i, |s|)
    ensures GroupEnd(s, i) == |s|
    decreases |s| - i
  {
    if i < |s| {
      if IsDigit(s[i]) {
        GroupAll(s, i + 1);
      } else {
        assert s[i] == '_' && i + 1 < |s| && IsDigit(s[i + 1]);
        GroupAll(s, i + 2);
      }
    }
  }

  /** A whole `digitpart`. */
  predicate IsDigitPart(d: string) {
    d != [] && PartRun(d) == |d|
  }

  /** The grammar of a digit part, stated outright: a digit first, then only
      digits and marks, each mark followed by a digit. So `1_000` is one,
      and `_1`, `1_` and `1__0` are not. */
  lemma DigitPartShape(d: string)
    ensures IsDigitPart(d) <==> d != [] && IsDigit(d[0]) && DigitsAndMarks(d, 0, |d|) && MarksBetween(d, 0, |d|)
  {
    if d != [] && IsDigit(d[0]) {
      GroupShape(d, 1);
      if DigitsAndMarks(d, 0, |d|) && MarksBetween(d, 0, |d|) {
        GroupAll(d, 1);
      }
    }
  }

  /** A digit part holds only digits and marks, and ends with a digit. */
  lemma PartChars(d: string)
    requires IsDigitPart(d)
    ensures DigitsAndMarks(d, 0, |d|) && IsDigit(d[0]) && IsDigit(d[|d| - 1])
  {
    DigitPartShape(d);
    assert d[|d| - 1] != '_';
  }

  /** The digits of a text, without its `_` marks. */
  function Ungrouped(d: string): string
  {
    if d == [] then []
    else Ungrouped(d[..|d| - 1]) + (if d[|d| - 1] == '_' then [] else [d[|d| - 1]])
  }

  /** Without its marks, a text of digits and marks is all digits. */
  lemma {:induction false} UngroupedDigits(d: string)
    requires DigitsAndMarks(d, 0, |d|)
    ensures AllDigits(Ungrouped(d))
  {
    if d != [] {
      UngroupedDigits(d[..|d| - 1]);
    }
  }

  /** The integer a stripped text spells: an optional sign, then a digit
      part whose digits give the value. */
  function IntOf(t: string): (r: Option<int>)
    ensures r.Some? <==> IsDigitPart(Unsigned(t))
  {
    var d := Unsigned(t);
    if IsDigitPart(d) then
      PartChars(d);
      UngroupedDigits(d);
      var n: int := NatOf(Ungrouped(d));
      Some(if t[0] == '-' then -n else n)
    else None
  }

  /** `int(s)` in base 10: whitespace around, an optional sign, then a digit
      part; anything else raises `ValueError`. */
  function ParseInt(s: string): (r: Outcome<int>)
    ensures r.Ok? <==> IsDigitPart(Unsigned(Strip(s)))
  {
    match IntOf(Strip(s))
    case Some(n) => Ok(n)
    case None => Raised(ValueError("invalid literal for int() with base 10: " + ReprStr(s)))
  }

  /** A run of digits is a digit part, and has no marks to drop. */
  lemma DigitsArePart(d: string)
    requires d != [] && AllDigits(d)
    ensures IsDigitPart(d) && Ungrouped(d) == d
  {
    DigitPartShape(d);
    DigitsUngrouped(d);
  }

  lemma {:induction false} DigitsUngrouped(d: string)
    requires AllDigits(d)
    ensures Ungrouped(d) == d
  {
    if d != [] {
      DigitsUngrouped(d[..|d| - 1]);
      assert d[..|d| - 1] + [d[|d| - 1]] == d;
    }
  }

  /** Dropping marks distributes over concatenation. */
  lemma {:induction false} UngroupedAppend(a: string, b: string)
    ensures Ungrouped(a + b) == Ungrouped(a) + Ungrouped(b)
    decreases |b|
  {
    if b == [] {
      assert a + b == a;
    } else {
      var n := |b| - 1;
      assert (a + b)[..|a + b| - 1] == a + b[..n];
      UngroupedAppend(a, b[..n]);
    }
  }

  /** An unsigned digit part reads as its digits' value. */
  lemma PartValue(d: string)
    requires IsDigitPart(d) && AllDigits(Ungrouped(d))
    ensures ParseInt(d) == Ok(NatOf(Ungrouped(d)))
  {
    PartChars(d);
    StripTrimmed(d);
  }

  /** `int()` of digits is their decimal value. */
  lemma IntOfDigits(d: string)
    requires d != [] && AllDigits(d)
    ensures ParseInt(d) == Ok(NatOf(d))
  {
    DigitsArePart(d);
    PartValue(d);
  }

  /** A sign before the digits `t[1..]`, whose value is `n`: `+` keeps
      the value, `-` negates it. */
  lemma IntOfSigned(t: string, n: int)
    requires |t| > 1 && (t[0] == '+' || t[0] == '-') && AllDigits(t[1..])
    requires n == NatOf(t[1..])
    ensures ParseInt(t) == Ok(if t[0] == '-' then -n else n)
  {
    var d := t[1..];
    DigitsArePart(d);
    assert t[|t| - 1] == d[|d| - 1];
    StripTrimmed(t);
  }

  /** Whitespace around the text is ignored: the text converts exactly
      when the trimmed text does, to the same value. */
  lemma IntSpaced(w1: string, x: string, w2: string)
    requires AllSpace(w1) && AllSpace(w2)
    requires x == [] || (!IsSpace(x[0]) && !IsSpace(x[|x| - 1]))
    ensures ParseInt(w1 + x + w2).Ok? == ParseInt(x).Ok?
    ensures ParseInt(x).Ok? ==> ParseInt(w1 + x + w2).value == ParseInt(x).value
  {
    StripSpaced(w1, x, w2);
    StripTrimmed(x);
    SameStripped(w1 + x + w2, x);
  }

  /** Texts that strip to the same text convert alike. */
  lemma SameStripped(s: string, x: string)
    requires Strip(s) == Strip(x)
    ensures ParseInt(s).Ok? == ParseInt(x).Ok?
    ensures ParseInt(x).Ok? ==> ParseInt(s).value == ParseInt(x).value
  {
  }

  /** Two digit runs joined by a mark read as their digits together:
      `1_000` is 1000. */
  lemma IntGrouped(a: string, b: string)
    requires a != [] && AllDigits(a) && b != [] && AllDigits(b)
    ensures ParseInt(a + "_" + b) == Ok(NatOf(a + b))
  {
    GroupedValue(a, b, NatOf(a + b));
  }

  /** The same, for the value `n` of the digits. */
  lemma GroupedValue(a: string, b: string, n: int)
    requires a != [] && AllDigits(a) && b != [] && AllDigits(b)
    requires n == NatOf(a + b)
    ensures ParseInt(a + "_" + b) == Ok(n)
  {
    GroupedPart(a, b);
    GroupedDigits(a, b);
    PartValue(a + "_" + b);
  }

  /** Two digit runs joined by a mark form one digit part. */
  lemma GroupedPart(a: string, b: string)
    requires a != [] && AllDigits(a) && b != [] && AllDigits(b)
    ensures IsDigitPart(a + "_" + b)
  {
    GroupedRun(a, b, []);
    assert a + "_" + b + [] == a + "_" + b;
  }

  /** Dropping the mark between two digit runs joins them. */
  lemma GroupedDigits(a: string, b: string)
    requires AllDigits(a) && AllDigits(b)
    ensures Ungrouped(a + "_" + b) == a + b
  {
    UngroupedAppend(a + "_", b);
    UngroupedAppend(a, "_");
    DigitsUngrouped(a);
    DigitsUngrouped(b);
    assert Ungrouped("_") == [];
  }

  /** Digits do not stop a digit part: from `i` to `j` it takes them all. */
  lemma {:induction false} GroupDigits(s: string, i: nat, j: nat)
    requires 0 < i <= j <= |s|
    requires forall k :: i <= k < j ==> IsDigit(s[k])
    ensures GroupEnd(s, i) == GroupEnd(s, j)
    decreases j - i
  {
    if i < j {
      GroupDigits(s, i + 1, j);
    }
  }

  /** A digit part made of two digit runs joined by `_`, then a text that
      does not go on with a digit or a mark. */
  lemma GroupedRun(a: string, b: string, rest: string)
    requires a != [] && AllDigits(a) && b != [] && AllDigits(b)
    requires rest == [] || (!IsDigit(rest[0]) && rest[0] != '_')
    ensures PartRun(a + "_" + b + rest) == |a| + 1 + |b|
  {
    var s := a + "_" + b + rest;
    var m := |a| + 1 + |b|;
    assert s[0] == a[0];
    GroupDigits(s, 1, |a|);
    assert s[|a|] == '_' && s[|a| + 1] == b[0];
    GroupDigits(s, |a| + 2, m);
    assert m < |s| ==> s[m] == rest[0];
  }

  /** Without marks, a digit part stops where the digits stop. */
  lemma {:induction false} GroupEndPlain(s: string, i: nat)
    requires 0 < i <= |s|
    requires forall k :: i <= k < |s| ==> s[k] != '_'
    ensures GroupEnd(s, i) == DigitEnd(s, i)
    decreases |s| - i
  {
    if i < |s| && IsDigit(s[i]) {
      GroupEndPlain(s, i + 1);
    }
  }

  /** In a text without marks the digit part is the plain digit run. */
  lemma PartRunPlain(s: string)
    requires forall k :: 0 <= k < |s| ==> s[k] != '_'
    ensures PartRun(s) == DigitRun(s)
  {
    if s != [] && IsDigit(s[0]) {
      GroupEndPlain(s, 1);
    }
  }

  /** An optional exponent: empty, or `e`/`E`, an optional sign and a digit
      part. */
  predicate IsExponent(e: string) {
    e == [] || ((e[0] == 'e' || e[0] == 'E') && IsDigitPart(Unsigned(e[1..])))
  }

  /** A decimal number: digit parts around at most one point, at least one
      of them present, then an optional exponent. */
  predicate IsUnsignedFloat(u: string) {
    var a := PartRun(u);
    if a < |u| && u[a] == '.' then
      var b := PartRun(u[a + 1..]);
      a + b > 0 && IsExponent(u[a + 1 + b..])
    else
      a > 0 && IsExponent(u[a..])
  }

  /** ASCII capital letters in lower case; everything else as it is. */
  function Lower(s: string): (r: string)
    ensures |r| == |s|
    ensures forall k :: 0 <= k < |s| ==> r[k] == if 'A' <= s[k] <= 'Z' then (s[k] as int + 32) as char else s[k]
  {
    seq(|s|, k requires 0 <= k < |s| => if 'A' <= s[k] <= 'Z' then (s[k] as int + 32) as char else s[k])
  }

  /** `nan`, `inf` or `infinity`, in any mix of cases. */
  predicate IsSpecialFloat(u: string) {
    var l := Lower(u);
    l == "nan" || l == "inf" || l == "infinity"
  }

  /** Text that `float()` accepts: whitespace around, an optional sign, then
      a decimal number or one of the special values. */
  predicate IsFloatText(s: string) {
    var u := Unsigned(Strip(s));
    IsUnsignedFloat(u) || IsSpecialFloat(u)
  }

  /** The `ValueError` of `float(text)` on text it rejects. */
  function NotFloat(text: string): Fault
  {
    ValueError("could not convert string to float: " + ReprStr(text))
  }

  /** Digits and a point: a float goes on with an exponent, possibly empty,
      after the digit part that follows the point. */
  lemma {:induction false} UnsignedFloatPoint(u: string, a: nat, b: nat)
    requires a == PartRun(u) && a < |u| && u[a] == '.' && b == PartRun(u[a + 1..])
    ensures IsUnsignedFloat(u) ==> IsExponent(u[a + 1 + b..])
  {
  }

  /** Text without surrounding whitespace or sign is a float exactly when it
      is a decimal number or a special value. */
  lemma FloatTextUnsigned(s: string)
    requires s != [] && !IsSpace(s[0]) && !IsSpace(s[|s| - 1]) && s[0] != '+' && s[0] != '-'
    ensures IsFloatText(s) <==> IsUnsignedFloat(s) || IsSpecialFloat(s)
  {
    StripTrimmed(s);
  }

  /** A text that starts with a digit or a point is no special value. */
  lemma NotSpecial(u: string)
    requires u != [] && (IsDigit(u[0]) || u[0] == '.')
    ensures !IsSpecialFloat(u)
  {
    assert Lower(u)[0] == u[0];
  }

  /** A special value is no decimal text: it neither starts nor ends with
      whitespace, and it is a float. */
  lemma SpecialFloat(u: string)
    requires IsSpecialFloat(u)
    ensures u != [] && !IsSpace(u[0]) && !IsSpace(u[|u| - 1]) && IsFloatText(u)
  {
    var l := Lower(u);
    assert l[0] != u[0] ==> 'A' <= u[0] <= 'Z';
    assert l[|l| - 1] != u[|u| - 1] ==> 'A' <= u[|u| - 1] <= 'Z';
    StripTrimmed(u);
  }

  /** A sign before a trimmed text: the text is a float exactly when the
      text after the sign is a decimal number or a special value, so
      `-inf` and `+Infinity` convert. */
  lemma SignedFloat(t: string)
    requires |t| > 1 && (t[0] == '+' || t[0] == '-') && !IsSpace(t[|t| - 1])
    ensures IsFloatText(t) <==> IsUnsignedFloat(t[1..]) || IsSpecialFloat(t[1..])
  {
    StripTrimmed(t);
  }

  /** Case does not matter in the special values. */
  lemma SpecialCases()
    ensures IsSpecialFloat("NaN") && IsSpecialFloat("iNF") && IsSpecialFloat("Infinity")
  {
    assert Lower("NaN") == "nan";
    assert Lower("iNF") == "inf";
    assert Lower("Infinity") == "infinity";
  }

  /** The digit run at the start of `d + rest`, when `rest` goes on with
      neither a digit nor a mark. */
  lemma PartRunDigits(d: string, rest: string)
    requires AllDigits(d)
    requires rest == [] || (!IsDigit(rest[0]) && rest[0] != '_')
    ensures PartRun(d + rest) == |d|
  {
    var s := d + rest;
    if d != [] {
      assert s[0] == d[0];
      GroupDigits(s, 1, |d|);
      assert |d| < |s| ==> s[|d|] == rest[0];
    }
  }

  /** Digits around a point form a float exactly when there is at least one
      digit: `7.`, `.5` and `7.5` convert, `.` raises. */
  lemma PointFloats(d: string, f: string)
    requires AllDigits(d) && AllDigits(f)
    ensures IsUnsignedFloat(d + "." + f) <==> d != [] || f != []
  {
    var u := d + "." + f;
    PartRunDigits(d, "." + f);
    assert u == d + ("." + f);
    assert u[|d|] == '.';
    assert u[|d| + 1..] == f;
    PartRunDigits(f, []);
    assert f + [] == f;
    assert u[|d| + 1 + |f|..] == [];
  }

  /** A digit run alone, and one in groups such as `1_000.5`, is a float. */
  lemma GroupedFloat(a: string, b: string, f: string)
    requires a != [] && AllDigits(a) && b != [] && AllDigits(b) && AllDigits(f)
    ensures IsUnsignedFloat(a) && IsUnsignedFloat(a + "_" + b + "." + f)
  {
    PartRunDigits(a, []);
    assert a + [] == a;
    assert a[|a|..] == [];
    var u := a + "_" + b + "." + f;
    GroupedRun(a, b, "." + f);
    assert u == a + "_" + b + ("." + f);
    var m := |a| + 1 + |b|;
    assert u[m] == '.' && u[m + 1..] == f;
    PartRunDigits(f, []);
    assert f + [] == f;
    assert u[m + 1 + |f|..] == [];
  }

  /** 10 to the power `n`. */
  function Pow10(n: nat): (r: nat)
    ensures r >= 1
  {
    if n == 0 then 1 else 10 * Pow10(n - 1)
  }

  /** The least magnitude of an integer that `float()` cannot convert:
      2^1024 - 2^970. The largest double is 2^1024 - 2^971; an integer from
      half way between it and 2^1024 on rounds, half to even, to 2^1024,
      which no double holds. */
  const FloatIntLimit: int := 0xFFFFFFFFFFFFFC00_0000000000000000_0000000000000000_0000000000000000_0000000000000000_0000000000000000_0000000000000000_0000000000000000_0000000000000000_0000000000000000_0000000000000000_0000000000000000_0000000000000000_0000000000000000_0000000000000000_0000000000000000

  /** `float(n)` on an integer raises exactly when `n` rounds past the
      largest double, either way. */
  predicate FloatOverflows(n: int) {
    n <= -FloatIntLimit || FloatIntLimit <= n
  }

  /** The `OverflowError` of `float(n)` on such an integer. */
  const TooLargeForFloat: Fault := OverflowError("int too large to convert to float")

  lemma {:induction false} Pow10Sum(a: nat, b: nat)
    ensures Pow10(a + b) == Pow10(a) * Pow10(b)
    decreases b
  {
    if b > 0 {
      Pow10Sum(a, b - 1);
    }
  }

  lemma Pow10Sixteen()
    ensures Pow10(16) == 1_0000_0000_0000_0000
  {
    assert Pow10(1) == 10;
    Pow10Sum(1, 1);
    assert Pow10(2) == 100;
    Pow10Sum(2, 2);
    assert Pow10(4) == 1_0000;
    Pow10Sum(4, 4);
    assert Pow10(8) == 1_0000_0000;
    Pow10Sum(8, 8);
  }

  lemma {:induction false} Pow10Step(n: nat)
    ensures Pow10(n + 16) == 1_0000_0000_0000_0000 * Pow10(n)
  {
    if n == 0 {
      Pow10Sixteen();
    } else {
      Pow10Step(n - 1);
    }
  }

  lemma {:induction false} Pow10Monotone(m: nat, n: nat)
    requires m <= n
    ensures Pow10(m) <= Pow10(n)
    decreases n
  {
    if m < n {
      Pow10Monotone(m, n - 1);
    }
  }

  /** The limit has 309 decimal digits: every integer of at most 308 digits
      converts, and none of 310 or more does. */
  lemma FloatLimitDigits()
    ensures Pow10(308) < FloatIntLimit <= Pow10(309)
  {
    assert Pow10(4) == 1_0000;
    Pow10Step(4); Pow10Step(20); Pow10Step(36); Pow10Step(52); Pow10Step(68);
    Pow10Step(84); Pow10Step(100); Pow10Step(116); Pow10Step(132); Pow10Step(148);
    Pow10Step(164); Pow10Step(180); Pow10Step(196); Pow10Step(212); Pow10Step(228);
    Pow10Step(244); Pow10Step(260); Pow10Step(276); Pow10Step(292);
    assert Pow10(309) == 10 * Pow10(308);
  }

  /** A run of `n` digits stands below 10^n, and at or above 10^(n-1) when
      it does not start with `0`. */
  lemma {:induction false} DigitsMagnitude(d: string)
    requires d != [] && AllDigits(d)
    ensures NatOf(d) < Pow10(|d|)
    ensures d[0] != '0' ==> Pow10(|d| - 1) <= NatOf(d)
  {
    var init := d[..|d| - 1];
    if init != [] {
      DigitsMagnitude(init);
      assert init[0] == d[0];
    }
  }

  /** A run of digits spells its value. */
  lemma IntOfRun(d: string)
    requires d != [] && AllDigits(d)
    ensures IntOf(d) == Some(NatOf(d) as int)
  {
    assert Unsigned(d) == d by {
      assert IsDigit(d[0]);
    }
    DigitsArePart(d);
  }

  /** The digits after `-` spell the negated value. */
  lemma IntOfNegRun(d: string)
    requires d != [] && AllDigits(d)
    ensures IntOf("-" + d) == Some(-(NatOf(d) as int))
  {
    var t := "-" + d;
    assert t[0] == '-' && Unsigned(t) == d by {
      assert t[1..] == d;
    }
    DigitsArePart(d);
  }

  /** `float()` of the integer a run of digits spells, or of its negation:
      at most 308 digits convert, and 310 or more without a leading `0`
      raise. */
  lemma DigitsToFloat(d: string)
    requires d != [] && AllDigits(d)
    ensures |d| <= 308 ==> !FloatOverflows(NatOf(d)) && !FloatOverflows(-(NatOf(d) as int))
    ensures |d| >= 310 && d[0] != '0' ==> FloatOverflows(NatOf(d)) && FloatOverflows(-(NatOf(d) as int))
  {
    DigitsMagnitude(d);
    FloatLimitDigits();
    if |d| <= 308 {
      Pow10Monotone(|d|, 308);
    } else if |d| >= 310 {
      Pow10Monotone(309, |d| - 1);
    }
  }
}

=== FILE: pep8_naming.dfy ===
/** pep8-naming report lines `path:line:col: N802 message`
    (CodeReview/NamingConvention/pep8_naming_runner.py). */
module Pep8Naming {
  import opened Runtime
  import opened Text
  import opened Lines
  import Flake8

  /** One normalised naming finding. */
  datatype Issue = Issue(file: string, line: nat, column: nat, code: string, message: string)

  /** The pieces of a report line, as the pattern
      `^(.*?):(\d+):(\d+):\s(N\d+)\s+(.*)$` cuts it: the code is `N` and its
      digits, `gap2` the whole whitespace run after it. */
  datatype RawLine = RawLine(path: string, row: string, col: string, gap1: char, digits: string,
                             gap2: string, message: string)

  /** What the pattern demands of the pieces after the path: the greedy
      digit and whitespace runs leave the message starting with neither. */
  predicate Shaped(r: RawLine) {
    r.row != [] && AllDigits(r.row) && r.col != [] && AllDigits(r.col) && IsSpace(r.gap1)
    && r.digits != [] && AllDigits(r.digits) && r.gap2 != [] && AllSpace(r.gap2)
    && (r.message == [] || !IsSpace(r.message[0]))
  }

  /** The text after the column's colon. */
  function Middle(r: RawLine): string {
    [r.gap1] + "N" + r.digits + r.gap2 + r.message
  }

  /** Everything after the colon that ends the path. */
  function RenderTail(r: RawLine): string {
    r.row + ":" + (r.col + ":" + Middle(r))
  }

  /** The report line the pieces spell. */
  function Render(r: RawLine): string {
    r.path + ":" + RenderTail(r)
  }

  /** The record built from the pieces: stripped path, code and message,
      integer line and column. */
  function Normalise(r: RawLine): Issue
    requires Shaped(r)
  {
    Issue(Strip(r.path), NatOf(r.row), NatOf(r.col), Strip("N" + r.digits), Strip(r.message))
  }

  /** `\s(N\d+)\s+(.*)$`: the text after the column's colon. */
  function MiddleOf(t: string): (r: Option<RawLine>)
    ensures r.Some? ==> r.value.path == [] && r.value.row == [] && r.value.col == []
                        && IsSpace(r.value.gap1) && r.value.digits != [] && AllDigits(r.value.digits)
                        && r.value.gap2 != [] && AllSpace(r.value.gap2)
                        && (r.value.message == [] || !IsSpace(r.value.message[0]))
                        && Middle(r.value) == t
  {
    if |t| < 2 || !IsSpace(t[0]) || t[1] != 'N' then None
    else
      var d := DigitEnd(t, 2);
      var g := SpaceEnd(t, d);
      if d == 2 || g == d then None
      else
        Cut(t, d, g);
        Some(RawLine([], [], [], t[0], t[2..d], t[d..g], t[g..]))
  }

  /** A text is its first two characters and the three pieces after them. */
  lemma Cut(t: string, d: nat, g: nat)
    requires 2 <= d <= g <= |t|
    ensures t == [t[0]] + [t[1]] + t[2..d] + t[d..g] + t[g..]
  {
    assert t == t[..2] + t[2..d] + t[d..g] + t[g..];
    assert t[..2] == [t[0]] + [t[1]];
  }

  /** `(\d+):(\d+):\s(N\d+)\s+(.*)$` against the text after a colon. */
  function Tail(t: string): (r: Option<RawLine>)
    ensures r.Some? ==> Shaped(r.value) && r.value.path == [] && RenderTail(r.value) == t
  {
    match DigitsThen(t, ':')
    case None => None
    case Some((row, t1)) =>
      match DigitsThen(t1, ':')
      case None => None
      case Some((col, t2)) =>
        match MiddleOf(t2)
        case None => None
        case Some(m) => Some(m.(row := row, col := col))
  }

  /** The text after the column's colon is read back as written. */
  lemma MiddleOfRender(r: RawLine)
    requires Shaped(r)
    ensures MiddleOf(Middle(r)) == Some(r.(path := [], row := [], col := []))
  {
    var t := Middle(r);
    var d := 2 + |r.digits|;
    var g := d + |r.gap2|;
    assert t == [r.gap1] + ['N'] + r.digits + r.gap2 + r.message;
    assert t[2..d] == r.digits;
    assert t[d..g] == r.gap2;
    assert t[g..] == r.message;
    DigitEndAt(t, 2, d);
    SpaceEndAt(t, d, g);
  }

  /** Every well-shaped tail is recognised, pieces intact. */
  lemma TailOfRender(r: RawLine)
    requires Shaped(r)
    ensures Tail(RenderTail(r)) == Some(r.(path := []))
  {
    MiddleOfRender(r);
    DigitsThenOf(r.col, ':', Middle(r));
    DigitsThenOf(r.row, ':', r.col + ":" + Middle(r));
  }

  /** One line matched against the whole pattern (`re.match`). */
  function MatchLine(line: string): Option<Issue>
  {
    match LazyColon(line, 0, Tail)
    case None => None
    case Some((i, raw)) => Some(Normalise(raw.(path := line[..i])))
  }

  /** A record's code is `N` followed by at least one digit. */
  lemma MatchedCode(line: string)
    requires MatchLine(line).Some?
    ensures var m := MatchLine(line).value; |m.code| >= 2 && m.code[0] == 'N' && AllDigits(m.code[1..])
  {
    var (i, raw) := LazyColon(line, 0, Tail).value;
    assert Tail(line[i + 1..]) == Some(raw);
    NCode(raw.digits);
    assert ("N" + raw.digits)[1..] == raw.digits;
  }

  /** `N` and a run of digits is its own strip. */
  lemma NCode(digits: string)
    requires digits != [] && AllDigits(digits)
    ensures Strip("N" + digits) == "N" + digits
  {
    var c := "N" + digits;
    assert !IsSpace(c[0]) && !IsSpace(c[|c| - 1]) by {
      assert c[|c| - 1] == digits[|digits| - 1];
    }
    StripTrimmed(c);
  }

  /** The pieces found after colon `i` spell the line once the text before
      the colon is taken as the path. */
  lemma RenderAt(line: string, i: nat, tailRaw: RawLine)
    requires i < |line| && line[i] == ':' && Tail(line[i + 1..]) == Some(tailRaw)
    ensures Shaped(tailRaw.(path := line[..i])) && Render(tailRaw.(path := line[..i])) == line
  {
    WithPath(tailRaw, line[..i]);
    SplitAround(line, i);
  }

  /** The path plays no part in the shape or the tail. */
  lemma WithPath(r: RawLine, p: string)
    ensures Shaped(r.(path := p)) == Shaped(r)
    ensures Render(r.(path := p)) == p + ":" + RenderTail(r)
  {
  }

  /** Soundness: a record comes from a line that is a well-shaped rendering
      of its pieces. */
  lemma MatchSound(line: string) returns (raw: RawLine)
    requires MatchLine(line).Some?
    ensures Shaped(raw) && Render(raw) == line && MatchLine(line) == Some(Normalise(raw))
  {
    var (i, tailRaw) := LazyColon(line, 0, Tail).value;
    raw := tailRaw.(path := line[..i]);
    assert MatchLine(line) == Some(Normalise(raw));
    RenderAt(line, i, tailRaw);
  }

  /** Completeness: a well-shaped line yields exactly the record of its
      pieces, unless a colon inside its path is followed there by digits and
      another colon (then the lazy path ends early). */
  lemma MatchComplete(raw: RawLine)
    requires Shaped(raw) && NoRowColon(raw.path)
    ensures MatchLine(Render(raw)) == Some(Normalise(raw))
  {
    var line := Render(raw);
    var p := |raw.path|;
    PathColon(raw);
    TailOfRender(raw);
    forall k | 0 <= k < p ensures NoMatchAt(line, k, Tail) {
      PathColonMiss(raw, k);
    }
    LazyColonFirst(line, 0, p, Tail);
    CompleteAt(line, p, raw);
  }

  /** The colon after the path, and the text on either side of it. */
  lemma PathColon(raw: RawLine)
    ensures |raw.path| < |Render(raw)| && Render(raw)[|raw.path|] == ':'
    ensures Render(raw)[..|raw.path|] == raw.path && Render(raw)[|raw.path| + 1..] == RenderTail(raw)
  {
    var line := Render(raw);
    TailAfter(raw.path, ':', RenderTail(raw));
    CharAt(raw.path, ':', RenderTail(raw), |raw.path|);
    assert line[..|raw.path|] == raw.path;
  }

  /** A colon inside the path that is not followed by `digits:` there is
      passed over: what follows it is no tail. */
  lemma PathColonMiss(raw: RawLine, k: nat)
    requires Shaped(raw) && k < |raw.path| && !RowColonAt(raw.path, k)
    ensures NoMatchAt(Render(raw), k, Tail)
  {
    var line := Render(raw);
    assert line[k] == raw.path[k];
    if raw.path[k] == ':' {
      var p := raw.path[k + 1..];
      var t := RenderTail(raw);
      assert line[k + 1..] == p + ":" + t;
      DigitsThenPast(p, t);
      NoTailBefore(raw, p + ":" + t);
    }
  }

  /** A text whose `(\d+):` is missing, or is followed by a whole tail, is
      no tail itself: the column would have to start with a space. */
  lemma NoTailBefore(raw: RawLine, t: string)
    requires Shaped(raw)
    requires DigitsThen(t, ':').None? || DigitsThen(t, ':').value.1 == RenderTail(raw)
    ensures Tail(t) == None
  {
    var m := Middle(raw);
    DigitsThenOf(raw.row, ':', raw.col + ":" + m);
    assert (raw.col + ":" + m)[0] == raw.col[0];
  }

  /** The record of a line whose first accepted colon ends the path. */
  lemma CompleteAt(line: string, p: nat, raw: RawLine)
    requires Shaped(raw) && p <= |line| && line[..p] == raw.path
    requires LazyColon(line, 0, Tail) == Some((p, raw.(path := [])))
    ensures MatchLine(line) == Some(Normalise(raw))
  {
  }

  /** On a flake8 line with an `N` code, the naming normaliser and the flake8
      normaliser produce the same fields. */
  lemma AgreesWithFlake8(f: Flake8.RawLine)
    requires Flake8.Shaped(f) && f.code[0] == 'N' && ':' !in f.path
    requires f.message == [] || !IsSpace(f.message[0])
    ensures MatchLine(Flake8.Render(f)) == Some(Issue(Strip(f.path), NatOf(f.row), NatOf(f.col), f.code, Strip(f.message)))
    ensures Flake8.MatchLine(Flake8.Render(f)) == Some(Flake8.Issue(Strip(f.path), NatOf(f.row), NatOf(f.col), f.code, Strip(f.message)))
  {
    var p := FromFlake8(f);
    ColonFree(f.path);
    ColonFree(p.path);
    MatchComplete(p);
    Flake8.MatchComplete(f);
  }

  /** The naming pieces of a flake8 line with an `N` code. */
  lemma FromFlake8(f: Flake8.RawLine) returns (p: RawLine)
    requires Flake8.Shaped(f) && f.code[0] == 'N' && ':' !in f.path
    requires f.message == [] || !IsSpace(f.message[0])
    ensures Shaped(p) && ':' !in p.path && Render(p) == Flake8.Render(f)
    ensures Normalise(p) == Issue(Strip(f.path), NatOf(f.row), NatOf(f.col), f.code, Strip(f.message))
  {
    p := RawLine(f.path, f.row, f.col, f.gap1, f.code[1..], [f.gap2], f.message);
    CodeLetter(f.code);
    FromFlake8Render(f, p);
    FromFlake8Fields(f, p);
  }

  /** A code that starts with `N` is `N` and the rest. */
  lemma CodeLetter(code: string)
    requires code != [] && code[0] == 'N'
    ensures code == "N" + code[1..]
  {
  }

  /** The naming pieces spell the same line as the flake8 pieces. */
  lemma FromFlake8Render(f: Flake8.RawLine, p: RawLine)
    requires f.code != [] && f.code == "N" + f.code[1..]
    requires p == RawLine(f.path, f.row, f.col, f.gap1, f.code[1..], [f.gap2], f.message)
    ensures Render(p) == Flake8.Render(f)
  {
    assert Middle(p) == Flake8.Middle(f);
  }

  /** The naming pieces are well shaped and normalise to the flake8 fields. */
  lemma FromFlake8Fields(f: Flake8.RawLine, p: RawLine)
    requires Flake8.Shaped(f) && f.code[0] == 'N'
    requires f.message == [] || !IsSpace(f.message[0])
    requires p == RawLine(f.path, f.row, f.col, f.gap1, f.code[1..], [f.gap2], f.message)
    ensures Shaped(p)
    ensures Normalise(p) == Issue(Strip(f.path), NatOf(f.row), NatOf(f.col), f.code, Strip(f.message))
  {
    CodeDigits(f.code);
    assert AllSpace(p.gap2);
    CodeLetter(f.code);
    StripTrimmed(f.code);
  }

  /** The digits of a flake8 code. */
  lemma CodeDigits(code: string)
    requires Flake8.IsCode(code)
    ensures code[1..] != [] && AllDigits(code[1..])
    ensures !IsSpace(code[0]) && !IsSpace(code[|code| - 1])
  {
    assert code[1..] == [code[1], code[2], code[3]];
  }

  /** A flake8 line whose code does not start with `N` (an E, W or F code)
      is dropped, when neither its path nor its message holds a colon. */
  lemma RejectsOtherCode(f: Flake8.RawLine)
    requires Flake8.Shaped(f) && f.code[0] != 'N' && ':' !in f.path && ':' !in f.message
    ensures MatchLine(Flake8.Render(f)) == None
  {
    var line := Flake8.Render(f);
    forall k | 0 <= k < |line| ensures NoMatchAt(line, k, Tail) {
      OtherCodeColon(f, k);
    }
    LazyColonNone(line, 0, Tail);
  }

  /** No colon of such a line is followed by a naming tail. */
  lemma OtherCodeColon(f: Flake8.RawLine, k: nat)
    requires Flake8.Shaped(f) && f.code[0] != 'N' && ':' !in f.path && ':' !in f.message
    requires k < |Flake8.Render(f)|
    ensures NoMatchAt(Flake8.Render(f), k, Tail)
  {
    var p2 := |f.path| + 1 + |f.row|;
    var p3 := p2 + 1 + |f.col|;
    if k == |f.path| {
      OtherCodeAfterPath(f, k);
    } else if k == p2 {
      OtherCodeAfterRow(f, k);
    } else if k == p3 {
      OtherCodeAfterColumn(f, k);
    } else {
      assert ':' !in f.code by {
        forall i | 0 <= i < |f.code| ensures f.code[i] != ':' { }
      }
      Flake8.OnlyFieldColons(f, k);
    }
  }

  /** After the path: the code's letter stands where `N` should be. */
  lemma OtherCodeAfterPath(f: Flake8.RawLine, k: nat)
    requires Flake8.Shaped(f) && f.code[0] != 'N' && k == |f.path|
    ensures k < |Flake8.Render(f)| && NoMatchAt(Flake8.Render(f), k, Tail)
  {
    TailAfter(f.path, ':', Flake8.RenderTail(f));
    var m := Flake8.Middle(f);
    DigitsThenOf(f.row, ':', f.col + ":" + m);
    DigitsThenOf(f.col, ':', m);
    assert m[1] == f.code[0];
    assert MiddleOf(m) == None;
  }

  /** After the row: the text after the column's colon starts with a space,
      not a digit. */
  lemma OtherCodeAfterRow(f: Flake8.RawLine, k: nat)
    requires Flake8.Shaped(f) && k == |f.path| + 1 + |f.row|
    ensures k < |Flake8.Render(f)| && NoMatchAt(Flake8.Render(f), k, Tail)
  {
    Flake8.AfterRow(f);
    RowTail(f);
    var line := Flake8.Render(f);
    assert line[k + 1..] == f.col + ":" + Flake8.Middle(f);
    assert Tail(line[k + 1..]).None?;
  }

  /** The column, its colon and a middle that starts with a space are not a
      naming tail. */
  lemma RowTail(f: Flake8.RawLine)
    requires Flake8.Shaped(f)
    ensures Tail(f.col + ":" + Flake8.Middle(f)) == None
  {
    DigitsThenOf(f.col, ':', Flake8.Middle(f));
    NoDigitsThen(Flake8.Middle(f), ':');
  }

  /** After the column: a space follows, not a digit. */
  lemma OtherCodeAfterColumn(f: Flake8.RawLine, k: nat)
    requires Flake8.Shaped(f) && k == |f.path| + 2 + |f.row| + |f.col|
    ensures k < |Flake8.Render(f)| && NoMatchAt(Flake8.Render(f), k, Tail)
  {
    Flake8.AfterColumn(f);
    NoDigitsThen(Flake8.Middle(f), ':');
  }

  /** `parse_pep8_naming_output`: the output is stripped and split into
      lines; each line the pattern accepts appends its record. */
  method ParseOutput(output: string) returns (issues: seq<Issue>)
    ensures issues == Collect(SplitLines(Strip(output)), MatchLine)
    ensures forall k :: 0 <= k < |issues| ==> |issues[k].code| >= 2 && issues[k].code[0] == 'N' && AllDigits(issues[k].code[1..])
  {
    var lines := SplitLines(Strip(output));
    issues := CollectLines(lines, MatchLine);
    CollectAccepted(lines, MatchLine);
    forall k | 0 <= k < |issues| {
      MatchedCode(lines[Accepted(lines, MatchLine)[k]]);
    }
  }
}

=== FILE: pylint.dfy ===
/** pylint report lines `path:line:col: C0114: message (symbol)` and the
    closing rating line (CodeReview/CodeQuality/pylint_runner.py). */
module Pylint {
  import opened Runtime
  import opened Text
  import opened Numbers
  import opened Lines
  import Flake8

  /** One entry of the normalised report: a finding, or the rating summary
      (kept as the text `float()` accepted). */
  datatype Entry =
    | Issue(file: string, line: nat, column: nat, messageId: string, symbol: string, message: string)
    | Summary(rating: string)

  /** The pieces of a report line, as the pattern
      `^(.*?):(\d+):(\d+):\s([A-Z]\d{4}):\s(.*)\s\((.*?)\)$` cuts it. */
  datatype RawLine = RawLine(path: string, row: string, col: string, gap1: char, code: string,
                             gap2: char, message: string, gap3: char, symbol: string)

  /** A capital letter followed by exactly four digits. */
  predicate IsMessageId(c: string) {
    |c| == 5 && IsUpper(c[0]) && AllDigits(c[1..])
  }

  /** What the pattern demands of the pieces after the path. */
  predicate Shaped(r: RawLine) {
    r.row != [] && AllDigits(r.row) && r.col != [] && AllDigits(r.col)
    && IsSpace(r.gap1) && IsMessageId(r.code) && IsSpace(r.gap2) && IsSpace(r.gap3)
  }

  /** The text after the message id's colon and gap: message, gap, and the
      parenthesised symbol closing the line. */
  function Closing(r: RawLine): string {
    r.message + [r.gap3] + "(" + r.symbol + ")"
  }

  /** The text after the column's colon. */
  function Middle(r: RawLine): string {
    [r.gap1] + r.code + ":" + [r.gap2] + Closing(r)
  }

  /** Everything after the colon that ends the path. */
  function RenderTail(r: RawLine): string {
    r.row + ":" + (r.col + ":" + Middle(r))
  }

  /** The report line the pieces spell. */
  function Render(r: RawLine): string {
    r.path + ":" + RenderTail(r)
  }

  /** The record built from the pieces: stripped path and message, integer
      line and column, id and symbol as matched. */
  function Normalise(r: RawLine): Entry
    requires Shaped(r)
  {
    Issue(Strip(r.path), NatOf(r.row), NatOf(r.col), r.code, r.symbol, Strip(r.message))
  }

  /** Whitespace followed by an opening parenthesis at `k`. */
  predicate GapAt(s: string, k: nat)
    requires k + 1 < |s|
  {
    IsSpace(s[k]) && s[k + 1] == '('
  }

  /** The last whitespace-and-parenthesis before position `q`. */
  function LastGap(s: string, q: nat): (r: Option<nat>)
    requires q + 2 <= |s|
    ensures r.Some? ==> r.value < q && GapAt(s, r.value)
    ensures r.Some? ==> forall k :: r.value < k < q ==> !GapAt(s, k)
    ensures r.None? ==> forall k :: 0 <= k < q ==> !GapAt(s, k)
  {
    if q == 0 then None
    else if GapAt(s, q - 1) then Some(q - 1)
    else LastGap(s, q - 1)
  }

  /** `(.*)\s\((.*?)\)$` on the closing text: the greedy message runs up to
      the last whitespace-and-parenthesis that still leaves a closing
      parenthesis as the line's final character. */
  function SplitClosing(s: string): (r: Option<(string, char, string)>)
    ensures r.Some? ==> IsSpace(r.value.1) && r.value.0 + [r.value.1] + "(" + r.value.2 + ")" == s
  {
    if |s| < 3 || s[|s| - 1] != ')' then None
    else
      match LastGap(s, |s| - 2)
      case None => None
      case Some(k) =>
        assert s == s[..k] + [s[k]] + "(" + s[k + 2..|s| - 1] + ")";
        Some((s[..k], s[k], s[k + 2..|s| - 1]))
  }

  /** The closing text of well-shaped pieces splits back into them when the
      symbol holds no opening parenthesis. */
  lemma SplitClosingOf(message: string, gap: char, symbol: string)
    requires IsSpace(gap) && '(' !in symbol
    ensures SplitClosing(message + [gap] + "(" + symbol + ")") == Some((message, gap, symbol))
  {
    var s := message + [gap] + "(" + symbol + ")";
    var k := |message|;
    assert GapAt(s, k);
    forall j | k < j < |s| - 2 ensures !GapAt(s, j) {
      assert s[j + 1] == symbol[j - k - 1];
    }
    LastGapAt(s, |s| - 2, k);
    assert s[..k] == message;
    assert s[k + 2..|s| - 1] == symbol;
  }

  /** The backward search stops at the last gap. */
  lemma {:induction false} LastGapAt(s: string, q: nat, k: nat)
    requires q + 2 <= |s| && k < q && GapAt(s, k)
    requires forall j :: k < j < q ==> !GapAt(s, j)
    ensures LastGap(s, q) == Some(k)
    decreases q
  {
    if k < q - 1 {
      assert !GapAt(s, q - 1);
      LastGapAt(s, q - 1, k);
    }
  }

  /** `\s([A-Z]\d{4}):\s(.*)\s\((.*?)\)$`: the text after the column's
      colon. */
  function MiddleOf(t: string): (r: Option<RawLine>)
    ensures r.Some? ==> r.value.path == [] && r.value.row == [] && r.value.col == []
                        && IsSpace(r.value.gap1) && IsMessageId(r.value.code) && IsSpace(r.value.gap2)
                        && IsSpace(r.value.gap3) && Middle(r.value) == t
  {
    if |t| < 8 || !IsSpace(t[0]) || !IsMessageId(t[1..6]) || t[6] != ':' || !IsSpace(t[7]) then None
    else
      match SplitClosing(t[8..])
      case None => None
      case Some((message, gap3, symbol)) =>
        var r := RawLine([], [], [], t[0], t[1..6], t[7], message, gap3, symbol);
        assert t == [t[0]] + t[1..6] + [t[6]] + [t[7]] + t[8..];
        Some(r)
  }

  /** `(\d+):(\d+):\s([A-Z]\d{4}):\s(.*)\s\((.*?)\)$` against the text after
      a colon. */
  function Tail(t: string): (r: Option<RawLine>)
    ensures r.Some? ==> Shaped(r.value) && r.value.path == [] && RenderTail(r.value) == t
  {
    match DigitsThen(t, ':')
    case None => None
    case Some((row, t1)) =>
      match DigitsThen(t1, ':')
      case None => None
      case Some((col, t2)) =>
        match MiddleOf(t2)
        case None => None
        case Some(m) => Some(m.(row := row, col := col))
  }

  /** Every well-shaped tail whose symbol holds no opening parenthesis is
      recognised, pieces intact. */
  lemma TailOfRender(r: RawLine)
    requires Shaped(r) && '(' !in r.symbol
    ensures Tail(RenderTail(r)) == Some(r.(path := []))
  {
    var t := Middle(r);
    assert t == [r.gap1] + r.code + [':'] + [r.gap2] + Closing(r);
    assert t[1..6] == r.code;
    assert t[8..] == Closing(r);
    SplitClosingOf(r.message, r.gap3, r.symbol);
    assert MiddleOf(t) == Some(r.(path := [], row := [], col := []));
    DigitsThenOf(r.col, ':', t);
    DigitsThenOf(r.row, ':', r.col + ":" + t);
  }

  /** One line matched against the whole pattern. */
  function MatchLine(line: string): (r: Option<Entry>)
    ensures r.Some? ==> r.value.Issue? && IsMessageId(r.value.messageId)
  {
    match LazyColon(line, 0, Tail)
    case None => None
    case Some((i, raw)) => Some(Normalise(raw.(path := line[..i])))
  }

  /** The pieces found after colon `i` spell the line once the text before
      the colon is taken as the path. */
  lemma RenderAt(line: string, i: nat, tailRaw: RawLine)
    requires i < |line| && line[i] == ':' && Tail(line[i + 1..]) == Some(tailRaw)
    ensures Shaped(tailRaw.(path := line[..i])) && Render(tailRaw.(path := line[..i])) == line
  {
    WithPath(tailRaw, line[..i]);
    SplitAround(line, i);
  }

  /** The path plays no part in the shape or the tail. */
  lemma WithPath(r: RawLine, p: string)
    ensures Shaped(r.(path := p)) == Shaped(r)
    ensures Render(r.(path := p)) == p + ":" + RenderTail(r)
  {
  }

  /** Soundness: a record comes from a line that is a well-shaped rendering
      of its pieces. */
  lemma MatchSound(line: string) returns (raw: RawLine)
    requires MatchLine(line).Some?
    ensures Shaped(raw) && Render(raw) == line && MatchLine(line) == Some(Normalise(raw))
  {
    var (i, tailRaw) := LazyColon(line, 0, Tail).value;
    raw := tailRaw.(path := line[..i]);
    assert MatchLine(line) == Some(Normalise(raw));
    RenderAt(line, i, tailRaw);
  }

  /** Completeness: a well-shaped line whose symbol holds no opening
      parenthesis yields exactly its record, unless a colon inside its path
      is followed there by digits and another colon (then the lazy path ends
      early). */
  lemma MatchComplete(raw: RawLine)
    requires Shaped(raw) && NoRowColon(raw.path) && '(' !in raw.symbol
    ensures MatchLine(Render(raw)) == Some(Normalise(raw))
  {
    var line := Render(raw);
    var p := |raw.path|;
    assert line[p + 1..] == RenderTail(raw);
    assert line[..p] == raw.path;
    TailOfRender(raw);
    forall k | 0 <= k < p ensures NoMatchAt(line, k, Tail) {
      PathColonMiss(raw, k);
    }
    LazyColonFirst(line, 0, p, Tail);
  }

  /** A colon inside the path that is not followed by `digits:` there is
      passed over: what follows it is no tail. */
  lemma PathColonMiss(raw: RawLine, k: nat)
    requires Shaped(raw) && k < |raw.path| && !RowColonAt(raw.path, k)
    ensures NoMatchAt(Render(raw), k, Tail)
  {
    var line := Render(raw);
    assert line[k] == raw.path[k];
    if raw.path[k] == ':' {
      var p := raw.path[k + 1..];
      var t := RenderTail(raw);
      assert line[k + 1..] == p + ":" + t;
      DigitsThenPast(p, t);
      NoTailBefore(raw, p + ":" + t);
    }
  }

  /** A text whose `(\d+):` is missing, or is followed by a whole tail, is
      no tail itself: the column would have to start with a space. */
  lemma NoTailBefore(raw: RawLine, t: string)
    requires Shaped(raw)
    requires DigitsThen(t, ':').None? || DigitsThen(t, ':').value.1 == RenderTail(raw)
    ensures Tail(t) == None
  {
    var m := Middle(raw);
    DigitsThenOf(raw.row, ':', raw.col + ":" + m);
    assert (raw.col + ":" + m)[0] == raw.col[0];
  }

  /** A flake8 line (three-digit code) is never a pylint record, when neither
      its path nor its message holds a colon. */
  lemma RejectsFlake8Line(f: Flake8.RawLine)
    requires Flake8.Shaped(f) && ':' !in f.path && ':' !in f.message
    ensures MatchLine(Flake8.Render(f)) == None
  {
    var line := Flake8.Render(f);
    forall k | 0 <= k < |line| ensures NoMatchAt(line, k, Tail) {
      Flake8LineColon(f, k);
    }
    LazyColonNone(line, 0, Tail);
  }

  /** No colon of a flake8 line is followed by a pylint tail. */
  lemma Flake8LineColon(f: Flake8.RawLine, k: nat)
    requires Flake8.Shaped(f) && ':' !in f.path && ':' !in f.message
    requires k < |Flake8.Render(f)|
    ensures NoMatchAt(Flake8.Render(f), k, Tail)
  {
    var p2 := |f.path| + 1 + |f.row|;
    var p3 := p2 + 1 + |f.col|;
    if k == |f.path| {
      Flake8AfterPath(f, k);
    } else if k == p2 {
      Flake8AfterRow(f, k);
    } else if k == p3 {
      Flake8AfterColumn(f, k);
    } else {
      assert ':' !in f.code by {
        forall i | 0 <= i < |f.code| ensures f.code[i] != ':' { }
      }
      Flake8.OnlyFieldColons(f, k);
    }
  }

  /** After the path: a space stands where pylint's fifth id character, a
      digit, should be. */
  lemma Flake8AfterPath(f: Flake8.RawLine, k: nat)
    requires Flake8.Shaped(f) && k == |f.path|
    ensures k < |Flake8.Render(f)| && NoMatchAt(Flake8.Render(f), k, Tail)
  {
    Flake8.AfterPath(f);
    Flake8TailAfterPath(f);
  }

  lemma Flake8TailAfterPath(f: Flake8.RawLine)
    requires Flake8.Shaped(f)
    ensures Tail(Flake8.RenderTail(f)) == None
  {
    var m := Flake8.Middle(f);
    DigitsThenOf(f.row, ':', f.col + ":" + m);
    DigitsThenOf(f.col, ':', m);
    assert m[1..6][4] == f.gap2;
    assert MiddleOf(m) == None;
  }

  lemma Flake8AfterRow(f: Flake8.RawLine, k: nat)
    requires Flake8.Shaped(f) && k == |f.path| + 1 + |f.row|
    ensures k < |Flake8.Render(f)| && NoMatchAt(Flake8.Render(f), k, Tail)
  {
    var line := Flake8.Render(f);
    Flake8.AfterRow(f);
    assert line[k + 1..] == f.col + ":" + Flake8.Middle(f);
    Flake8TailAfterRow(f);
  }

  lemma Flake8TailAfterRow(f: Flake8.RawLine)
    requires Flake8.Shaped(f)
    ensures Tail(f.col + ":" + Flake8.Middle(f)) == None
  {
    DigitsThenOf(f.col, ':', Flake8.Middle(f));
    NoDigitsThen(Flake8.Middle(f), ':');
  }

  lemma Flake8AfterColumn(f: Flake8.RawLine, k: nat)
    requires Flake8.Shaped(f) && k == |f.path| + 2 + |f.row| + |f.col|
    ensures k < |Flake8.Render(f)| && NoMatchAt(Flake8.Render(f), k, Tail)
  {
    Flake8.AfterColumn(f);
    NoDigitsThen(Flake8.Middle(f), ':');
  }

  const RatingPrefix := "Your code has been rated at "

  /** `Your code has been rated at ([\d\.]+)/10` anchored at position `p`:
      the longest run of digits and points after the prefix, which must be
      followed by `/10`. */
  function RatingAt(s: string, p: nat): (r: Option<string>)
    ensures r.Some? ==> r.value != [] && forall k :: 0 <= k < |r.value| ==> IsDigit(r.value[k]) || r.value[k] == '.'
    ensures r.Some? ==> p + |RatingPrefix| + |r.value| + 3 <= |s|
                        && s[p..p + |RatingPrefix| + |r.value| + 3] == RatingPrefix + r.value + "/10"
  {
    var j := p + |RatingPrefix|;
    if j > |s| || s[p..j] != RatingPrefix then None
    else
      var e := DigitDotEnd(s, j);
      if e == j || e + 3 > |s| || s[e..e + 3] != "/10" then None
      else
        assert s[p..e + 3] == s[p..j] + s[j..e] + s[e..e + 3];
        Some(s[j..e])
  }

  /** `float(text)` for the rating text, raising on text it rejects. */
  function RatingValue(text: string): (r: Outcome<Entry>)
    ensures r.Ok? <==> IsFloatText(text)
    ensures r.Ok? ==> r.value == Summary(text)
  {
    if IsFloatText(text) then Ok(Summary(text))
    else Raised(NotFloat(text))
  }

  /** No two points. */
  predicate AtMostOnePoint(t: string) {
    forall i, j :: 0 <= i < j < |t| ==> !(t[i] == '.' && t[j] == '.')
  }

  /** At least one digit. */
  predicate HasDigit(t: string) {
    exists i :: 0 <= i < |t| && IsDigit(t[i])
  }

  /** A non-empty run of digits and points. */
  predicate IsRatingRun(t: string) {
    t != [] && forall k :: 0 <= k < |t| ==> IsDigit(t[k]) || t[k] == '.'
  }

  /** A run of digits and points is a float exactly when it has a digit and
      at most one point: `7.50` and `10` are, `.` and `1.2.3` raise. */
  lemma RatingText(text: string)
    requires IsRatingRun(text)
    ensures IsFloatText(text) <==> HasDigit(text) && AtMostOnePoint(text)
  {
    assert !IsSpace(text[0]) && !IsSpace(text[|text| - 1]);
    FloatTextUnsigned(text);
    NotSpecial(text);
    RatingUnsigned(text);
  }

  /** The same, once whitespace and sign are out of the way. */
  lemma RatingUnsigned(text: string)
    requires IsRatingRun(text)
    ensures IsUnsignedFloat(text) <==> HasDigit(text) && AtMostOnePoint(text)
  {
    PartRunPlain(text);
    var a := DigitRun(text);
    if a == |text| {
      assert text[..a] == text;
      RatingAllDigits(text);
    } else {
      var v := text[a + 1..];
      PartRunPlain(v);
      var b := DigitRun(v);
      if b == |v| {
        RatingOnePoint(text, a);
      } else {
        RatingTwoPoints(text, a, b);
      }
    }
  }

  lemma RatingAllDigits(text: string)
    requires text != [] && AllDigits(text)
    ensures IsUnsignedFloat(text) && HasDigit(text) && AtMostOnePoint(text)
  {
    assert IsDigit(text[0]);
    PartRunDigits(text, []);
    assert text + [] == text;
    assert text[|text|..] == [];
  }

  lemma RatingOnePoint(text: string, a: nat)
    requires IsRatingRun(text)
    requires a == DigitRun(text) && a < |text| && DigitRun(text[a + 1..]) == |text| - a - 1
    ensures IsUnsignedFloat(text) <==> HasDigit(text) && AtMostOnePoint(text)
  {
    var v := text[a + 1..];
    PartRunPlain(text);
    PartRunPlain(v);
    assert text[a] == '.';
    assert v[..|v|] == v;
    assert v[|v|..] == [];
    forall i, j | 0 <= i < j < |text| ensures !(text[i] == '.' && text[j] == '.') {
      if j > a {
        assert text[j] == v[j - a - 1];
      } else {
        assert text[i] == text[..a][i];
      }
    }
    if HasDigit(text) {
      var i :| 0 <= i < |text| && IsDigit(text[i]);
      if i > a {
        assert v[i - a - 1] == text[i];
      }
    }
  }

  lemma RatingTwoPoints(text: string, a: nat, b: nat)
    requires IsRatingRun(text)
    requires a == DigitRun(text) && a < |text| && b == DigitRun(text[a + 1..]) && b < |text| - a - 1
    ensures !IsUnsignedFloat(text) && !AtMostOnePoint(text)
  {
    var v := text[a + 1..];
    PartRunPlain(text);
    PartRunPlain(v);
    assert text[a] == '.';
    assert v[b] == text[a + 1 + b] == '.';
    var e := v[b..];
    assert text[a + 1 + b..] == e;
    assert e[0] == '.';
    UnsignedFloatPoint(text, a, b);
  }

  /** The normalised report: the records of the matching lines, then the
      rating summary when the output carries a rating, or the error that
      `float()` raises on it. */
  function Report(output: string): Outcome<seq<Entry>>
  {
    var issues := Collect(SplitLines(output), MatchLine);
    match Search(output, 0, RatingAt)
    case None => Ok(issues)
    case Some((_, text)) =>
      match RatingValue(text)
      case Ok(summary) => Ok(issues + [summary])
      case Raised(fault) => Raised(fault)
  }

  /** The records come first, in line order, and at most one summary
      follows them: none without a rating, and `Summary(text)` for the first
      rating whose text is a float; the output raises exactly when that
      rating text is not a float. */
  lemma ReportShape(output: string)
    ensures Report(output).Ok? ==> Collect(SplitLines(output), MatchLine) <= Report(output).value
    ensures Report(output).Ok? ==> |Report(output).value| <= |Collect(SplitLines(output), MatchLine)| + 1
    ensures Report(output).Raised? <==> Search(output, 0, RatingAt).Some? && !IsFloatText(Search(output, 0, RatingAt).value.1)
    ensures Search(output, 0, RatingAt).None? ==> Report(output) == Ok(Collect(SplitLines(output), MatchLine))
    ensures Search(output, 0, RatingAt).Some? && IsFloatText(Search(output, 0, RatingAt).value.1) ==>
              Report(output) == Ok(Collect(SplitLines(output), MatchLine) + [Summary(Search(output, 0, RatingAt).value.1)])
  {
  }

  /** Any `Your code has been rated at <run>/10` in the output is matched
      with that run, and the search finds a rating there or earlier. */
  lemma RatingFound(s: string, p: nat, t: string)
    requires IsRatingRun(t)
    requires p + |RatingPrefix| + |t| + 3 <= |s| && s[p..p + |RatingPrefix| + |t| + 3] == RatingPrefix + t + "/10"
    ensures RatingAt(s, p) == Some(t)
    ensures Search(s, 0, RatingAt).Some? && Search(s, 0, RatingAt).value.0 <= p
  {
    RatingMatch(s, p, t);
    assert !MissAt(s, p, RatingAt);
  }

  /** The prefix, the run and `/10` at `p` are matched with that run. */
  lemma RatingMatch(s: string, p: nat, t: string)
    requires IsRatingRun(t)
    requires p + |RatingPrefix| + |t| + 3 <= |s| && s[p..p + |RatingPrefix| + |t| + 3] == RatingPrefix + t + "/10"
    ensures RatingAt(s, p) == Some(t)
  {
    var j := p + |RatingPrefix|;
    var e := j + |t|;
    ThreePieces(s, p, RatingPrefix, t, "/10");
    assert s[e] == s[e..e + 3][0] == '/';
    DigitDotEndAt(s, j, e);
  }

  /** Three texts laid end to end at `p` are the three slices there. */
  lemma ThreePieces(s: string, p: nat, a: string, b: string, c: string)
    requires p + |a| + |b| + |c| <= |s| && s[p..p + |a| + |b| + |c|] == a + b + c
    ensures s[p..p + |a|] == a && s[p + |a|..p + |a| + |b|] == b
    ensures s[p + |a| + |b|..p + |a| + |b| + |c|] == c
  {
    var w := a + b + c;
    forall k | 0 <= k < |w| ensures s[p + k] == w[k] {
      assert s[p..p + |w|][k] == s[p + k];
    }
    assert w[..|a|] == a && w[|a|..|a| + |b|] == b && w[|a| + |b|..] == c;
  }

  /** `parse_pylint_output`: the records of the matching lines, in order,
      then the rating summary. */
  method ParseOutput(output: string) returns (r: Outcome<seq<Entry>>)
    ensures r == Report(output)
  {
    var issues := CollectLines(SplitLines(output), MatchLine);
    var rating := Search(output, 0, RatingAt);
    if rating.Some? {
      var summary := RatingValue(rating.value.1);
      if summary.Raised? {
        return Raised(summary.fault);
      }
      issues := issues + [summary.value];
    }
    r := Ok(issues);
  }
}

=== FILE: pytest.dfy ===
/** The pytest result normaliser
    (CodeReview/TestingAndTestCoverage/pytest_runner.py): one record per
    `FAILED`, `PASSED` or `ERROR` line, then the text of the first banner. */
module Pytest {
  import opened Runtime
  import opened Text
  import opened Lines
  import opened Banner

  /** One record of the result. */
  datatype Entry =
    | Failed(test: string, reason: string)
    | Passed(test: string)
    | Errored(test: string)
    | Summary(text: string)

  /** `.*::.* - .*`: a `::`, and a ` - ` starting at or after its end. */
  predicate ColonsThenDash(s: string)
    decreases |s|
  {
    (StartsWith(s, "::") && Contains(s[2..], " - ")) || (s != [] && ColonsThenDash(s[1..]))
  }

  /** A `::` at `i` followed later by ` - ` is enough. */
  lemma {:induction false} ColonsThenDashAt(s: string, i: nat)
    requires i + 2 <= |s| && StartsWith(s[i..], "::") && Contains(s[i + 2..], " - ")
    ensures ColonsThenDash(s)
    decreases i
  {
    if i > 0 {
      assert s[1..][i - 1..] == s[i..];
      assert s[1..][i + 1..] == s[i + 2..];
      ColonsThenDashAt(s[1..], i - 1);
    }
  }

  /** `^FAILED .*::.* - .*` */
  predicate IsFailedLine(line: string) {
    StartsWith(line, "FAILED ") && ColonsThenDash(line[7..])
  }

  /** `^PASSED .*` */
  predicate IsPassedLine(line: string) {
    StartsWith(line, "PASSED ")
  }

  /** `^ERROR .*::.*` */
  predicate IsErrorLine(line: string) {
    StartsWith(line, "ERROR ") && Contains(line[6..], "::")
  }

  /** The record of one line, trying the three patterns in the order
      FAILED, PASSED, ERROR. A FAILED line keeps its record only when
      ` - ` cuts it into exactly two pieces. */
  function Classify(line: string): (r: Option<Entry>)
    ensures r.Some? ==> !r.value.Summary?
    ensures r.Some? && r.value.Failed? ==>
              IsFailedLine(line)
              && var parts := SplitOn(line, " - ");
                 |parts| == 2 && line == parts[0] + " - " + parts[1]
                 && r.value == Failed(Strip(parts[0]), Strip(parts[1]))
    ensures r.Some? && r.value.Passed? ==> IsPassedLine(line) && r.value.test == Strip(line)
    ensures r.Some? && r.value.Errored? ==> IsErrorLine(line) && r.value.test == Strip(line)
    ensures IsFailedLine(line) ==> (r.Some? <==> |SplitOn(line, " - ")| == 2)
    ensures !IsFailedLine(line) ==> (r.Some? <==> IsPassedLine(line) || IsErrorLine(line))
  {
    if IsFailedLine(line) then
      var parts := SplitOn(line, " - ");
      if |parts| == 2 then
        JoinSplitOn(line, " - ");
        assert Join(parts, " - ") == parts[0] + " - " + Join(parts[1..], " - ");
        Some(Failed(Strip(parts[0]), Strip(parts[1])))
      else None
    else if IsPassedLine(line) then Some(Passed(Strip(line)))
    else if IsErrorLine(line) then Some(Errored(Strip(line)))
    else None
  }

  /** A `FAILED` line with one ` - ` after its `::` gives the stripped test
      id and the stripped reason. */
  lemma FailedRecord(x: string, y: string)
    requires StartsWith(x, "FAILED ") && Contains(x[7..], "::")
    requires !Contains(x + " -", " - ") && !Contains(y, " - ")
    ensures Classify(x + " - " + y) == Some(Failed(Strip(x), Strip(y)))
  {
    FailedShape(x, y);
    SplitTwo(x, y);
  }

  /** One separator, with none before or after it: two pieces. */
  lemma SplitTwo(x: string, y: string)
    requires !Contains(x + " -", " - ") && !Contains(y, " - ")
    ensures SplitOn(x + " - " + y, " - ") == [x, y]
  {
    assert " - "[..2] == " -";
    SplitOnFirst(x, y, " - ");
    SplitOnNone(y, " - ");
  }

  /** A `FAILED` line with a second ` - ` after the first is dropped. */
  lemma ExtraSeparatorDropped(x: string, y: string, z: string)
    requires StartsWith(x, "FAILED ") && Contains(x[7..], "::")
    requires !Contains(x + " -", " - ") && !Contains(y + " -", " - ")
    ensures Classify(x + " - " + y + " - " + z) == None
  {
    var line := x + " - " + y + " - " + z;
    assert line == x + " - " + (y + " - " + z);
    FailedShape(x, y + " - " + z);
    assert " - "[..2] == " -";
    SplitOnFirst(x, y + " - " + z, " - ");
    SplitOnFirst(y, z, " - ");
  }

  /** A `FAILED ` prefix, a `::`, then ` - ` makes a FAILED-shaped line. */
  lemma FailedShape(x: string, y: string)
    requires StartsWith(x, "FAILED ") && Contains(x[7..], "::")
    ensures IsFailedLine(x + " - " + y)
  {
    var line := x + " - " + y;
    var t := x[7..];
    var i := ContainsWitness(t, "::");
    assert line[7..] == t + " - " + y;
    assert (t + " - " + y)[i..] == t[i..] + " - " + y;
    assert (t + " - " + y)[i + 2..] == t[i + 2..] + " - " + y;
    ContainsMiddle(t[i + 2..], " - ", y);
    ColonsThenDashAt(line[7..], i);
  }

  /** ` ==` at `m`: the closing `==+` after the group. */
  predicate CloseAt(s: string, m: nat) {
    m + 3 <= |s| && s[m] == ' ' && s[m + 1] == '=' && s[m + 2] == '='
  }

  /** `==+ (.+) ==+` at `i`: the index `e` of the space after the opening
      run and the index `m` of the closing ` ==`, so that the group is
      `s[e + 1..m]`. The greedy group ends at the last closing on the line. */
  function SummaryAt(s: string, i: nat): (r: Option<(nat, nat)>)
    ensures r.Some? ==> Open(s, i) == Some(r.value.0)
    ensures r.Some? ==> var (e, m) := r.value;
                        e + 2 <= m && CloseAt(s, m) && m <= LineEnd(s, e + 1)
                        && forall k :: m < k <= LineEnd(s, e + 1) ==> Rejects(s, k, CloseAt)
  {
    match Open(s, i)
    case None => None
    case Some(e) =>
      var l := LineEnd(s, e + 1);
      match Last(s, e + 2, l + 1, CloseAt)
      case None => None
      case Some(m) => Some((e, m))
  }

  /** The stripped group of the first banner in the output, if any. */
  function SummaryText(output: string): (r: Option<string>)
  {
    match Search(output, 0, SummaryAt)
    case None => None
    case Some((_, (e, m))) => Some(Strip(output[e + 1..m]))
  }

  /** The group holds no line break: the banner lies on one line. */
  lemma SummaryOneLine(output: string)
    requires Search(output, 0, SummaryAt).Some?
    ensures var (e, m) := Search(output, 0, SummaryAt).value.1;
            e < m && forall k :: e < k < m ==> output[k] != '\n'
  {
  }

  /** Any banner in the output is found, at its position or earlier, and
      the group of a banner found at its position reaches at least as far as
      any closing on its line. */
  lemma SummaryFound(s: string, i: nat, e: nat, m: nat)
    requires i + 2 <= e < |s| && s[e] == ' ' && forall k :: i <= k < e ==> s[k] == '='
    requires e + 2 <= m && CloseAt(s, m) && forall k :: e < k < m ==> s[k] != '\n'
    ensures SummaryAt(s, i).Some? && SummaryAt(s, i).value.0 == e && SummaryAt(s, i).value.1 >= m
    ensures Search(s, 0, SummaryAt).Some? && Search(s, 0, SummaryAt).value.0 <= i
  {
    OpenAt(s, i, e);
    var l := LineEnd(s, e + 1);
    assert m <= l;
    assert !Rejects(s, m, CloseAt);
    var r := Search(s, 0, SummaryAt);
    if r.None? || r.value.0 > i {
      assert MissAt(s, i, SummaryAt);
    }
  }

  /** The summary record, after the test records. */
  function SummaryEntries(output: string): seq<Entry>
  {
    match SummaryText(output)
    case None => []
    case Some(t) => [Summary(t)]
  }

  /** `parse_pytest_output` */
  function Report(output: string): seq<Entry>
  {
    Collect(SplitLines(output), Classify) + SummaryEntries(output)
  }

  /** Every record but the last is a test record, and only the last can be
      the summary: one record per accepted line, in line order, then at most
      one summary. */
  lemma SummaryLast(output: string)
    ensures var r := Report(output);
            forall k :: 0 <= k < |r| - 1 ==> !r[k].Summary?
    ensures var lines := SplitLines(output);
            var tests := Collect(lines, Classify);
            |tests| == |Accepted(lines, Classify)|
            && forall j :: 0 <= j < |tests| ==> tests[j] == Classify(lines[Accepted(lines, Classify)[j]]).value
  {
    var lines := SplitLines(output);
    CollectAccepted(lines, Classify);
  }

  /** `parse_pytest_output`: the classifying loop over the lines, then the
      optional summary. */
  method ParseOutput(output: string) returns (results: seq<Entry>)
    ensures results == Report(output)
  {
    var lines := SplitLines(output);
    results := [];
    var i := 0;
    while i < |lines|
      invariant 0 <= i <= |lines|
      invariant results == Collect(lines[..i], Classify)
    {
      var line := lines[i];
      CollectStep(lines, i, Classify);
      if IsFailedLine(line) {
        var parts := SplitOn(line, " - ");
        if |parts| == 2 {
          results := results + [Failed(Strip(parts[0]), Strip(parts[1]))];
        }
      } else if StartsWith(line, "PASSED ") {
        results := results + [Passed(Strip(line))];
      } else if StartsWith(line, "ERROR ") && Contains(line[6..], "::") {
        results := results + [Errored(Strip(line))];
      }
      i := i + 1;
    }
    assert lines[..i] == lines;
    match SummaryText(output) {
      case Some(t) =>
        results := results + [Summary(t)];
      case None =>
    }
  }
}

=== FILE: radon.dfy ===
/** Radon's cyclomatic-complexity and maintainability-index reports, and the
    upward project-root search
    (CodeReview/ClarityAndMaintainability/radon_runner.py). */
module Radon {
  import opened Runtime
  import opened Text
  import opened Numbers
  import opened JsonValue
  import opened Lines
  import opened Repr

  // ---------------------------------------------------------------------
  // Cyclomatic complexity

  /** One record of the complexity report: the decoding error, or one block. */
  datatype CcRecord =
    | CcError(error: string)
    | CcBlock(file: string, kind: Json, name: Json, line: Json, complexity: Json, rank: Json)

  /** The record of one block; a block that is not a dict has no `get`. */
  function BlockRecord(file: string, block: Json): (r: Outcome<CcRecord>)
    ensures r.Ok? <==> block.JObject?
    ensures r.Raised? ==> r.fault == AttributeError(TypeName(block), "get")
    ensures r.Ok? ==> r.value.CcBlock? && r.value.file == file
  {
    match block
    case JObject(ms) =>
      Ok(CcBlock(file, Field(ms, "type"), Field(ms, "name"), Field(ms, "lineno"),
                 Field(ms, "complexity"), Field(ms, "rank")))
    case _ => Raised(AttributeError(TypeName(block), "get"))
  }

  /** Each field of a block's record is what `block.get` returns for its key:
      `type`, `name`, `lineno`, `complexity` and `rank`, `None` when absent. */
  lemma BlockFields(file: string, block: Json)
    requires block.JObject?
    ensures var r := BlockRecord(file, block).value;
            Ok(r.kind) == GetOr(block, "type", JNull)
            && Ok(r.name) == GetOr(block, "name", JNull)
            && Ok(r.line) == GetOr(block, "lineno", JNull)
            && Ok(r.complexity) == GetOr(block, "complexity", JNull)
            && Ok(r.rank) == GetOr(block, "rank", JNull)
  {
  }

  /** Makes the record of one block of a file. */
  type Recorder = (string, Json) -> Outcome<CcRecord>

  /** The records `rec` makes of the blocks of one file, in list order; the
      first block it raises on raises. */
  function Records(file: string, blocks: seq<Json>, rec: Recorder): Outcome<seq<CcRecord>>
  {
    if blocks == [] then Ok([])
    else
      var n := |blocks| - 1;
      match Records(file, blocks[..n], rec)
      case Raised(f) => Raised(f)
      case Ok(rs) =>
        match rec(file, blocks[n])
        case Raised(f) => Raised(f)
        case Ok(b) => Ok(rs + [b])
  }

  /** The records of the blocks of one file; the first block that is not a
      dict raises. */
  function FileRecords(file: string, blocks: seq<Json>): Outcome<seq<CcRecord>>
  {
    Records(file, blocks, BlockRecord)
  }

  /** The blocks all succeed exactly when `rec` succeeds on each. */
  lemma {:induction false} RecordsOk(file: string, blocks: seq<Json>, rec: Recorder)
    ensures Records(file, blocks, rec).Ok? <==> forall k :: 0 <= k < |blocks| ==> rec(file, blocks[k]).Ok?
  {
    if blocks != [] {
      var n := |blocks| - 1;
      var init := blocks[..n];
      RecordsOk(file, init, rec);
      assert forall k :: 0 <= k < n ==> init[k] == blocks[k];
    }
  }

  /** When they succeed there is one record per block, in list order. */
  lemma {:induction false} RecordsEach(file: string, blocks: seq<Json>, rec: Recorder)
    requires Records(file, blocks, rec).Ok?
    ensures var rs := Records(file, blocks, rec).value;
            |rs| == |blocks| && forall k :: 0 <= k < |blocks| ==> Ok(rs[k]) == rec(file, blocks[k])
  {
    if blocks != [] {
      var n := |blocks| - 1;
      var init := blocks[..n];
      var pre := Records(file, init, rec);
      RecordsEach(file, init, rec);
      var rs := pre.value + [rec(file, blocks[n]).value];
      assert Records(file, blocks, rec) == Ok(rs);
      forall k | 0 <= k < |blocks|
        ensures Ok(rs[k]) == rec(file, blocks[k])
      {
        if k < n {
          assert rs[k] == pre.value[k] && init[k] == blocks[k];
        }
      }
    }
  }

  /** A file's blocks all succeed exactly when they are all dicts. */
  lemma FileRecordsOk(file: string, blocks: seq<Json>)
    ensures FileRecords(file, blocks).Ok? <==> BlockList(blocks)
  {
    RecordsOk(file, blocks, BlockRecord);
  }

  /** When they succeed there is one record per block, in list order, each
      the block's own record. */
  lemma FileRecordsEach(file: string, blocks: seq<Json>)
    requires FileRecords(file, blocks).Ok?
    ensures var rs := FileRecords(file, blocks).value;
            |rs| == |blocks| && forall k :: 0 <= k < |blocks| ==> Ok(rs[k]) == BlockRecord(file, blocks[k])
  {
    RecordsEach(file, blocks, BlockRecord);
  }

  /** The records of the files `members` lists, files in key order and blocks
      in list order; a value that is not iterable raises. */
  function FilesRecords(members: seq<(string, Json)>): Outcome<seq<CcRecord>>
  {
    if members == [] then Ok([])
    else
      var n := |members| - 1;
      match FilesRecords(members[..n])
      case Raised(f) => Raised(f)
      case Ok(pre) =>
        match Elements(members[n].1)
        case Raised(f) => Raised(f)
        case Ok(blocks) =>
          match FileRecords(members[n].0, blocks)
          case Raised(f) => Raised(f)
          case Ok(rs) => Ok(pre + rs)
  }

  /** `parse_radon_cc_output` on the decoded output. */
  function CcReport(output: Decoded): (r: Outcome<seq<CcRecord>>)
    ensures output.Undecodable? ==> r == Ok([CcError("Invalid Radon CC JSON output")])
    ensures output.Decoded? && !output.value.JObject? ==> r == Raised(AttributeError(TypeName(output.value), "items"))
  {
    match output
    case Undecodable(_) => Ok([CcError("Invalid Radon CC JSON output")])
    case Decoded(data) =>
      if data.JObject? then FilesRecords(data.members)
      else Raised(AttributeError(TypeName(data), "items"))
  }

  /** A raised exception stays raised however many more blocks follow. */
  lemma {:induction false} RecordsRaised(file: string, blocks: seq<Json>, m: nat, f: Fault, rec: Recorder)
    requires m <= |blocks| && Records(file, blocks[..m], rec) == Raised(f)
    ensures Records(file, blocks, rec) == Raised(f)
    decreases |blocks| - m
  {
    if m < |blocks| {
      var n := m + 1;
      assert blocks[..n][..m] == blocks[..m];
      RecordsRaised(file, blocks, n, f, rec);
    } else {
      assert blocks[..m] == blocks;
    }
  }

  /** Likewise for the files. */
  lemma {:induction false} FilesRecordsRaised(members: seq<(string, Json)>, m: nat, f: Fault)
    requires m <= |members| && FilesRecords(members[..m]) == Raised(f)
    ensures FilesRecords(members) == Raised(f)
    decreases |members| - m
  {
    if m < |members| {
      assert members[..m + 1][..m] == members[..m];
      FilesRecordsRaised(members, m + 1, f);
    } else {
      assert members[..m] == members;
    }
  }

  /** Whether every value is a list of dicts, the shape radon writes. */
  predicate WellFormedCc(members: seq<(string, Json)>) {
    forall i :: 0 <= i < |members| ==> members[i].1.JArray? && BlockList(members[i].1.items)
  }

  predicate BlockList(items: seq<Json>) {
    forall k :: 0 <= k < |items| ==> items[k].JObject?
  }

  /** The total number of blocks listed. */
  function BlockCount(members: seq<(string, Json)>): nat
  {
    if members == [] then 0
    else
      var n := |members| - 1;
      BlockCount(members[..n]) + (if members[n].1.JArray? then |members[n].1.items| else 0)
  }

  /** On well-formed output nothing raises and there is one record per block. */
  lemma {:induction false} CcCount(members: seq<(string, Json)>)
    requires WellFormedCc(members)
    ensures FilesRecords(members).Ok?
    ensures |FilesRecords(members).value| == BlockCount(members)
  {
    if members != [] {
      var n := |members| - 1;
      assert WellFormedCc(members[..n]) by {
        forall i | 0 <= i < n ensures members[..n][i] == members[i] { }
      }
      CcCount(members[..n]);
      FileRecordsOk(members[n].0, members[n].1.items);
      FileRecordsEach(members[n].0, members[n].1.items);
    }
  }

  /** Files in key order: the records of `a + b` are those of `a` followed by
      those of `b`. */
  lemma {:induction false} CcAppend(a: seq<(string, Json)>, b: seq<(string, Json)>)
    requires FilesRecords(a).Ok? && FilesRecords(b).Ok?
    ensures FilesRecords(a + b) == Ok(FilesRecords(a).value + FilesRecords(b).value)
    decreases |b|
  {
    if b == [] {
      assert a + b == a;
      assert FilesRecords(a).value + [] == FilesRecords(a).value;
    } else {
      var n := |b| - 1;
      var rs := FilesLast(b);
      CcAppend(a, b[..n]);
      AppendStep(a, b, rs);
      AppendAssoc(FilesRecords(a).value, FilesRecords(b[..n]).value, rs);
    }
  }

  /** Appending one more file to `a + b[..n]`. */
  lemma AppendStep(a: seq<(string, Json)>, b: seq<(string, Json)>, rs: seq<CcRecord>)
    requires b != [] && FilesRecords(a + b[..|b| - 1]).Ok?
    requires Elements(b[|b| - 1].1).Ok?
    requires FileRecords(b[|b| - 1].0, Elements(b[|b| - 1].1).value) == Ok(rs)
    ensures FilesRecords(a + b) == Ok(FilesRecords(a + b[..|b| - 1]).value + rs)
  {
    var c := a + b;
    assert c[..|c| - 1] == a + b[..|b| - 1];
    assert c[|c| - 1] == b[|b| - 1];
    FilesExtend(c, rs);
  }

  lemma AppendAssoc<T>(x: seq<T>, y: seq<T>, z: seq<T>)
    ensures x + y + z == x + (y + z)
  {
  }

  /** The records of a non-empty file list end with those of its last file. */
  lemma FilesLast(ms: seq<(string, Json)>) returns (rs: seq<CcRecord>)
    requires ms != [] && FilesRecords(ms).Ok?
    ensures FilesRecords(ms[..|ms| - 1]).Ok?
    ensures Elements(ms[|ms| - 1].1).Ok?
    ensures FileRecords(ms[|ms| - 1].0, Elements(ms[|ms| - 1].1).value) == Ok(rs)
    ensures FilesRecords(ms).value == FilesRecords(ms[..|ms| - 1]).value + rs
  {
    rs := FileRecords(ms[|ms| - 1].0, Elements(ms[|ms| - 1].1).value).value;
  }

  /** A file list whose prefix and last file both succeed succeeds. */
  lemma FilesExtend(ms: seq<(string, Json)>, rs: seq<CcRecord>)
    requires ms != [] && FilesRecords(ms[..|ms| - 1]).Ok?
    requires Elements(ms[|ms| - 1].1).Ok?
    requires FileRecords(ms[|ms| - 1].0, Elements(ms[|ms| - 1].1).value) == Ok(rs)
    ensures FilesRecords(ms) == Ok(FilesRecords(ms[..|ms| - 1]).value + rs)
  {
  }

  /** One file's records are its blocks' records, each carrying the file's
      key. */
  lemma CcOneFile(file: string, items: seq<Json>)
    requires BlockList(items)
    ensures FilesRecords([(file, JArray(items))]) == FileRecords(file, items)
    ensures FileRecords(file, items).Ok? && |FileRecords(file, items).value| == |items|
    ensures forall k :: 0 <= k < |items| ==>
              FileRecords(file, items).value[k].CcBlock? && FileRecords(file, items).value[k].file == file
  {
    assert [(file, JArray(items))][..0] == [];
    FileRecordsOk(file, items);
    FileRecordsEach(file, items);
    assert [] + FileRecords(file, items).value == FileRecords(file, items).value;
  }

  /** The inner loop of `parse_radon_cc_output`: the records of one file's
      blocks; the first block that is not a dict raises. */
  method FileBlocks(file: string, blocks: seq<Json>) returns (r: Outcome<seq<CcRecord>>)
    ensures r == FileRecords(file, blocks)
  {
    var rs: seq<CcRecord> := [];
    var j := 0;
    while j < |blocks|
      invariant 0 <= j <= |blocks|
      invariant Records(file, blocks[..j], BlockRecord) == Ok(rs)
    {
      var rec := BlockRecord(file, blocks[j]);
      assert blocks[..j + 1][..j] == blocks[..j];
      if rec.Raised? {
        RecordsRaised(file, blocks, j + 1, rec.fault, BlockRecord);
        return Raised(rec.fault);
      }
      rs := rs + [rec.value];
      j := j + 1;
    }
    assert blocks[..j] == blocks;
    r := Ok(rs);
  }

  /** `parse_radon_cc_output`: every block of every file appends its record. */
  method ParseCcOutput(output: Decoded) returns (r: Outcome<seq<CcRecord>>)
    ensures r == CcReport(output)
  {
    if output.Undecodable? {
      return Ok([CcError("Invalid Radon CC JSON output")]);
    }
    var data := output.value;
    if !data.JObject? {
      return Raised(AttributeError(TypeName(data), "items"));
    }
    var members := data.members;
    var results: seq<CcRecord> := [];
    var i := 0;
    while i < |members|
      invariant 0 <= i <= |members|
      invariant FilesRecords(members[..i]) == Ok(results)
    {
      var file := members[i].0;
      var iter := Elements(members[i].1);
      assert members[..i + 1][..i] == members[..i];
      if iter.Raised? {
        FilesRecordsRaised(members, i + 1, iter.fault);
        return Raised(iter.fault);
      }
      var recs := FileBlocks(file, iter.value);
      if recs.Raised? {
        FilesRecordsRaised(members, i + 1, recs.fault);
        return Raised(recs.fault);
      }
      results := results + recs.value;
      i := i + 1;
    }
    assert members[..i] == members;
    r := Ok(results);
  }

  // ---------------------------------------------------------------------
  // Maintainability index

  /** The maintainability entry for the caller's file: the index and rank
      found (the number kept as the JSON value `float()` accepted), or an
      error text. Either way `file` is the caller's path. */
  datatype MiResult =
    | MiFound(file: string, mi: Json, rank: Json)
    | MiError(file: string, error: string)

  /** `os.path.normcase(os.path.abspath(p)).replace("\\", "/").strip()`, with
      `normcase∘abspath` given as `absNorm`. */
  function NormPath(absNorm: string -> string, p: string): string
  {
    Strip(ReplaceChar(absNorm(p), '\\', '/'))
  }

  /** What the value stored under a matching key yields: an index and rank,
      nothing, or a raise. */
  type Reader = Json -> Outcome<Option<(Json, Json)>>

  /** `NormPath` with `normcase∘abspath` fixed: how every key is compared. */
  function KeyNorm(absNorm: string -> string): string -> string
  {
    p => NormPath(absNorm, p)
  }

  /** A decoded number that is an `int` (no fraction, no exponent, not one
      of the constants) whose value `float()` cannot hold. */
  predicate IntTooLarge(t: string) {
    !IsFloatNumber(t) && IntOf(t).Some? && FloatOverflows(IntOf(t).value)
  }

  /** `float(x)` for a JSON value: numbers convert unless they are an
      integer too large for a double, which raises `OverflowError`; booleans
      convert; text converts when it spells a decimal; anything else
      raises. */
  function ToFloat(x: Json): (r: Outcome<Json>)
    ensures r.Ok? ==> r.value == x
    ensures r.Ok? <==> (x.JNumber? && !IntTooLarge(x.text)) || x.JBool? || (x.JString? && IsFloatText(x.str))
    ensures x.JNumber? && IntTooLarge(x.text) ==> r == Raised(TooLargeForFloat)
  {
    match x
    case JNumber(t) =>
      if IntTooLarge(t) then Raised(TooLargeForFloat) else Ok(x)
    case JBool(_) => Ok(x)
    case JString(t) =>
      if IsFloatText(t) then Ok(x)
      else Raised(NotFloat(t))
    case _ => Raised(TypeError("float() argument must be a string or a real number, not '" + TypeName(x) + "'"))
  }

  /** Digits, and digits after `-`, hold no point, no exponent and no
      letter of the constants `NaN` and `Infinity`. */
  lemma DigitsNotFloatNumber(d: string)
    requires d != [] && AllDigits(d)
    ensures !IsFloatNumber(d) && !IsFloatNumber("-" + d)
  {
    var t := "-" + d;
    forall k | 0 <= k < |t|
      ensures t[k] == '-' || IsDigit(t[k])
    {
      if k > 0 {
        assert t[k] == d[k - 1];
      }
    }
    assert t[1] == d[0];
  }

  /** A JSON integer of at most 308 digits converts, of either sign; one of
      310 digits or more (JSON writes no leading `0`) raises
      `OverflowError`. */
  lemma ToFloatDigits(d: string)
    requires d != [] && AllDigits(d)
    ensures |d| <= 308 ==> ToFloat(JNumber(d)) == Ok(JNumber(d)) && ToFloat(JNumber("-" + d)) == Ok(JNumber("-" + d))
    ensures |d| >= 310 && d[0] != '0' ==>
              ToFloat(JNumber(d)) == Raised(TooLargeForFloat) && ToFloat(JNumber("-" + d)) == Raised(TooLargeForFloat)
  {
    IntOfRun(d);
    IntOfNegRun(d);
    DigitsNotFloatNumber(d);
    DigitsToFloat(d);
  }

  /** `([A-F])\s*\(([\d.]+)\)` anchored at `p`: the grade and the score text. */
  function GradeAt(s: string, p: nat): (r: Option<(char, string)>)
    ensures r.Some? ==> p < |s| && s[p] == r.value.0 && 'A' <= r.value.0 <= 'F'
    ensures r.Some? ==> r.value.1 != [] && forall k :: 0 <= k < |r.value.1| ==> IsDigit(r.value.1[k]) || r.value.1[k] == '.'
  {
    if p >= |s| || !('A' <= s[p] <= 'F') then None
    else
      var q := SpaceEnd(s, p + 1);
      if q == |s| || s[q] != '(' then None
      else
        var e := DigitDotEnd(s, q + 1);
        if e == q + 1 || e == |s| || s[e] != ')' then None
        else Some((s[p], s[q + 1..e]))
  }

  /** What the value of a matching key yields: a dict gives its `mi` (default
      0) and `rank` (default `N/A`); a non-empty list whose first string holds
      a grade and score gives those; any other value yields nothing. */
  function MiEntry(values: Json): (r: Outcome<Option<(Json, Json)>>)
    ensures values.JObject? ==> r == (match ToFloat(Field2(values.members, "mi", JNumber("0")))
                                     case Ok(mi) => Ok(Some((mi, Field2(values.members, "rank", JString("N/A")))))
                                     case Raised(f) => Raised(f))
    ensures !values.JObject? && !(values.JArray? && values.items != []) ==> r == Ok(None)
    ensures r.Ok? && r.value.Some? && values.JArray? ==>
              values.items[0].JString? && Search(values.items[0].str, 0, GradeAt).Some?
              && r.value.value.1 == JString([Search(values.items[0].str, 0, GradeAt).value.1.0])
  {
    match values
    case JObject(ms) =>
      (match ToFloat(Field2(ms, "mi", JNumber("0")))
       case Raised(f) => Raised(f)
       case Ok(mi) => Ok(Some((mi, Field2(ms, "rank", JString("N/A"))))))
    case JArray(items) =>
      if items == [] then Ok(None)
      else if !items[0].JString? then
        Raised(TypeError("expected string or bytes-like object, got '" + TypeName(items[0]) + "'"))
      else
        (match Search(items[0].str, 0, GradeAt)
         case None => Ok(None)
         case Some((_, (grade, score))) =>
           match ToFloat(JString(score))
           case Raised(f) => Raised(f)
           case Ok(mi) => Ok(Some((mi, JString([grade])))))
    case _ => Ok(None)
  }

  /** `values.get(key, default)` on a dict. */
  function Field2(members: seq<(string, Json)>, key: string, default: Json): Json
  {
    match Get(members, key)
    case Some(v) => v
    case None => default
  }

  /** The key at `k` normalises to the target and its value yields `x`. */
  predicate FoundAt(members: seq<(string, Json)>, k: nat, target: string, norm: string -> string,
                    entry: Reader, x: (Json, Json))
    requires k < |members|
  {
    norm(members[k].0) == target && entry(members[k].1) == Ok(Some(x))
  }

  /** The key at `k` is passed over: it does not normalise to the target, or
      its value yields nothing. */
  predicate PassedOver(members: seq<(string, Json)>, k: nat, target: string, norm: string -> string, entry: Reader)
    requires k < |members|
  {
    norm(members[k].0) != target || entry(members[k].1) == Ok(None)
  }

  /** The loop over the keys from index `i`: the first key that normalises to
      the target and whose value yields an index and rank; a raise ends the
      loop. */
  function MiScan(members: seq<(string, Json)>, i: nat, target: string, norm: string -> string, entry: Reader)
    : Outcome<Option<(Json, Json)>>
    requires i <= |members|
    decreases |members| - i
  {
    if i == |members| then Ok(None)
    else if norm(members[i].0) != target then MiScan(members, i + 1, target, norm, entry)
    else
      match entry(members[i].1)
      case Raised(f) => Raised(f)
      case Ok(Some(x)) => Ok(Some(x))
      case Ok(None) => MiScan(members, i + 1, target, norm, entry)
  }

  /** The search finds nothing exactly when every key from `i` on is
      passed over. */
  lemma {:induction false} MiScanNone(members: seq<(string, Json)>, i: nat, target: string, norm: string -> string, entry: Reader)
    requires i <= |members|
    ensures MiScan(members, i, target, norm, entry) == Ok(None)
            <==> forall j :: i <= j < |members| ==> PassedOver(members, j, target, norm, entry)
    decreases |members| - i
  {
    if i < |members| {
      MiScanNone(members, i + 1, target, norm, entry);
      if PassedOver(members, i, target, norm, entry) {
        MiSkip(members, i, target, norm, entry);
      } else {
        MiHit(members, i, target, norm, entry);
      }
    }
  }

  /** A found entry comes from the first key that normalises to the target
      and yields something; every earlier key is passed over. */
  lemma {:induction false} MiScanFound(members: seq<(string, Json)>, i: nat, target: string, norm: string -> string, entry: Reader)
    returns (k: nat)
    requires i <= |members|
    requires MiScan(members, i, target, norm, entry).Ok? && MiScan(members, i, target, norm, entry).value.Some?
    ensures i <= k < |members| && FoundAt(members, k, target, norm, entry, MiScan(members, i, target, norm, entry).value.value)
    ensures forall j :: i <= j < k ==> PassedOver(members, j, target, norm, entry)
    decreases |members| - i
  {
    if PassedOver(members, i, target, norm, entry) {
      MiSkip(members, i, target, norm, entry);
      k := MiScanFound(members, i + 1, target, norm, entry);
    } else {
      MiHit(members, i, target, norm, entry);
      k := i;
    }
  }

  /** Python's `repr` of a list of strings: each element's `repr`, joined by
      `, ` between brackets. */
  function ListRepr(xs: seq<string>): string
  {
    "[" + Join(seq(|xs|, k requires 0 <= k < |xs| => ReprStr(xs[k])), ", ") + "]"
  }

  /** The normalised form of every key, in key order. */
  function NormKeys(members: seq<(string, Json)>, absNorm: string -> string): (r: seq<string>)
    ensures |r| == |members|
    ensures forall k :: 0 <= k < |members| ==> r[k] == NormPath(absNorm, members[k].0)
  {
    seq(|members|, k requires 0 <= k < |members| => NormPath(absNorm, members[k].0))
  }

  /** The error text when no key matches. */
  function NotFoundText(target: string, keys: seq<string>): string
  {
    "Matching path not found: " + target + " not in " + ListRepr(keys)
  }

  /** The error text for an exception caught while parsing. */
  function ParseErrorText(detail: string): string
  {
    "Could not parse Radon MI output: " + detail
  }

  /** `parse_radon_mi_output` on the decoded output, the caller's path and
      `normcase∘abspath`. */
  function MiReport(output: Decoded, filePath: string, absNorm: string -> string): (r: MiResult)
    ensures r.file == filePath
  {
    match output
    case Undecodable(reason) => MiError(filePath, ParseErrorText(reason))
    case Decoded(data) =>
      if !data.JObject? then MiError(filePath, ParseErrorText(FaultText(AttributeError(TypeName(data), "items"))))
      else
        var target := NormPath(absNorm, filePath);
        match MiScan(data.members, 0, target, KeyNorm(absNorm), MiEntry)
        case Raised(f) => MiError(filePath, ParseErrorText(FaultText(f)))
        case Ok(Some((mi, rank))) => MiFound(filePath, mi, rank)
        case Ok(None) => MiError(filePath, NotFoundText(target, NormKeys(data.members, absNorm)))
  }

  /** A found entry comes from a key that normalises to the caller's path,
      with every earlier key passed over. */
  lemma MiFoundSound(output: Decoded, filePath: string, absNorm: string -> string)
    requires MiReport(output, filePath, absNorm).MiFound?
    ensures output.Decoded? && output.value.JObject?
    ensures var ms := output.value.members;
            var r := MiReport(output, filePath, absNorm);
            exists k :: 0 <= k < |ms| && FoundAt(ms, k, NormPath(absNorm, filePath), KeyNorm(absNorm), MiEntry, (r.mi, r.rank))
  {
    var k := MiScanFound(output.value.members, 0, NormPath(absNorm, filePath), KeyNorm(absNorm), MiEntry);
  }

  /** The match is reflexive: a dict entry stored under the caller's own path
      (the first key) is found, with its rank or `N/A`. */
  lemma MiSelf(filePath: string, values: seq<(string, Json)>, rest: seq<(string, Json)>, absNorm: string -> string)
    requires ToFloat(Field2(values, "mi", JNumber("0"))).Ok?
    ensures MiReport(Decoded(JObject([(filePath, JObject(values))] + rest)), filePath, absNorm)
         == MiFound(filePath, Field2(values, "mi", JNumber("0")), Field2(values, "rank", JString("N/A")))
  {
    var members := [(filePath, JObject(values))] + rest;
    assert members[0] == (filePath, JObject(values));
    MiHit(members, 0, NormPath(absNorm, filePath), KeyNorm(absNorm), MiEntry);
  }

  /** An `mi` too large for a double, stored under the target's own key,
      is caught by the handler: the report is the parse error carrying the
      `OverflowError` text. */
  lemma MiOverflow(filePath: string, values: seq<(string, Json)>, rest: seq<(string, Json)>, absNorm: string -> string)
    requires ToFloat(Field2(values, "mi", JNumber("0"))).Raised?
    ensures MiReport(Decoded(JObject([(filePath, JObject(values))] + rest)), filePath, absNorm)
         == MiError(filePath, ParseErrorText(FaultText(ToFloat(Field2(values, "mi", JNumber("0"))).fault)))
  {
    var members := [(filePath, JObject(values))] + rest;
    assert members[0] == (filePath, JObject(values));
    MiHit(members, 0, NormPath(absNorm, filePath), KeyNorm(absNorm), MiEntry);
  }

  /** `json.loads` decodes `NaN` to a float, so output that is just `NaN`
      fails on `items` as a `float`. */
  lemma ConstantOutput(filePath: string, absNorm: string -> string)
    ensures MiReport(Decoded(JNumber("NaN")), filePath, absNorm)
         == MiError(filePath, ParseErrorText(FaultText(AttributeError("float", "items"))))
  {
    NumberTypes();
  }

  /** A key passed over does not end the search: the scan goes on to the
      next key. */
  lemma MiSkip(members: seq<(string, Json)>, i: nat, target: string, norm: string -> string, entry: Reader)
    requires i < |members| && PassedOver(members, i, target, norm, entry)
    ensures MiScan(members, i, target, norm, entry) == MiScan(members, i + 1, target, norm, entry)
  {
  }

  /** A key that normalises to the target and yields something, or raises,
      ends the search with what its value yields. */
  lemma MiHit(members: seq<(string, Json)>, i: nat, target: string, norm: string -> string, entry: Reader)
    requires i < |members| && !PassedOver(members, i, target, norm, entry)
    ensures MiScan(members, i, target, norm, entry) == entry(members[i].1)
  {
  }

  /** When nothing matches, the error names the normalised target and holds
      the `repr` of every normalised key. */
  lemma MiNotFound(output: Decoded, filePath: string, absNorm: string -> string)
    requires output.Decoded? && output.value.JObject?
    requires MiScan(output.value.members, 0, NormPath(absNorm, filePath), KeyNorm(absNorm), MiEntry) == Ok(None)
    ensures MiReport(output, filePath, absNorm).MiError?
    ensures Contains(MiReport(output, filePath, absNorm).error, NormPath(absNorm, filePath))
    ensures forall k :: 0 <= k < |output.value.members| ==>
              Contains(MiReport(output, filePath, absNorm).error, ReprStr(NormPath(absNorm, output.value.members[k].0)))
  {
    var keys := NormKeys(output.value.members, absNorm);
    NotFoundQuotes(NormPath(absNorm, filePath), keys);
  }

  /** The not-found text names the target and holds the `repr` of every
      key. */
  lemma NotFoundQuotes(target: string, keys: seq<string>)
    ensures Contains(NotFoundText(target, keys), target)
    ensures forall k :: 0 <= k < |keys| ==> Contains(NotFoundText(target, keys), ReprStr(keys[k]))
  {
    var text := NotFoundText(target, keys);
    ContainsMiddle("Matching path not found: ", target, " not in " + ListRepr(keys));
    assert text == "Matching path not found: " + target + (" not in " + ListRepr(keys));
    forall k | 0 <= k < |keys|
      ensures Contains(text, ReprStr(keys[k]))
    {
      QuotedInRepr(keys, k);
      ContainsSuffix("Matching path not found: " + target + " not in ", ListRepr(keys), ReprStr(keys[k]));
    }
  }

  /** The list repr holds the repr of every element. */
  lemma QuotedInRepr(keys: seq<string>, k: nat)
    requires k < |keys|
    ensures Contains(ListRepr(keys), ReprStr(keys[k]))
  {
    var quoted := seq(|keys|, j requires 0 <= j < |keys| => ReprStr(keys[j]));
    JoinContains(quoted, ", ", k);
    ContainsSuffix("[", Join(quoted, ", "), quoted[k]);
    ContainsPrefix("[" + Join(quoted, ", "), "]", quoted[k]);
  }

  /** `parse_radon_mi_output`: scan the keys in order and return on the first
      matching key whose value yields an index. */
  method ParseMiOutput(output: Decoded, filePath: string, absNorm: string -> string) returns (r: MiResult)
    ensures r == MiReport(output, filePath, absNorm)
  {
    if output.Undecodable? {
      return MiError(filePath, ParseErrorText(output.reason));
    }
    var data := output.value;
    if !data.JObject? {
      return MiError(filePath, ParseErrorText(FaultText(AttributeError(TypeName(data), "items"))));
    }
    var target := NormPath(absNorm, filePath);
    var members := data.members;
    var i := 0;
    while i < |members|
      invariant 0 <= i <= |members|
      invariant MiScan(members, 0, target, KeyNorm(absNorm), MiEntry) == MiScan(members, i, target, KeyNorm(absNorm), MiEntry)
    {
      if NormPath(absNorm, members[i].0) == target {
        var entry := MiEntry(members[i].1);
        if entry.Raised? {
          MiHit(members, i, target, KeyNorm(absNorm), MiEntry);
          return MiError(filePath, ParseErrorText(FaultText(entry.fault)));
        }
        if entry.value.Some? {
          MiHit(members, i, target, KeyNorm(absNorm), MiEntry);
          return MiFound(filePath, entry.value.value.0, entry.value.value.1);
        }
      }
      MiSkip(members, i, target, KeyNorm(absNorm), MiEntry);
      i := i + 1;
    }
    r := MiError(filePath, NotFoundText(target, NormKeys(members, absNorm)));
  }

  // ---------------------------------------------------------------------
  // Project root

  /** An absolute path as its components below the filesystem root; the root
      itself is `[]`, the only path that is its own parent. */
  type Path = seq<string>

  /** `os.path.dirname` */
  function Parent(p: Path): (r: Path)
    ensures r == p <==> p == []
    ensures p != [] ==> r == p[..|p| - 1]
  {
    if p == [] then p else p[..|p| - 1]
  }

  /** Whether `pyproject.toml`, `setup.py` or `.git` exists in the directory,
      `exists` telling which paths exist. */
  predicate HasMarker(p: Path, exists_: Path -> bool) {
    exists_(p + ["pyproject.toml"]) || exists_(p + ["setup.py"]) || exists_(p + [".git"])
  }

  /** The nearest directory at or above `p`, short of the root, holding a
      marker. */
  function NearestMarked(p: Path, exists_: Path -> bool): (r: Option<Path>)
    ensures r.Some? ==> r.value != [] && |r.value| <= |p| && r.value == p[..|r.value|] && HasMarker(r.value, exists_)
    ensures r.Some? ==> forall k :: |r.value| < k <= |p| ==> !HasMarker(p[..k], exists_)
    ensures r.None? ==> forall k :: 0 < k <= |p| ==> !HasMarker(p[..k], exists_)
  {
    if p == [] then None
    else if HasMarker(p, exists_) then
      assert p[..|p|] == p;
      Some(p)
    else
      var r := NearestMarked(Parent(p), exists_);
      assert p[..|p|] == p;
      assert forall k :: 0 <= k < |p| ==> Parent(p)[..k] == p[..k];
      r
  }

  /** `find_project_root` on an absolute start path: the nearest marked
      ancestor, else the start path itself. */
  function ProjectRoot(start: Path, exists_: Path -> bool): (r: Path)
    ensures r <= start
    ensures r == start || (r != [] && HasMarker(r, exists_))
  {
    match NearestMarked(start, exists_)
    case Some(p) => p
    case None => start
  }

  /** The root directory is never checked: when only the root holds a marker
      the start path comes back. */
  lemma RootNeverChecked(start: Path, exists_: Path -> bool)
    requires forall k :: 0 < k <= |start| ==> !HasMarker(start[..k], exists_)
    ensures ProjectRoot(start, exists_) == start
  {
  }

  /** `find_project_root`: climb from the start path until a directory holds
      a marker or the root is reached. */
  method FindProjectRoot(start: Path, exists_: Path -> bool) returns (root: Path)
    ensures root == ProjectRoot(start, exists_)
  {
    var current := start;
    while current != Parent(current)
      invariant current <= start
      invariant NearestMarked(start, exists_) == NearestMarked(current, exists_)
      decreases |current|
    {
      if HasMarker(current, exists_) {
        return current;
      }
      current := Parent(current);
    }
    root := start;
  }
}

=== FILE: refactor.dfy ===
/** The `refactor --diff` output splitter
    (CodeReview/ClarityAndMaintainability/refactor_runner.py): a small state
    machine that cuts the diff into blocks at `@@` lines and tags each block
    with the file named by the latest `refactor:` line. */
module Refactor {
  import opened Runtime
  import opened Text

  /** One entry of the result: a diff block, or the notice for empty output. */
  datatype Change =
    | Suggestion(file: Option<string>, diff: string)
    | NoSuggestions(message: string)

  /** A diff block before its lines are joined. */
  datatype Block = Block(file: Option<string>, lines: seq<string>)

  /** The splitter's state: the blocks emitted so far, the current file (`None`
      until a `refactor:` line) and the body being accumulated. */
  datatype Splitter = Splitter(blocks: seq<Block>, current: Option<string>, body: seq<string>)

  /** A `--- ` or `+++ ` file header. */
  predicate IsHeader(line: string) {
    StartsWith(line, "--- ") || StartsWith(line, "+++ ")
  }

  /** A line the splitter keeps in a body: not a header, not a hunk marker,
      not a `refactor:` line. */
  predicate IsPlain(line: string) {
    !IsHeader(line) && !StartsWith(line, "@@") && !StartsWith(line, "refactor:")
  }

  /** One line of the loop. */
  function Step(st: Splitter, line: string): (r: Splitter)
    ensures IsHeader(line) ==> r == st
    ensures !IsHeader(line) && StartsWith(line, "@@") ==>
              r.current == st.current && r.body == []
              && r.blocks == st.blocks + (if st.body != [] then [Block(st.current, st.body)] else [])
    ensures !IsHeader(line) && !StartsWith(line, "@@") && StartsWith(line, "refactor:") ==>
              r == st.(current := Some(Strip(line[|"refactor:"|..])))
    ensures IsPlain(line) ==> r == st.(body := st.body + [line])
  {
    if IsHeader(line) then st
    else if StartsWith(line, "@@") then
      if st.body != [] then Splitter(st.blocks + [Block(st.current, st.body)], st.current, [])
      else st
    else if StartsWith(line, "refactor:") then
      // `line.split(':', 1)[1]`: the prefix's own colon is the first one
      st.(current := Some(Strip(line[9..])))
    else st.(body := st.body + [line])
  }

  /** The state after the loop has read `lines`. */
  function Run(lines: seq<string>): Splitter
  {
    if lines == [] then Splitter([], None, [])
    else Step(Run(lines[..|lines| - 1]), lines[|lines| - 1])
  }

  /** `if diff_lines and current_file`: the leftover body is emitted only
      with a non-empty current file. */
  predicate Flushes(st: Splitter) {
    st.body != [] && st.current.Some? && st.current.value != []
  }

  /** The blocks the parser returns: those emitted by the loop, then the
      leftover body when it flushes. */
  function Finish(st: Splitter): seq<Block>
  {
    st.blocks + (if Flushes(st) then [Block(st.current, st.body)] else [])
  }

  function Render(b: Block): Change {
    Suggestion(b.file, Join(b.lines, "\n"))
  }

  function RenderAll(blocks: seq<Block>): (r: seq<Change>)
    ensures |r| == |blocks| && forall k :: 0 <= k < |blocks| ==> r[k] == Render(blocks[k])
  {
    seq(|blocks|, k requires 0 <= k < |blocks| => Render(blocks[k]))
  }

  /** `parse_refactor_output` */
  function Report(output: string): seq<Change>
  {
    if Strip(output) == [] then [NoSuggestions("No refactor suggestions found.")]
    else RenderAll(Finish(Run(SplitLines(output))))
  }

  /** The lines of the blocks, in order. */
  function Flatten(blocks: seq<Block>): seq<string>
  {
    if blocks == [] then [] else Flatten(blocks[..|blocks| - 1]) + blocks[|blocks| - 1].lines
  }

  /** The plain lines, in order. */
  function Plain(lines: seq<string>): (r: seq<string>)
    ensures forall k :: 0 <= k < |r| ==> IsPlain(r[k])
  {
    if lines == [] then []
    else Plain(lines[..|lines| - 1]) + (if IsPlain(lines[|lines| - 1]) then [lines[|lines| - 1]] else [])
  }

  /** Whitespace-only output gives exactly the notice. */
  lemma BlankOutput(output: string)
    requires AllSpace(output)
    ensures Report(output) == [NoSuggestions("No refactor suggestions found.")]
  {
  }

  /** No line is lost or reordered: the emitted blocks followed by the body
      still open are exactly the plain lines read so far. */
  lemma {:induction false} Conservation(lines: seq<string>)
    ensures Flatten(Run(lines).blocks) + Run(lines).body == Plain(lines)
  {
    if lines != [] {
      var n := |lines| - 1;
      var st := Run(lines[..n]);
      Conservation(lines[..n]);
      var line := lines[n];
      if IsHeader(line) {
      } else if StartsWith(line, "@@") {
        if st.body != [] {
          var bs := st.blocks + [Block(st.current, st.body)];
          assert bs[..|bs| - 1] == st.blocks;
          assert Flatten(bs) + [] == Flatten(st.blocks) + st.body;
        }
      } else if StartsWith(line, "refactor:") {
      } else {
        assert Flatten(st.blocks) + (st.body + [line]) == Flatten(st.blocks) + st.body + [line];
      }
    }
  }

  /** Every emitted block has a non-empty body made of plain lines only: no
      header, hunk marker or `refactor:` line ever appears in a diff. */
  lemma {:induction false} BlocksPlain(lines: seq<string>)
    ensures forall j :: 0 <= j < |Run(lines).blocks| ==> Run(lines).blocks[j].lines != []
    ensures forall j, k :: 0 <= j < |Run(lines).blocks| && 0 <= k < |Run(lines).blocks[j].lines| ==>
              IsPlain(Run(lines).blocks[j].lines[k])
    ensures forall k :: 0 <= k < |Run(lines).body| ==> IsPlain(Run(lines).body[k])
  {
    if lines != [] {
      BlocksPlain(lines[..|lines| - 1]);
    }
  }

  /** What the parser returns loses exactly the leftover body when that body
      does not flush. */
  lemma FinishConservation(lines: seq<string>)
    ensures Flatten(Finish(Run(lines))) + (if Flushes(Run(lines)) then [] else Run(lines).body) == Plain(lines)
  {
    Conservation(lines);
    FinishOf(Run(lines));
  }

  /** The final flush moves the leftover body into the blocks, or leaves it. */
  lemma FinishOf(st: Splitter)
    ensures Flatten(Finish(st)) + (if Flushes(st) then [] else st.body) == Flatten(st.blocks) + st.body
  {
    if Flushes(st) {
      var bs := Finish(st);
      assert bs[..|bs| - 1] == st.blocks;
      assert Flatten(bs) + [] == Flatten(st.blocks) + st.body;
    } else {
      assert st.blocks + [] == st.blocks;
      assert Finish(st) == st.blocks;
    }
  }

  /** Non-blank output made only of headers, hunk markers and `refactor:`
      lines yields no entry at all. */
  lemma OnlyMarkers(output: string)
    requires Strip(output) != []
    requires forall k :: 0 <= k < |SplitLines(output)| ==> !IsPlain(SplitLines(output)[k])
    ensures Report(output) == []
  {
    var lines := SplitLines(output);
    NoPlain(lines);
    var st := Run(lines);
    Conservation(lines);
    BlocksPlain(lines);
    FlattenLength(st.blocks);
    assert Finish(st) == [];
  }

  /** No line is plain, so none is kept. */
  lemma {:induction false} NoPlain(lines: seq<string>)
    requires forall k :: 0 <= k < |lines| ==> !IsPlain(lines[k])
    ensures Plain(lines) == []
  {
    if lines != [] {
      NoPlain(lines[..|lines| - 1]);
    }
  }

  /** Non-empty blocks hold at least one line each. */
  lemma {:induction false} FlattenLength(blocks: seq<Block>)
    requires forall j :: 0 <= j < |blocks| ==> blocks[j].lines != []
    ensures |Flatten(blocks)| >= |blocks|
  {
    if blocks != [] {
      FlattenLength(blocks[..|blocks| - 1]);
    }
  }

  /** Rendering one more block appends its entry. */
  lemma RenderAllSnoc(blocks: seq<Block>, b: Block)
    ensures RenderAll(blocks + [b]) == RenderAll(blocks) + [Render(b)]
  {
    var x := RenderAll(blocks + [b]);
    var y := RenderAll(blocks) + [Render(b)];
    forall k | 0 <= k < |x| ensures x[k] == y[k] {
      if k < |blocks| {
        assert (blocks + [b])[k] == blocks[k];
      }
    }
  }

  /** The loop of `parse_refactor_output` over the lines, with its flush at
      each `@@` line: the entries emitted, the current file and the body
      still open. */
  method SplitLoop(lines: seq<string>) returns (changes: seq<Change>, currentFile: Option<string>, diffLines: seq<string>)
    ensures changes == RenderAll(Run(lines).blocks)
    ensures currentFile == Run(lines).current && diffLines == Run(lines).body
  {
    changes := [];
    currentFile := None;
    diffLines := [];
    var i := 0;
    while i < |lines|
      invariant 0 <= i <= |lines|
      invariant changes == RenderAll(Run(lines[..i]).blocks)
      invariant currentFile == Run(lines[..i]).current
      invariant diffLines == Run(lines[..i]).body
    {
      var line := lines[i];
      assert lines[..i + 1][..i] == lines[..i];
      ghost var st := Run(lines[..i]);
      if StartsWith(line, "--- ") || StartsWith(line, "+++ ") {
      } else if StartsWith(line, "@@") {
        if diffLines != [] {
          RenderAllSnoc(st.blocks, Block(currentFile, diffLines));
          changes := changes + [Suggestion(currentFile, Join(diffLines, "\n"))];
          diffLines := [];
        }
      } else if StartsWith(line, "refactor:") {
        currentFile := Some(Strip(line[9..]));
      } else {
        diffLines := diffLines + [line];
      }
      i := i + 1;
    }
    assert lines[..i] == lines;
  }

  /** `parse_refactor_output`: the notice for blank output; otherwise the
      loop over the lines, then the conditional final flush. */
  method ParseOutput(output: string) returns (changes: seq<Change>)
    ensures changes == Report(output)
  {
    if Strip(output) == [] {
      return [NoSuggestions("No refactor suggestions found.")];
    }
    var lines := SplitLines(output);
    var currentFile, diffLines;
    changes, currentFile, diffLines := SplitLoop(lines);
    ghost var st := Run(lines);
    if diffLines != [] && currentFile.Some? && currentFile.value != [] {
      RenderAllSnoc(st.blocks, Block(currentFile, diffLines));
      changes := changes + [Suggestion(currentFile, Join(diffLines, "\n"))];
    } else {
      assert Finish(st) == st.blocks + [];
      assert st.blocks + [] == st.blocks;
    }
  }
}

=== FILE: repr.dfy ===
/** Python's `repr` of a string, as it appears inside the repr of a list of
    strings: the quote it picks and the escapes it writes. Characters are
    those up to U+00A0; the non-printable characters Python escapes beyond
    that are not modelled. */
module Repr {
  import opened Runtime

  /** The quote `repr` puts around a string. */
  function QuoteOf(s: string): (q: char)
    ensures q == '"' <==> '\'' in s && '"' !in s
    ensures q == '\'' || q == '"'
  {
    if '\'' in s && '"' !in s then '"' else '\''
  }

  /** The characters written as `\xhh`: the control characters other than
      tab, newline and carriage return, DEL, the C1 controls and the no-break
      space. */
  predicate HexEscaped(c: char) {
    (c < ' ' && c != '\t' && c != '\n' && c != '\r') || ('\U{7F}' <= c <= '\U{A0}')
  }

  /** The lower-case hexadecimal digit of `n`. */
  function HexDigit(n: nat): (c: char)
    requires n < 16
    ensures IsHexDigit(c) && HexValue(c) == n
  {
    if n < 10 then ('0' as int + n) as char else ('a' as int + n - 10) as char
  }

  predicate IsHexDigit(c: char) {
    '0' <= c <= '9' || 'a' <= c <= 'f' || 'A' <= c <= 'F'
  }

  function HexValue(c: char): (n: nat)
    requires IsHexDigit(c)
    ensures n < 16
  {
    if c <= '9' then c as int - '0' as int
    else if c <= 'F' then c as int - 'A' as int + 10
    else c as int - 'a' as int + 10
  }

  /** One character of the string as `repr` writes it between quotes `q`. */
  function Escape(c: char, q: char): string
  {
    if c == '\\' then ['\\', '\\']
    else if c == q then ['\\', q]
    else if c == '\t' then ['\\', 't']
    else if c == '\n' then ['\\', 'n']
    else if c == '\r' then ['\\', 'r']
    else if HexEscaped(c) then ['\\', 'x', HexDigit(c as int / 16), HexDigit(c as int % 16)]
    else [c]
  }

  /** The string's characters as `repr` writes them between quotes `q`. */
  function Body(s: string, q: char): string
  {
    if s == [] then [] else Escape(s[0], q) + Body(s[1..], q)
  }

  /** `repr(s)` */
  function ReprStr(s: string): (r: string)
    ensures |r| >= 2 && r[0] == QuoteOf(s) && r[|r| - 1] == QuoteOf(s)
  {
    var q := QuoteOf(s);
    [q] + Body(s, q) + [q]
  }

  /** `[c]` in front of what is read, when something is read. */
  function Prefix(c: char, o: Option<string>): Option<string>
  {
    match o
    case None => None
    case Some(t) => Some([c] + t)
  }

  /** Reading back the text between quotes `q` of a Python string literal,
      for the escapes `repr` writes: a bare `q` or an unknown escape reads
      as nothing. */
  function Unescape(t: string, q: char): Option<string>
    decreases |t|
  {
    if t == [] then Some([])
    else if t[0] == q then None
    else if t[0] != '\\' then Prefix(t[0], Unescape(t[1..], q))
    else if |t| < 2 then None
    else if t[1] == '\\' || t[1] == q then Prefix(t[1], Unescape(t[2..], q))
    else if t[1] == 't' then Prefix('\t', Unescape(t[2..], q))
    else if t[1] == 'n' then Prefix('\n', Unescape(t[2..], q))
    else if t[1] == 'r' then Prefix('\r', Unescape(t[2..], q))
    else if t[1] == 'x' && |t| >= 4 && IsHexDigit(t[2]) && IsHexDigit(t[3]) then
      Prefix((16 * HexValue(t[2]) + HexValue(t[3])) as char, Unescape(t[4..], q))
    else None
  }

  /** One written character reads back as itself. */
  lemma EscapeRead(c: char, q: char, rest: string)
    requires q == '\'' || q == '"'
    ensures Unescape(Escape(c, q) + rest, q) == Prefix(c, Unescape(rest, q))
  {
    var t := Escape(c, q) + rest;
    if c == '\\' || c == q || c == '\t' || c == '\n' || c == '\r' {
      assert t[2..] == rest;
    } else if HexEscaped(c) {
      assert t[2] == HexDigit(c as int / 16) && t[3] == HexDigit(c as int % 16);
      assert t[4..] == rest;
    } else {
      assert t[1..] == rest;
    }
  }

  /** The round trip: what `repr` writes between the quotes reads back as
      the string itself. */
  lemma {:induction false} BodyRoundTrip(s: string, q: char)
    requires q == '\'' || q == '"'
    ensures Unescape(Body(s, q), q) == Some(s)
  {
    if s != [] {
      BodyRoundTrip(s[1..], q);
      EscapeRead(s[0], q, Body(s[1..], q));
      assert [s[0]] + s[1..] == s;
    }
  }

  /** `repr(s)` is a quoted literal that reads back as `s`. */
  lemma ReprReadBack(s: string)
    ensures var r := ReprStr(s); Unescape(r[1..|r| - 1], r[0]) == Some(s)
  {
    var q := QuoteOf(s);
    var r := ReprStr(s);
    assert r[1..|r| - 1] == Body(s, q);
    BodyRoundTrip(s, q);
  }

  /** A character `repr` writes as it is. */
  predicate Plain(c: char) {
    ' ' <= c < '\U{7F}' && c != '\\'
  }

  /** Printable ASCII without the chosen quote is written unchanged. */
  lemma {:induction false} PlainBody(s: string, q: char)
    requires forall k :: 0 <= k < |s| ==> Plain(s[k]) && s[k] != q
    ensures Body(s, q) == s
  {
    if s != [] {
      PlainBody(s[1..], q);
      assert [s[0]] + s[1..] == s;
    }
  }

  /** A string of printable ASCII without backslashes that does not hold
      both quotes is written between quotes unchanged: `'a/b.py'`, and
      `"it's"` for a string holding `'`. */
  lemma PlainRepr(s: string)
    requires forall k :: 0 <= k < |s| ==> Plain(s[k])
    requires '\'' !in s || '"' !in s
    ensures ReprStr(s) == [QuoteOf(s)] + s + [QuoteOf(s)]
  {
    var q := QuoteOf(s);
    forall k | 0 <= k < |s| ensures s[k] != q {
      assert s[k] in s;
    }
    PlainBody(s, q);
  }

  /** Without `'`, the string goes between `'` quotes. */
  lemma PlainExample()
    ensures ReprStr("a.py") == "'a.py'"
  {
    PlainRepr("a.py");
  }

  /** With `'` and no `"`, the string goes between `"` quotes. */
  lemma ApostropheExample()
    ensures ReprStr("it's") == "\"it's\""
  {
    assert '"' !in "it's" && "it's"[2] == '\'';
    PlainRepr("it's");
  }

  /** With both quotes present, `'` is chosen and escaped. */
  lemma EscapeExample()
    ensures ReprStr("a'\"") == "'a\\'\"'"
  {
    var s := "a'\"";
    assert s[1] == '\'' && s[2] == '"';
    assert QuoteOf(s) == '\'';
    assert s[1..] == "'\"" && s[1..][1..] == "\"" && s[1..][1..][1..] == [];
    assert Body(s, '\'') == "a\\'\"";
  }
}

=== FILE: runtime.dfy ===
/** Python runtime notions that the normalisers rely on: an absent value and
    the exceptions that can escape a parser. */
module Runtime {

  datatype Option<+T> = None | Some(value: T)

  /** The exception kinds a normaliser can raise. Each carries what `str(e)`
      would be built from. */
  datatype Fault =
    | AttributeError(typeName: string, attribute: string)
    | TypeError(detail: string)
    | ValueError(detail: string)
    | OverflowError(detail: string)

  /** The outcome of a Python call that may raise. */
  datatype Outcome<+T> = Ok(value: T) | Raised(fault: Fault)

  /** `str(e)` for a fault (only the attribute error has a fixed shape). */
  function FaultText(f: Fault): string
  {
    match f
    case AttributeError(ty, attr) => "'" + ty + "' object has no attribute '" + attr + "'"
    case TypeError(d) => d
    case ValueError(d) => d
    case OverflowError(d) => d
  }

  /** The records in front of what the rest of a loop returns, when it
      returns without raising. */
  function Prepend<T>(pre: seq<T>, o: Outcome<seq<T>>): (r: Outcome<seq<T>>)
    ensures r.Raised? <==> o.Raised?
    ensures r.Raised? ==> r.fault == o.fault
    ensures r.Ok? ==> pre <= r.value && r.value[|pre|..] == o.value
  {
    match o
    case Raised(f) => Raised(f)
    case Ok(rest) => Ok(pre + rest)
  }

  /** Moving one record from the rest of the loop to the records so far. */
  lemma PrependStep<T>(pre: seq<T>, x: T, o: Outcome<seq<T>>)
    ensures Prepend(pre, Prepend([x], o)) == Prepend(pre + [x], o)
  {
    if o.Ok? {
      assert pre + ([x] + o.value) == pre + [x] + o.value;
    }
  }

  /** No record in front changes nothing. */
  lemma PrependNone<T>(o: Outcome<seq<T>>)
    ensures Prepend([], o) == o
  {
    if o.Ok? {
      assert [] + o.value == o.value;
    }
  }
}

=== FILE: text.dfy ===
/** The Python `str` operations the normalisers use, over `seq<char>`. */
module Text {
  import opened Runtime

  /** Python whitespace, restricted to ASCII: space, \t, \n, \r, \v and \f. */
  predicate IsSpace(c: char) {
    c == ' ' || c == '\t' || c == '\n' || c == '\r' || c == '\U{B}' || c == '\U{C}'
  }

  predicate IsDigit(c: char) { '0' <= c <= '9' }

  predicate IsUpper(c: char) { 'A' <= c <= 'Z' }

  predicate AllSpace(s: string) { forall k :: 0 <= k < |s| ==> IsSpace(s[k]) }

  predicate AllDigits(s: string) { forall k :: 0 <= k < |s| ==> IsDigit(s[k]) }

  /** `s.startswith(prefix)` */
  predicate StartsWith(s: string, prefix: string) { prefix <= s }

  /** A text that starts with `prefix` is `prefix` and what follows it. */
  lemma PrefixThenRest(s: string, prefix: string)
    requires StartsWith(s, prefix)
    ensures s == prefix + s[|prefix|..]
  {
  }

  /** `sub in s` */
  predicate Contains(s: string, sub: string)
    decreases |s|
  {
    StartsWith(s, sub) || (s != [] && Contains(s[1..], sub))
  }

  /** An occurrence at any position makes `sub in s` true. */
  lemma {:induction false} ContainsAt(s: string, sub: string, i: nat)
    requires i <= |s| && StartsWith(s[i..], sub)
    ensures Contains(s, sub)
    decreases i
  {
    if i > 0 {
      assert s[1..][i - 1..] == s[i..];
      ContainsAt(s[1..], sub, i - 1);
    }
  }

  /** `sub in s` only when `sub` occurs at some position. */
  lemma {:induction false} ContainsWitness(s: string, sub: string) returns (i: nat)
    requires Contains(s, sub)
    ensures i <= |s| && StartsWith(s[i..], sub)
    decreases |s|
  {
    if StartsWith(s, sub) {
      i := 0;
    } else {
      var j := ContainsWitness(s[1..], sub);
      assert s[1..][j..] == s[j + 1..];
      i := j + 1;
    }
  }

  /** A text contains whatever stands between its two outer parts. */
  lemma ContainsMiddle(a: string, b: string, c: string)
    ensures Contains(a + b + c, b)
  {
    assert (a + b + c)[|a|..] == b + c;
    ContainsAt(a + b + c, b, |a|);
  }

  /** What a text contains, any text starting with it contains too. */
  lemma ContainsPrefix(t: string, q: string, sub: string)
    requires Contains(t, sub)
    ensures Contains(t + q, sub)
  {
    var i := ContainsWitness(t, sub);
    assert (t + q)[i..] == t[i..] + q;
    ContainsAt(t + q, sub, i);
  }

  /** What a text contains, any text ending with it contains too. */
  lemma ContainsSuffix(p: string, t: string, sub: string)
    requires Contains(t, sub)
    ensures Contains(p + t, sub)
  {
    var i := ContainsWitness(t, sub);
    assert (p + t)[|p| + i..] == t[i..];
    ContainsAt(p + t, sub, |p| + i);
  }

  /** `s.lstrip()` */
  function LStrip(s: string): (r: string)
    ensures |r| <= |s| && r == s[|s| - |r|..]
    ensures AllSpace(s[..|s| - |r|])
    ensures r == [] || !IsSpace(r[0])
    decreases |s|
  {
    if s != [] && IsSpace(s[0]) then LStrip(s[1..]) else s
  }

  /** `s.rstrip()` */
  function RStrip(s: string): (r: string)
    ensures |r| <= |s| && r == s[..|r|]
    ensures AllSpace(s[|r|..])
    ensures r == [] || !IsSpace(r[|r| - 1])
    decreases |s|
  {
    if s != [] && IsSpace(s[|s| - 1]) then RStrip(s[..|s| - 1]) else s
  }

  /** `s.strip()`: the result starts and ends with a non-space character,
      and is empty exactly when `s` is all whitespace. */
  function Strip(s: string): (r: string)
    ensures |r| <= |s|
    ensures r == [] || (!IsSpace(r[0]) && !IsSpace(r[|r| - 1]))
    ensures r == [] <==> AllSpace(s)
  {
    var l := LStrip(s);
    var r := RStrip(l);
    assert r != [] ==> r[0] == l[0];
    r
  }

  /** Stripping a trimmed text surrounded by whitespace gives that text back. */
  lemma {:induction false} StripSpaced(w1: string, x: string, w2: string)
    requires AllSpace(w1) && AllSpace(w2)
    requires x == [] || (!IsSpace(x[0]) && !IsSpace(x[|x| - 1]))
    ensures Strip(w1 + x + w2) == x
  {
    if x == [] {
      assert AllSpace(w1 + x + w2);
    } else {
      LStripSpaced(w1, x + w2);
      assert w1 + x + w2 == w1 + (x + w2);
      RStripSpaced(x, w2);
    }
  }

  lemma {:induction false} LStripSpaced(w: string, y: string)
    requires AllSpace(w)
    requires y == [] || !IsSpace(y[0])
    ensures LStrip(w + y) == y
    decreases |w|
  {
    if w != [] {
      assert (w + y)[1..] == w[1..] + y;
      LStripSpaced(w[1..], y);
    } else {
      assert w + y == y;
    }
  }

  lemma {:induction false} RStripSpaced(x: string, w: string)
    requires AllSpace(w)
    requires x != [] && !IsSpace(x[|x| - 1])
    ensures RStrip(x + w) == x
    decreases |w|
  {
    if w != [] {
      assert (x + w)[..|x + w| - 1] == x + w[..|w| - 1];
      RStripSpaced(x, w[..|w| - 1]);
    } else {
      assert x + w == x;
    }
  }

  /** Stripping is idempotent, so every stripped field is already trimmed. */
  lemma StripIdempotent(s: string)
    ensures Strip(Strip(s)) == Strip(s)
  {
    StripSpaced([], Strip(s), []);
    assert [] + Strip(s) + [] == Strip(s);
  }

  /** `s.split(sep)` for a non-empty separator: cut at the non-overlapping
      occurrences of `sep`, scanning left to right. */
  function SplitOn(s: string, sep: string): (r: seq<string>)
    requires sep != []
    ensures |r| >= 1
    decreases |s|
  {
    if StartsWith(s, sep) then [[]] + SplitOn(s[|sep|..], sep)
    else if s == [] then [[]]
    else
      var rest := SplitOn(s[1..], sep);
      [[s[0]] + rest[0]] + rest[1..]
  }

  /** `sep.join(parts)` */
  function Join(parts: seq<string>, sep: string): string
  {
    if parts == [] then []
    else if |parts| == 1 then parts[0]
    else parts[0] + sep + Join(parts[1..], sep)
  }

  /** Every part occurs in the joined text. */
  lemma {:induction false} JoinContains(parts: seq<string>, sep: string, k: nat)
    requires k < |parts|
    ensures Contains(Join(parts, sep), parts[k])
    decreases k
  {
    if |parts| == 1 {
      ContainsMiddle([], parts[0], []);
      assert [] + parts[0] + [] == parts[0];
    } else if k == 0 {
      ContainsMiddle([], parts[0], sep + Join(parts[1..], sep));
      assert [] + parts[0] + (sep + Join(parts[1..], sep)) == Join(parts, sep);
    } else {
      JoinContains(parts[1..], sep, k - 1);
      ContainsSuffix(parts[0] + sep, Join(parts[1..], sep), parts[k]);
      assert parts[0] + sep + Join(parts[1..], sep) == Join(parts, sep);
    }
  }

  /** Splitting and joining with the same separator gives the text back. */
  lemma {:induction false} JoinSplitOn(s: string, sep: string)
    requires sep != []
    ensures Join(SplitOn(s, sep), sep) == s
    decreases |s|
  {
    if StartsWith(s, sep) {
      JoinSplitOn(s[|sep|..], sep);
      JoinSplitSep(s, sep);
    } else if s != [] {
      JoinSplitOn(s[1..], sep);
      JoinSplitChar(s, sep);
    }
  }

  /** A leading separator: an empty first part, joined back by `sep`. */
  lemma JoinSplitSep(s: string, sep: string)
    requires sep != [] && StartsWith(s, sep)
    requires Join(SplitOn(s[|sep|..], sep), sep) == s[|sep|..]
    ensures Join(SplitOn(s, sep), sep) == s
  {
    var rest := SplitOn(s[|sep|..], sep);
    assert SplitOn(s, sep) == [[]] + rest;
    JoinCons([], rest, sep);
    PrefixThenRest(s, sep);
  }

  /** A leading character that starts no separator: glued to the first part. */
  lemma JoinSplitChar(s: string, sep: string)
    requires sep != [] && s != [] && !StartsWith(s, sep)
    requires Join(SplitOn(s[1..], sep), sep) == s[1..]
    ensures Join(SplitOn(s, sep), sep) == s
  {
    JoinGlue([s[0]], SplitOn(s[1..], sep), sep);
    assert s == [s[0]] + s[1..];
  }

  lemma JoinCons(a: string, rest: seq<string>, sep: string)
    requires |rest| >= 1
    ensures Join([a] + rest, sep) == a + sep + Join(rest, sep)
  {
    assert ([a] + rest)[1..] == rest;
  }

  lemma JoinGlue(a: string, rest: seq<string>, sep: string)
    requires |rest| >= 1
    ensures Join([a + rest[0]] + rest[1..], sep) == a + Join(rest, sep)
  {
    if |rest| > 1 {
      assert ([a + rest[0]] + rest[1..])[1..] == rest[1..];
      assert Join(rest, sep) == rest[0] + sep + Join(rest[1..], sep);
    }
  }

  /** `s.splitlines()` with '\n' as the only line boundary: no trailing
      empty line, and no line at all for the empty text. */
  function SplitLines(s: string): (r: seq<string>)
    ensures s == [] <==> r == []
  {
    if s == [] then []
    else if s[|s| - 1] == '\n' then SplitOn(s[..|s| - 1], "\n")
    else SplitOn(s, "\n")
  }

  /** `re.split(r"\s+", s)`: cut at every maximal whitespace run, keeping an
      empty first field for leading and an empty last field for trailing
      whitespace. */
  function ReSplitSpaces(s: string): (r: seq<string>)
    ensures |r| >= 1
    decreases |s|
  {
    if s == [] then [[]]
    else if IsSpace(s[0]) then [[]] + ReSplitSpaces(LStrip(s[1..]))
    else
      var rest := ReSplitSpaces(s[1..]);
      [[s[0]] + rest[0]] + rest[1..]
  }

  /** First index at or after `i` that holds no whitespace (or `|s|`). */
  function SpaceEnd(s: string, i: nat): (j: nat)
    requires i <= |s|
    ensures i <= j <= |s|
    ensures forall k :: i <= k < j ==> IsSpace(s[k])
    ensures j < |s| ==> !IsSpace(s[j])
    decreases |s| - i
  {
    if i < |s| && IsSpace(s[i]) then SpaceEnd(s, i + 1) else i
  }

  /** First index at or after `i` that holds whitespace (or `|s|`). */
  function TokenEnd(s: string, i: nat): (j: nat)
    requires i <= |s|
    ensures i <= j <= |s|
    ensures forall k :: i <= k < j ==> !IsSpace(s[k])
    decreases |s| - i
  {
    if i < |s| && !IsSpace(s[i]) then TokenEnd(s, i + 1) else i
  }

  /** `s[i:].split(None, maxsplit)`: at most `maxsplit` cuts; the remainder
      after the last cut (leading whitespace removed) is the final element. */
  function SplitFieldsFrom(s: string, i: nat, maxsplit: nat): seq<string>
    requires i <= |s|
    decreases |s| - i
  {
    var j := SpaceEnd(s, i);
    if j == |s| then []
    else if maxsplit == 0 then [s[j..]]
    else
      var e := TokenEnd(s, j);
      [s[j..e]] + SplitFieldsFrom(s, e, maxsplit - 1)
  }

  /** `s.split(None, maxsplit)` */
  function SplitFields(s: string, maxsplit: nat): seq<string>
  {
    SplitFieldsFrom(s, 0, maxsplit)
  }

  /** Number of whitespace-separated tokens of `s[i:]`. */
  function TokenCountFrom(s: string, i: nat): nat
    requires i <= |s|
    decreases |s| - i
  {
    var j := SpaceEnd(s, i);
    if j == |s| then 0 else 1 + TokenCountFrom(s, TokenEnd(s, j))
  }

  /** `len(s.split())` */
  function TokenCount(s: string): nat
  {
    TokenCountFrom(s, 0)
  }

  /** `s.split(None, m)` has one element per token, up to `m + 1`. */
  lemma {:induction false} SplitFieldsCount(s: string, i: nat, m: nat)
    requires i <= |s|
    ensures TokenCountFrom(s, i) <= m ==> |SplitFieldsFrom(s, i, m)| == TokenCountFrom(s, i)
    ensures TokenCountFrom(s, i) > m ==> |SplitFieldsFrom(s, i, m)| == m + 1
    decreases |s| - i
  {
    var j := SpaceEnd(s, i);
    if j < |s| && m > 0 {
      SplitFieldsCount(s, TokenEnd(s, j), m - 1);
    }
  }

  /** A token of `s.split()`: non-empty and free of whitespace. */
  predicate IsToken(t: string) {
    t != [] && forall c :: 0 <= c < |t| ==> !IsSpace(t[c])
  }

  /** `s.split(None, m)`: every element before the `m`-th is a token, and an
      `m`-th element is the rest of the text from a non-blank character on,
      whitespace inside it kept. */
  lemma {:induction false} SplitFieldsShape(s: string, i: nat, m: nat)
    requires i <= |s|
    ensures var r := SplitFieldsFrom(s, i, m);
            forall k :: 0 <= k < |r| && k < m ==> IsToken(r[k])
    ensures var r := SplitFieldsFrom(s, i, m);
            |r| == m + 1 ==> exists j :: i <= j < |s| && !IsSpace(s[j]) && r[m] == s[j..]
    decreases |s| - i
  {
    var j := SpaceEnd(s, i);
    if j < |s| && m > 0 {
      var e := TokenEnd(s, j);
      assert e > j;
      SplitFieldsShape(s, e, m - 1);
      var rest := SplitFieldsFrom(s, e, m - 1);
      var r := [s[j..e]] + rest;
      assert SplitFieldsFrom(s, i, m) == r;
      if |r| == m + 1 {
        var j' :| e <= j' < |s| && !IsSpace(s[j']) && rest[m - 1] == s[j'..];
        assert r[m] == s[j'..];
      }
      forall k | 0 <= k < |r| && k < m
        ensures IsToken(r[k])
      {
        if k > 0 {
          assert r[k] == rest[k - 1];
        }
      }
    }
  }

  /** End of the run of ASCII digits starting at `i` (a greedy `\d+`/`\d*`). */
  function DigitEnd(s: string, i: nat): (j: nat)
    requires i <= |s|
    ensures i <= j <= |s|
    ensures forall k :: i <= k < j ==> IsDigit(s[k])
    ensures j < |s| ==> !IsDigit(s[j])
    decreases |s| - i
  {
    if i < |s| && IsDigit(s[i]) then DigitEnd(s, i + 1) else i
  }

  /** A digit run that stops at a non-digit (or the end) is what `DigitEnd` finds. */
  lemma {:induction false} DigitEndAt(s: string, i: nat, j: nat)
    requires i <= j <= |s|
    requires forall k :: i <= k < j ==> IsDigit(s[k])
    requires j < |s| ==> !IsDigit(s[j])
    ensures DigitEnd(s, i) == j
    decreases j - i
  {
    if i < j {
      DigitEndAt(s, i + 1, j);
    }
  }

  /** The whitespace run starting at `i` ends at `j`. */
  lemma {:induction false} SpaceEndAt(s: string, i: nat, j: nat)
    requires i <= j <= |s|
    requires forall k :: i <= k < j ==> IsSpace(s[k])
    requires j < |s| ==> !IsSpace(s[j])
    ensures SpaceEnd(s, i) == j
    decreases j - i
  {
    if i < j {
      SpaceEndAt(s, i + 1, j);
    }
  }

  /** A text without the separator is not cut. */
  lemma {:induction false} SplitOnAbsent(s: string, c: char)
    requires c !in s
    ensures SplitOn(s, [c]) == [s]
    decreases |s|
  {
    if s != [] {
      assert !StartsWith(s, [c]) by { assert s[0] != c; }
      SplitOnAbsent(s[1..], c);
      assert [s[0]] + s[1..] == s;
    }
  }

  /** A text without the character does not contain it. */
  lemma {:induction false} NotContainsChar(s: string, c: char)
    requires c !in s
    ensures !Contains(s, [c])
    decreases |s|
  {
    if s != [] {
      assert s[0] != c;
      NotContainsChar(s[1..], c);
    }
  }

  /** A text lacking a character of `sub` does not contain `sub`. */
  lemma {:induction false} NotContainsVia(s: string, sub: string, c: char)
    requires c in sub && c !in s
    ensures !Contains(s, sub)
    decreases |s|
  {
    if s != [] {
      NotContainsVia(s[1..], sub, c);
    }
  }

  /** A text without the separator splits into itself alone. */
  lemma {:induction false} SplitOnNone(s: string, sep: string)
    requires sep != [] && !Contains(s, sep)
    ensures SplitOn(s, sep) == [s]
    decreases |s|
  {
    if s != [] {
      SplitOnNone(s[1..], sep);
      assert [s[0]] + s[1..] == s;
    }
  }

  /** The first cut falls after `x` when no occurrence of the separator
      starts inside `x`. */
  lemma {:induction false} SplitOnFirst(x: string, y: string, sep: string)
    requires sep != [] && !Contains(x + sep[..|sep| - 1], sep)
    ensures SplitOn(x + sep + y, sep) == [x] + SplitOn(y, sep)
    decreases |x|
  {
    var s := x + sep + y;
    if x == [] {
      assert s == sep + y;
      assert s[|sep|..] == y;
    } else {
      SplitOnFirstHead(x, y, sep);
      SplitOnFirst(x[1..], y, sep);
      SplitOnFirstStep(x, y, sep);
    }
  }

  /** No separator starts at the first character of `x`, nor inside the rest
      of `x`. */
  lemma SplitOnFirstHead(x: string, y: string, sep: string)
    requires sep != [] && x != [] && !Contains(x + sep[..|sep| - 1], sep)
    ensures !StartsWith(x + sep + y, sep)
    ensures !Contains(x[1..] + sep[..|sep| - 1], sep)
  {
    var s := x + sep + y;
    var t := x + sep[..|sep| - 1];
    assert t[..|sep|] == s[..|sep|];
    assert t[1..] == x[1..] + sep[..|sep| - 1];
  }

  /** The first character of `x` joins the first part of the rest. */
  lemma SplitOnFirstStep(x: string, y: string, sep: string)
    requires sep != [] && x != [] && !StartsWith(x + sep + y, sep)
    requires SplitOn(x[1..] + sep + y, sep) == [x[1..]] + SplitOn(y, sep)
    ensures SplitOn(x + sep + y, sep) == [x] + SplitOn(y, sep)
  {
    var s := x + sep + y;
    assert s[0] == x[0] && s[1..] == x[1..] + sep + y;
    var rest := SplitOn(s[1..], sep);
    assert rest == [x[1..]] + SplitOn(y, sep);
    assert [s[0]] + rest[0] == x && rest[1..] == SplitOn(y, sep);
    assert SplitOn(s, sep) == [[s[0]] + rest[0]] + rest[1..];
  }

  /** A text that neither starts nor ends with whitespace is its own strip. */
  lemma StripTrimmed(s: string)
    requires s == [] || (!IsSpace(s[0]) && !IsSpace(s[|s| - 1]))
    ensures Strip(s) == s
  {
    StripSpaced([], s, []);
    assert [] + s + [] == s;
  }

  /** One leading space is stripped from a trimmed text. */
  lemma StripLeadingSpace(s: string, x: string)
    requires x == [] || (!IsSpace(x[0]) && !IsSpace(x[|x| - 1]))
    requires s == " " + x
    ensures Strip(s) == x
  {
    StripSpaced(" ", x, []);
    assert " " + x + [] == s;
  }

  /** A non-empty text without a line break is a single line. */
  lemma SplitLinesOne(s: string)
    requires s != [] && '\n' !in s
    ensures SplitLines(s) == [s]
  {
    SplitOnAbsent(s, '\n');
  }

  /** End of the run of ASCII digits and points starting at `i` (a greedy
      `[\d\.]*`). */
  function DigitDotEnd(s: string, i: nat): (j: nat)
    requires i <= |s|
    ensures i <= j <= |s|
    ensures forall k :: i <= k < j ==> IsDigit(s[k]) || s[k] == '.'
    ensures j < |s| ==> !IsDigit(s[j]) && s[j] != '.'
    decreases |s| - i
  {
    if i < |s| && (IsDigit(s[i]) || s[i] == '.') then DigitDotEnd(s, i + 1) else i
  }

  /** A run of digits and points that stops at anything else is what
      `DigitDotEnd` finds. */
  lemma {:induction false} DigitDotEndAt(s: string, i: nat, j: nat)
    requires i <= j <= |s|
    requires forall k :: i <= k < j ==> IsDigit(s[k]) || s[k] == '.'
    requires j < |s| ==> !IsDigit(s[j]) && s[j] != '.'
    ensures DigitDotEnd(s, i) == j
    decreases j - i
  {
    if i < j {
      DigitDotEndAt(s, i + 1, j);
    }
  }

  /** `(\d+)c` at the start of `t`: the digits and what follows `c`. */
  function DigitsThen(t: string, c: char): (r: Option<(string, string)>)
    ensures r.Some? ==> r.value.0 != [] && AllDigits(r.value.0) && r.value.0 + [c] + r.value.1 == t
  {
    var a := DigitEnd(t, 0);
    if a == 0 || a == |t| || t[a] != c then None
    else
      assert t == t[..a] + [t[a]] + t[a + 1..];
      Some((t[..a], t[a + 1..]))
  }

  /** Digits, then a non-digit `c`, are read back as they were written. */
  lemma DigitsThenOf(d: string, c: char, rest: string)
    requires d != [] && AllDigits(d) && !IsDigit(c)
    ensures DigitsThen(d + [c] + rest, c) == Some((d, rest))
  {
    var t := d + [c] + rest;
    DigitEndAt(t, 0, |d|);
    assert t[..|d|] == d;
    assert t[|d| + 1..] == rest;
  }

  /** Text that does not start with a digit has no `(\d+)c` prefix. */
  lemma NoDigitsThen(t: string, c: char)
    requires t == [] || !IsDigit(t[0])
    ensures DigitsThen(t, c) == None
  {
    DigitEndAt(t, 0, 0);
  }

  /** A colon at `i` of a path that a report line's `:(\d+):` could take
      for the one before the line number: digits follow it inside the path,
      then another colon. */
  predicate RowColonAt(path: string, i: nat)
    requires i < |path|
  {
    path[i] == ':' && DigitsThen(path[i + 1..], ':').Some?
  }

  /** No colon of the path could be taken for the one before the line
      number. */
  predicate NoRowColon(path: string) {
    forall i :: 0 <= i < |path| ==> !RowColonAt(path, i)
  }

  /** A path without colons has none the line number could take. */
  lemma ColonFree(path: string)
    requires ':' !in path
    ensures NoRowColon(path)
  {
  }

  /** Reading `(\d+):` past the end of a text that holds none: either
      nothing is read, or the digits are the whole text and the colon the
      one placed after it. */
  lemma DigitsThenPast(p: string, rest: string)
    requires DigitsThen(p, ':').None?
    ensures DigitsThen(p + ":" + rest, ':') == None || DigitsThen(p + ":" + rest, ':') == Some((p, rest))
  {
    var t := p + ":" + rest;
    var a := DigitEnd(p, 0);
    forall k | 0 <= k < a ensures IsDigit(t[k]) {
      assert t[k] == p[k];
    }
    if a < |p| {
      assert t[a] == p[a];
      DigitEndAt(t, 0, a);
    } else if p == [] {
      NoDigitsThen(t, ':');
    } else {
      DigitsThenOf(p, ':', rest);
    }
  }

  /** Indexing `a`, one character `c`, then `b`. */
  lemma CharAt(a: string, c: char, b: string, k: nat)
    requires k < |a + [c] + b|
    ensures (a + [c] + b)[k] == if k < |a| then a[k] else if k == |a| then c else b[k - |a| - 1]
  {
  }

  /** What follows the character `c` placed after `a`. */
  lemma TailAfter(a: string, c: char, b: string)
    ensures (a + [c] + b)[|a| + 1..] == b
  {
  }

  /** The text cut around position `i`. */
  lemma SplitAround(s: string, i: nat)
    requires i < |s|
    ensures s == s[..i] + [s[i]] + s[i + 1..]
  {
  }

  /** A prefix agrees with the text at each of its positions. */
  lemma PrefixAt(p: string, s: string, i: nat)
    ensures p <= s && i < |p| ==> p[i] == s[i]
  {
  }

  /** Length of the run of ASCII digits at the start of `s` (a greedy `\d+`). */
  function DigitRun(s: string): (n: nat)
    ensures n <= |s|
    ensures forall k :: 0 <= k < n ==> IsDigit(s[k])
    ensures n < |s| ==> !IsDigit(s[n])
  {
    DigitEnd(s, 0)
  }

  /** The digit run of a digit string followed by a non-digit is the whole string. */
  lemma DigitRunOf(d: string, rest: string)
    requires AllDigits(d)
    requires rest == [] || !IsDigit(rest[0])
    ensures DigitRun(d + rest) == |d|
  {
    var s := d + rest;
    forall k | 0 <= k < |d| ensures IsDigit(s[k]) {
      assert s[k] == d[k];
    }
    DigitEndAt(s, 0, |d|);
  }

  /** `int(d)` for a string of ASCII digits. */
  function NatOf(d: string): nat
    requires AllDigits(d)
  {
    if d == [] then 0 else 10 * NatOf(d[..|d| - 1]) + (d[|d| - 1] as int - '0' as int)
  }

  /** Index of the first `c` in `s`, or `|s|` when there is none. */
  function IndexOf(s: string, c: char): (i: nat)
    ensures i <= |s|
    ensures forall k :: 0 <= k < i ==> s[k] != c
    ensures i < |s| ==> s[i] == c
  {
    if s == [] || s[0] == c then 0 else 1 + IndexOf(s[1..], c)
  }

  /** `s.split(c)[-1]`: the text after the last `c`. */
  function AfterLast(s: string, c: char): (r: string)
    ensures |r| <= |s| && r == s[|s| - |r|..]
    ensures c !in r
    ensures |r| < |s| ==> s[|s| - |r| - 1] == c
  {
    if s == [] || s[|s| - 1] == c then []
    else AfterLast(s[..|s| - 1], c) + [s[|s| - 1]]
  }

  /** `s.replace(a, b)` for single characters. */
  function ReplaceChar(s: string, a: char, b: char): (r: string)
    ensures |r| == |s|
    ensures forall k :: 0 <= k < |s| ==> r[k] == if s[k] == a then b else s[k]
  {
    seq(|s|, k requires 0 <= k < |s| => if s[k] == a then b else s[k])
  }
}
